=== FILE: README.md ===
# Parallel start nodes of the serverless enactment engine, in Dafny

This project models the two fan-out control nodes of the enactment engine and
the shared state store they read and write:

- `ParallelStartNode` runs a static set of branches. It resolves each
  declared input from its alternative sources, copies the value under the
  node's own key, forwards the loop context to the branches, and sizes a
  worker pool for them.
- `ParallelForStartNode` unrolls a loop whose bounds may only be known at run
  time:
  - it gathers the inputs and the counter variables;
  - it reads the bounds and clones the loop body once per extra iteration;
  - it finds the matching parallel-for end node and sets its join count;
  - it distributes the input collections over the iterations (`element-index`,
    `BLOCK(n)`, `REPLICATE(n)`, `REPLICATE(*)`);
  - it re-tags every iteration with its id and writes each iteration's inputs
    into the store under `key/(i+1)`.
- `State` is a single JSON object keyed by slash-separated paths:
  - `addParamToState` converts a textual result by its type tag;
  - `addResultToState` stores a function's declared outputs;
  - `findJSONSubObject` walks into nested objects.

The model is a set of pure functions over immutable values:

- The node tree is a `Node` datatype.
- The store is a `map<string, Json>`.
- A Java exception is a `Fail` carrying an `Error` variant.
- Each `call` is a function from the node, its inputs and the store to the
  set-up children, the pool size and the new store.
- Library code the engine relies on is a record `Lib` of uninterpreted
  functions, and no property depends on what they compute:
  - Gson's printer and parser;
  - `Double.parseDouble`;
  - the element-index parser;
  - the text heuristics of BLOCK chunking.
- Where a property needs Gson to read back what it prints, that is the
  explicit hypothesis `ReadsBack(lib)`.

Modules, in dependency order:

- `Failures`: `Option`, `Result` and the exception variants.
- `Text`: Java string operations (`split`, literal `replace`, regex deletion
  of a character class, `trim`).
- `Numerals`: `int` range, `Integer.parseInt`, decimal printing.
- `JsonValues`: Gson's `JsonElement` and `Lib`.
- `Workflow`: the workflow-description records.
- `Nodes`: the node tree, the end-node search, re-tagging, cloning and pool
  sizing.
- `StateStore`: `State`.
- `Sources`: scoped source keys, alternatives and sub-object paths.
- `Distribution`: `distributeElements` and its helpers.
- `ParallelFor`: `ParallelForStartNode`.
- `Parallel`: `ParallelStartNode`.

Two behaviours of the code are easy to misread:

- The parallel-for end node waits for `children.size()` parents, which is
  the loop body's children plus the clones. So a one-node body with
  `from = 0`, `to = 5` and `step = 1` gets 4 clones and a join count of 5.
- The counter variables in `call` are split with the literal `replace`
  rather than the regex `replaceAll` that `addChildren` uses. The model keeps
  that difference (see `ParallelFor.SpacedCounterNameIsMissing`).

## Model

| member | source | states |
|---|---|---|
| Nodes.FindMatchingEndFound | src/main/java/at/enactmentengine/serverless/nodes/ParallelForStartNode.java:429-452 | a found end node is the first end node met at nesting depth zero along the first-child chain, with nested start/end pairs skipped |
| Nodes.FindMatchingEndNone | src/main/java/at/enactmentengine/serverless/nodes/ParallelForStartNode.java:429-452 | when the search returns null, no end node is met at depth zero anywhere along the first-child chain |
| Nodes.RetagTagsRegion | src/main/java/at/enactmentengine/serverless/nodes/ParallelForStartNode.java:343-352 | `setId` plus `setIdOfChildren` tags the node and every descendant down to the first parallel-for end node on each path; below those end nodes, and in every other field, nothing changes |
| Nodes.RetagUnique | src/main/java/at/enactmentengine/serverless/nodes/ParallelForStartNode.java:343-352 | conversely, any tree tagged through that region and otherwise equal to the original is the re-tagged tree |
| Nodes.CloneIsCopy | src/main/java/at/enactmentengine/serverless/nodes/ParallelStartNode.java:202-216 | a clone has the same fields and children structurally equal to the originals |
| Nodes.PoolSize | src/main/java/at/enactmentengine/serverless/nodes/ParallelForStartNode.java:288-289 | the pool size is the smaller of branch count and limit; a pool of no threads is an `IllegalArgumentException` |
| Nodes.CopyPresent | src/main/java/at/enactmentengine/serverless/nodes/ParallelForStartNode.java:164-179 | `passResult` adds exactly the input entries whose key is listed, with the input's value, and keeps every other held entry |
| StateStore.WriteKeysDistinct | src/main/java/at/enactmentengine/serverless/object/State.java:84 | `WriteKey` builds the path `name/id`, or `name` for id 0; two different ids never give the same path |
| StateStore.WriteKeyUnique | src/main/java/at/enactmentengine/serverless/nodes/ParallelForStartNode.java:316-321 | two scoped paths `name/id` agree only when both the name and the id do, so iterations cannot overwrite each other's inputs |
| StateStore.ParseTypeTag | src/main/java/at/enactmentengine/serverless/object/State.java:37-41 | the lower-cased tag is accepted iff it is one of string, number, collection and boolean; any other tag is an `IllegalStateException` |
| StateStore.AddParamToState | src/main/java/at/enactmentengine/serverless/object/State.java:36-85 | succeeds iff the tag is known and the conversion `ToJson` succeeds. Then exactly the key `name[/id]` is added or replaced, holding the converted value, and every other key keeps its value |
| StateStore.StringResultDropsQuotes | src/main/java/at/enactmentengine/serverless/object/State.java:42-44 | a string result is stored without its surrounding double quotes |
| StateStore.NumberBranch | src/main/java/at/enactmentengine/serverless/object/State.java:45-52 | the number conversion takes the double branch iff the stripped text contains a dot; otherwise it is an `Integer.parseInt`, and its failure is a `NumberFormatException` |
| StateStore.NumberResultRoundTrip | src/main/java/at/enactmentengine/serverless/object/State.java:45-52 | a printed `int`, bare or quoted, is stored as that integer |
| StateStore.CollectionElements | src/main/java/at/enactmentengine/serverless/object/State.java:53-72 | a bracketed list that does not hold objects becomes one trimmed string per comma-separated field, empty fields kept |
| StateStore.CollectionRoundTrip | src/main/java/at/enactmentengine/serverless/object/State.java:53-72 | a bracketed, comma-joined list of plain items converts back to exactly those items as JSON strings |
| StateStore.EmptyCollectionHasOneEmptyElement | src/main/java/at/enactmentengine/serverless/object/State.java:69-71 | the text `[]` is stored as a one-element array holding the empty string |
| StateStore.CollectionWithoutDelimitersIsNull | src/main/java/at/enactmentengine/serverless/object/State.java:53-76 | a collection text that is neither bracketed nor braced is stored as JSON null |
| StateStore.StoreOutputs | src/main/java/at/enactmentengine/serverless/object/State.java:91-97 | from output `i` on, the loop stops at the first output that is missing or fails to convert; a missing output is a `MissingOutputDataException`. The outputs before it are stored: exactly their `name/output[/id]` paths are added, each holds the converted value of the last output of that name, and every other path keeps its value |
| StateStore.AddResultToState | src/main/java/at/enactmentengine/serverless/object/State.java:87-98 | succeeds iff every declared output is present and converts. Exactly the paths `name/output[/id]` of the outputs before the first bad one are added, each holding the converted value of the last output of that name; every other path keeps its value; a missing output is a `MissingOutputDataException` |
| StateStore.WalkIsPathLookup | src/main/java/at/enactmentengine/serverless/object/State.java:111-118 | when the slash count matches, the sub-key loop is the reference lookup: it descends through objects, gives no value for a missing last key, and fails on a missing or non-object intermediate |
| StateStore.FindJsonSubObject | src/main/java/at/enactmentengine/serverless/object/State.java:100-129 | an absent data source gives no value. A stored array or double gives its printed text, a string its value, an int its decimal digits and a boolean `true` or `false`; JSON null is an `UnsupportedOperationException` |
| StateStore.FindJsonSubObjectLooksUp | src/main/java/at/enactmentengine/serverless/object/State.java:100-129 | for a stored object, the result is the printed member at the end of the `/`-separated path |
| Sources.ScopeId | src/main/java/at/enactmentengine/serverless/nodes/ParallelForStartNode.java:213-219 | the read scope is the node's own id when non-zero; otherwise the first parent's id when that parent exists, has a non-zero id and is not a parallel-for end; otherwise the top level 0 |
| Sources.SourceKey | src/main/java/at/enactmentengine/serverless/nodes/ParallelForStartNode.java:213-219 | the qualified source is the write path of the source in that scope |
| Sources.ScopedReadsMatchWrites | src/main/java/at/enactmentengine/serverless/nodes/ParallelForStartNode.java:213-219 | inside iteration `id` a reader looks up exactly the path a writer in that iteration stores under, and never another iteration's path |
| Sources.Alternatives | src/main/java/at/enactmentengine/serverless/nodes/ParallelForStartNode.java:221-222 | no alternative contains a comma, whitespace or a bracket. The alternatives are the comma-separated fields of the key with whitespace and brackets deleted, with only trailing empty fields dropped, and those fields joined by commas give back the cleaned key |
| Sources.OnlyLastAlternativeScoped | src/main/java/at/enactmentengine/serverless/nodes/ParallelForStartNode.java:213-222 | for a source list `a,b,c` in a scope with an id, only the last alternative gets the `/id` suffix |
| Sources.SingleSourceIsOnlyAlternative | src/main/java/at/enactmentengine/serverless/nodes/ParallelForStartNode.java:221-222 | a clean single source is its own only alternative |
| Sources.SubObject | src/main/java/at/enactmentengine/serverless/nodes/ParallelForStartNode.java:228-231 | a path with at most one `/` has no sub-object |
| Sources.SubObjectSplitsAtSecondSlash | src/main/java/at/enactmentengine/serverless/nodes/ParallelForStartNode.java:228-231 | for `a/b/sub`, the sub-object is looked up at `a/b` along `sub`, passing the slash count of the whole path |
| Distribution.GetConstraint | src/main/java/at/enactmentengine/serverless/nodes/ParallelForStartNode.java:742-749 | the result is absent iff no constraint has the name; otherwise it is the first constraint with that name |
| Distribution.FirstUnknown | src/main/java/at/enactmentengine/serverless/nodes/ParallelForStartNode.java:670-675 | every constraint before the position is `element-index` or `distribution`, and the one at the position is neither |
| Distribution.SelectIndices | src/main/java/at/enactmentengine/serverless/nodes/ParallelForStartNode.java:682-687 | succeeds iff every index is in range; then element `k` is the element at index `k`, repeats allowed; otherwise it fails with an out-of-range index |
| Distribution.ParseCount | src/main/java/at/enactmentengine/serverless/nodes/ParallelForStartNode.java:699 | a parsed count is a non-negative `int`; a failure is a `NumberFormatException` |
| Distribution.ParseCountRoundTrip | src/main/java/at/enactmentengine/serverless/nodes/ParallelForStartNode.java:699 | a count written between text free of digits, `?`, `!` and `.` is read back exactly |
| Distribution.BlockFromIsChunks | src/main/java/at/enactmentengine/serverless/nodes/ParallelForStartNode.java:641-653 | the block loop yields exactly the reference partition into consecutive chunks of the block width |
| Distribution.Blocks | src/main/java/at/enactmentengine/serverless/nodes/ParallelForStartNode.java:625-656 | fails iff the collection is empty (reading element 0) or its first element's text, with quotes and backslashes deleted, is shorter than two characters (`charAt(1)`); each failure is an index error. Otherwise the blocks laid end to end are the prepared collection, every block but the last has the block width, and the last is non-empty and no wider |
| Distribution.Replicate | src/main/java/at/enactmentengine/serverless/nodes/ParallelForStartNode.java:713-717 | `n` copies of the collection, none for a non-positive `n` |
| Distribution.UnknownConstraintRejected | src/main/java/at/enactmentengine/serverless/nodes/ParallelForStartNode.java:670-675 | a constraint other than `element-index` and `distribution` is rejected as not implemented, naming the first such constraint |
| Distribution.BroadcastWithoutDistribution | src/main/java/at/enactmentengine/serverless/nodes/ParallelForStartNode.java:722-729 | without a distribution constraint every iteration receives the whole selected collection |
| Distribution.ElementIndexSelects | src/main/java/at/enactmentengine/serverless/nodes/ParallelForStartNode.java:678-688 | `element-index` selects by position before distribution and fails iff an index is out of range |
| Distribution.Distribute | src/main/java/at/enactmentengine/serverless/nodes/ParallelForStartNode.java:667-732 | the first constraint other than `element-index` and `distribution` is rejected as not implemented. A failing selection fails the distribution with the same error, and success implies the selection succeeded. Without a distribution constraint there is one chunk per iteration |
| Distribution.ReplicateCopies | src/main/java/at/enactmentengine/serverless/nodes/ParallelForStartNode.java:703-717 | `REPLICATE(n)` gives `n` copies of the collection selected by `element-index` (the whole collection without that constraint) |
| Distribution.ReplicatePerIteration | src/main/java/at/enactmentengine/serverless/nodes/ParallelForStartNode.java:703-717 | `REPLICATE(*)` gives one copy of the selected collection per iteration |
| Distribution.BlockPartitions | src/main/java/at/enactmentengine/serverless/nodes/ParallelForStartNode.java:696-702 | `BLOCK(n)` on the selected collection fails with an index error iff the selection is empty or its first element's cleaned text is shorter than two characters. Otherwise the blocks laid end to end are the prepared selection, every block but the last holds `n` elements, and the last is non-empty and holds at most `n` |
| Distribution.OtherDistributionRejected | src/main/java/at/enactmentengine/serverless/nodes/ParallelForStartNode.java:718-720 | a distribution value containing neither `BLOCK` nor `REPLICATE` is rejected as not implemented, naming the value |
| ParallelFor.ParseBound | src/main/java/at/enactmentengine/serverless/nodes/ParallelForStartNode.java:123-134 | a bound is a literal iff its text parses as an `int`, and then it holds the parsed value; otherwise the text itself is the variable name |
| ParallelFor.ParseLoopCounter | src/main/java/at/enactmentengine/serverless/nodes/ParallelForStartNode.java:120-144 | `from` and `to` are literals holding their parsed values iff their texts parse, and otherwise variable names; a step that parses is its value, and any other step is 1 |
| ParallelFor.LiteralLoopCounter | src/main/java/at/enactmentengine/serverless/nodes/ParallelForStartNode.java:120-144 | printed `int` bounds are read back as the literals themselves |
| ParallelFor.NamedLoopCounter | src/main/java/at/enactmentengine/serverless/nodes/ParallelForStartNode.java:120-144 | bounds containing a non-numeric character are variable names, and such a step becomes 1 |
| ParallelFor.ConcurrencyFromIsLast | src/main/java/at/enactmentengine/serverless/nodes/ParallelForStartNode.java:95-112 | the last parsable `concurrency` constraint sets the thread limit; without one the default stays |
| ParallelFor.NewForNode | src/main/java/at/enactmentengine/serverless/nodes/ParallelForStartNode.java:78-88 | the constructor parses the loop counter. The thread limit is the default 1000 without constraints, and otherwise what the `concurrency` constraints set (the last parsable one, see `ConcurrencyFromIsLast`) |
| ParallelFor.ForwardedLimit | src/main/java/at/enactmentengine/serverless/nodes/ParallelForStartNode.java:293 | the limit handed to iterations is -1 exactly for the default (or an explicit -1), and the configured limit otherwise |
| ParallelFor.CounterNames | src/main/java/at/enactmentengine/serverless/nodes/ParallelForStartNode.java:124-133 | the counter variables are exactly the bounds that are variable names |
| ParallelFor.ResolveName | src/main/java/at/enactmentengine/serverless/nodes/ParallelForStartNode.java:364-388 | resolution succeeds iff some alternative has a counter value, and then gives the last such alternative; otherwise it is a `MissingInputDataException` naming the variable |
| ParallelFor.ResolveBound | src/main/java/at/enactmentengine/serverless/nodes/ParallelForStartNode.java:364-388 | literals are kept; a variable resolves to a name that has a value, exactly when name resolution succeeds |
| ParallelFor.ReadFrom | src/main/java/at/enactmentengine/serverless/nodes/ParallelForStartNode.java:393-395 | only a Java string start value can be read (`ClassCastException` otherwise), and it is its parsed integer |
| ParallelFor.ReadTo | src/main/java/at/enactmentengine/serverless/nodes/ParallelForStartNode.java:396-398 | the end value is the printed value read as a double, truncated and narrowed to `int`; unreadable text is a `NumberFormatException` |
| ParallelFor.ResolveBounds | src/main/java/at/enactmentengine/serverless/nodes/ParallelForStartNode.java:361-401 | both variables are resolved before either is read, `from` first; literal bounds are used as they are; the results are `int`s |
| ParallelFor.FromStateVariableFails | src/main/java/at/enactmentengine/serverless/nodes/ParallelForStartNode.java:394 | a `from` variable found only in the state is a JSON element, and the cast to `String` rejects it |
| ParallelFor.ToStateVariableReads | src/main/java/at/enactmentengine/serverless/nodes/ParallelForStartNode.java:397 | a `to` variable found in the state is read through its printed form |
| ParallelFor.LoopValuesShape | src/main/java/at/enactmentengine/serverless/nodes/ParallelForStartNode.java:410 | the loop visits `start + j*step` for consecutive `j`, all below the bound, and the count is the ceiling of the distance over the step |
| ParallelFor.IterationCount | src/main/java/at/enactmentengine/serverless/nodes/ParallelForStartNode.java:410-413 | no clones when `start >= end - 1` (in `int` arithmetic); otherwise the clone count is the ceiling of the distance over the step. A zero step never ends and a negative or overflowing counter wraps; both are reported as errors |
| ParallelFor.CountFromZero | src/main/java/at/enactmentengine/serverless/nodes/ParallelForStartNode.java:410-413 | from 0 to `n` with step 1 the loop appends `n - 1` clones |
| ParallelFor.Unroll | src/main/java/at/enactmentengine/serverless/nodes/ParallelForStartNode.java:405-419 | an empty body fails on `get(0)`. Otherwise the children are the body followed by one clone of its first node per iteration, and the join count is the child count. A missing end node fails exactly when the iteration count exists |
| ParallelFor.UnrollZeroToN | src/main/java/at/enactmentengine/serverless/nodes/ParallelForStartNode.java:405-419 | from 0 to `n` with step 1 the body grows by `n - 1` clones and the end node waits for that many children |
| ParallelFor.EndNodeSearch | src/main/java/at/enactmentengine/serverless/nodes/ParallelForStartNode.java:429-452 | the end node is found iff a parallel-for end is met at depth zero on the first-child chain |
| ParallelFor.SetupChild | src/main/java/at/enactmentengine/serverless/nodes/ParallelForStartNode.java:296-313 | iteration `i` gets loop counter `i`, the loop bound, the forwarded limit, the start time and id `i + 1` through its region. A following If/Parallel/Switch start gets `isAfterParallelForNode = 0`, any other node keeps it, and nothing else changes |
| ParallelFor.SetupChildren | src/main/java/at/enactmentengine/serverless/nodes/ParallelForStartNode.java:296-313 | child `i` is child `i` set up for iteration `i`: loop counter `i`, the loop bound, the forwarded limit, the start time and id `i + 1` through its region, with nesting 0 for If/Parallel/Switch starts and nothing else changed. The children carry distinct ids |
| ParallelFor.SetupTagsIteration | src/main/java/at/enactmentengine/serverless/nodes/ParallelForStartNode.java:312-313 | each iteration is tagged `i + 1` through its region with nothing else changed below, and iterations carry distinct ids |
| ParallelFor.DataText | src/main/java/at/enactmentengine/serverless/nodes/ParallelForStartNode.java:233-239 | a sub-object wins; a collection port or a stored array keeps its JSON text; a stored string keeps its string value |
| ParallelFor.GatherAlternatives | src/main/java/at/enactmentengine/serverless/nodes/ParallelForStartNode.java:224-243 | every stored alternative is kept, and only alternatives are added. For plain paths the added keys are exactly the stored alternatives, each holding its text |
| ParallelFor.GatheredText | src/main/java/at/enactmentengine/serverless/nodes/ParallelForStartNode.java:224-241 | a stored alternative without a sub-object path holds its text after the port's loop, whatever sub-object paths the other alternatives have |
| ParallelFor.GatherData | src/main/java/at/enactmentengine/serverless/nodes/ParallelForStartNode.java:207-245 | every stored alternative of every port is gathered; entries no port reads keep their value; a stored alternative without a sub-object path holds, as text, the value the last port reading it takes from the state (its `DataText`) |
| ParallelFor.StoredAlternatives | src/main/java/at/enactmentengine/serverless/nodes/ParallelForStartNode.java:256-260 | every stored alternative is taken with its stored value, and nothing else is added |
| ParallelFor.GatherCounters | src/main/java/at/enactmentengine/serverless/nodes/ParallelForStartNode.java:248-261 | every stored split alternative of a counter name is taken with its stored value; no other key is added; values not in the state stay |
| ParallelFor.SpacedCounterNameIsMissing | src/main/java/at/enactmentengine/serverless/nodes/ParallelForStartNode.java:253-254 | for the name `i, n`, gathering searches the state for ` n` while resolution looks for `n`, so a counter `n` held only in the state is reported missing |
| ParallelFor.Elements | src/main/java/at/enactmentengine/serverless/nodes/ParallelForStartNode.java:493-532 | arrays are taken as they are and single numbers and strings as one-element arrays; objects and null are not implemented |
| ParallelFor.Collapse | src/main/java/at/enactmentengine/serverless/nodes/ParallelForStartNode.java:589-596 | a one-element chunk becomes its scalar (by `getAsNumber` for number ports, which rejects booleans); any other chunk stays an array |
| ParallelFor.CollapseAll | src/main/java/at/enactmentengine/serverless/nodes/ParallelForStartNode.java:587-597 | succeeds iff every chunk collapses, giving one text per chunk |
| ParallelFor.PortTexts | src/main/java/at/enactmentengine/serverless/nodes/ParallelForStartNode.java:492-530 | one alternative's texts exist iff its value converts to an array, distributes and every chunk collapses; then text `i` is the collapsed chunk `i` |
| ParallelFor.RecordFrom | src/main/java/at/enactmentengine/serverless/nodes/ParallelForStartNode.java:584-615 | entry `i` of an existing per-iteration map is set to chunk `i`; missing maps are appended; later maps are untouched |
| ParallelFor.TransferPort | src/main/java/at/enactmentengine/serverless/nodes/ParallelForStartNode.java:486-534 | fails iff some gathered alternative fails to distribute or collapse, and with no gathered alternative the values stay as they are. Entries under other keys keep their values, and iteration `i` holds under `node/port` the collapsed chunk `i` of the last gathered alternative |
| ParallelFor.TransferSinglePort | src/main/java/at/enactmentengine/serverless/nodes/ParallelForStartNode.java:486-534 | iteration `i` receives, under `node/port`, the collapsed chunk `i` of the distribution |
| ParallelFor.TransferOutVals | src/main/java/at/enactmentengine/serverless/nodes/ParallelForStartNode.java:462-545 | without constrained ports nothing is handed to the iterations. Every entry key is `node/port` of a constrained port, and for the last constrained port of each name, iteration `i` holds the collapsed chunk `i` of its last gathered alternative |
| ParallelFor.TransferFrom | src/main/java/at/enactmentengine/serverless/nodes/ParallelForStartNode.java:470-542 | unconstrained ports contribute nothing and no iteration is dropped. Entries under keys of no constrained port keep their values, and the last constrained port of each name delivers the collapsed chunk `i` of its last gathered alternative to iteration `i` |
| ParallelFor.WriteIteration | src/main/java/at/enactmentengine/serverless/nodes/ParallelForStartNode.java:317-319 | iteration `i` writes each entry as a string under `key/(i+1)`, and nothing else changes |
| ParallelFor.WriteFrom | src/main/java/at/enactmentengine/serverless/nodes/ParallelForStartNode.java:296-321 | every entry of every iteration ends up at its own path with its own value (no iteration overwrites another), and every other key is unchanged |
| ParallelFor.WriteChunks | src/main/java/at/enactmentengine/serverless/nodes/ParallelForStartNode.java:315-321 | only iterations that exist and have entries are written, each at its own paths; the store otherwise stays |
| ParallelFor.PassForResult | src/main/java/at/enactmentengine/serverless/nodes/ParallelForStartNode.java:152-181 | exactly the input entries named by a port's raw source, or by a counter variable, are added with the input's value; every other held data and counter entry keeps its value |
| ParallelFor.Launched | src/main/java/at/enactmentengine/serverless/nodes/ParallelForStartNode.java:285-321 | after the bounds are read: the child count is the body plus the iteration count, child `i` is set up with the loop bound `to - 1`, the pool is the smaller of child count and limit, and the distributed inputs are written under `k/(j + 1)`; an empty body fails |
| ParallelFor.Call | src/main/java/at/enactmentengine/serverless/nodes/ParallelForStartNode.java:192-336 | on success the end node waits for every child, and the pool is the smaller of child count and limit. An empty body fails. An unresolvable `from` variable is a `MissingInputDataException` naming it, and so is an unresolvable `to` once `from` resolved |
| ParallelFor.CallBounds | src/main/java/at/enactmentengine/serverless/nodes/ParallelForStartNode.java:361-419 | a successful call resolved both bounds; the children are the body plus one clone per iteration count of the resolved range, and every child's loop bound is `to - 1` in `int` arithmetic |
| ParallelFor.CallIterations | src/main/java/at/enactmentengine/serverless/nodes/ParallelForStartNode.java:296-313 | child `i` is body node `i`, or for a clone the first body node, set up for iteration `i` with id `i + 1`, the shared loop bound and the forwarded limit |
| ParallelFor.CallWrites | src/main/java/at/enactmentengine/serverless/nodes/ParallelForStartNode.java:315-321 | the store only gains keys, each of the form `key/j` for an existing iteration `j` and holding a string; entry `k` of iteration `j`'s distributed inputs is stored under `k/(j + 1)` as its text |
| Parallel.ResolveAlternatives | src/main/java/at/enactmentengine/serverless/nodes/ParallelStartNode.java:86-101 | only the port's own key changes; the port is found only when it was found already or the key was written |
| Parallel.PlainAlternatives | src/main/java/at/enactmentengine/serverless/nodes/ParallelStartNode.java:86-101 | for a source with at most one `/` the loop cannot throw, and the port is found iff some alternative is stored |
| Parallel.SubObjectFailureStops | src/main/java/at/enactmentengine/serverless/nodes/ParallelStartNode.java:88-93 | an exception of the sub-object read is the port's exception, and nothing is written before it |
| Parallel.NoAlternativeStored | src/main/java/at/enactmentengine/serverless/nodes/ParallelStartNode.java:95-100 | without a sub-object and with no alternative stored, the state is unchanged |
| Parallel.LastStoredAlternativeWins | src/main/java/at/enactmentengine/serverless/nodes/ParallelStartNode.java:95-99 | without a sub-object, the port key ends up holding `fromJson` of the printed value of the last stored alternative, since each stored alternative overwrites it |
| Parallel.SubObjectWins | src/main/java/at/enactmentengine/serverless/nodes/ParallelStartNode.java:88-99 | a sub-object found for the raw source is what every alternative writes, so the port key holds `fromJson` of it |
| Parallel.ResolveFrom | src/main/java/at/enactmentengine/serverless/nodes/ParallelStartNode.java:71-107 | when every port resolves each port has its key; in every outcome, including the exception, no key other than a port key is added and all other keys keep their values |
| Parallel.ResolvedPortValue | src/main/java/at/enactmentengine/serverless/nodes/ParallelStartNode.java:71-101 | when every port resolves, a plain port that is the last to write its key holds `fromJson` of its last stored alternative's printed value, as the state held it before the loop |
| Parallel.FailureKeepsEarlierPorts | src/main/java/at/enactmentengine/serverless/nodes/ParallelStartNode.java:71-107 | a failed input loop leaves exactly the state that resolving the ports before the first failing one gives, and that port throws or finds nothing |
| Parallel.MissingIffNoAlternative | src/main/java/at/enactmentengine/serverless/nodes/ParallelStartNode.java:95-106 | a plain port fails iff none of its alternatives is stored; the failure is a `MissingInputDataException` naming the source, and the state is unchanged |
| Parallel.ResolvedPortCopiesValue | src/main/java/at/enactmentengine/serverless/nodes/ParallelStartNode.java:95-99 | with a reading-back JSON library, the port's key receives a copy of the stored alternative's value |
| Parallel.ResolveInputs | src/main/java/at/enactmentengine/serverless/nodes/ParallelStartNode.java:68-108 | without declared inputs nothing happens. Otherwise every port key is present when all resolve, and in every outcome no other key is added and keys that are not port keys keep their values |
| Parallel.ForwardContext | src/main/java/at/enactmentengine/serverless/nodes/ParallelStartNode.java:123-128 | the loop context is copied to a branch iff the node runs inside an iteration, and nothing else changes |
| Parallel.PropagateNesting | src/main/java/at/enactmentengine/serverless/nodes/ParallelStartNode.java:133-145 | after a parallel-for, nested If/Parallel/Switch starts learn the count plus the number of simulation branches, and simulation branches take it as their parallel-function amount; others are untouched |
| Parallel.PrepareBranches | src/main/java/at/enactmentengine/serverless/nodes/ParallelStartNode.java:116-145 | inside an iteration the branches take the node's loop counter, bound, limit and start time, and otherwise keep their own. After a parallel-for, If/Parallel/Switch starts get the count plus the number of simulation branches, and simulation branches take it as their parallel-function amount. Every other field is unchanged |
| Parallel.TopLevelBranchesUnchanged | src/main/java/at/enactmentengine/serverless/nodes/ParallelStartNode.java:116-145 | outside any loop and parallel-for the branches are left as they are |
| Parallel.SimulationCountConcat | src/main/java/at/enactmentengine/serverless/nodes/ParallelStartNode.java:116-122 | the simulation-branch count adds up over concatenated branch lists |
| Parallel.SimulationCountAll | src/main/java/at/enactmentengine/serverless/nodes/ParallelStartNode.java:116-122 | the count is the number of branches when all are simulation nodes, and zero when none is |
| Parallel.Call | src/main/java/at/enactmentengine/serverless/nodes/ParallelStartNode.java:63-154 | a failing input is the call's exception, and the state keeps the writes made before it. Once the inputs resolve, every port key is present and the call succeeds iff there is a branch; then the pool size is the smaller of the branch count and 1000 and each branch gets the forwarded context and nesting count. Only port keys change in the state |
| Parallel.CallPortValue | src/main/java/at/enactmentengine/serverless/nodes/ParallelStartNode.java:71-101 | after a call whose inputs resolve, a plain port that is the last to write its key holds `fromJson` of its last stored alternative's printed value |
| Parallel.FailedCallKeepsEarlierPorts | src/main/java/at/enactmentengine/serverless/nodes/ParallelStartNode.java:71-107 | a call whose inputs fail throws, and the state it leaves is what the ports before the failing one wrote |
| Parallel.PassResult | src/main/java/at/enactmentengine/serverless/nodes/ParallelStartNode.java:162-181 | exactly the input entries named by a port's raw source are added, with the input's value; every other held value stays, including held entries whose key is in the input but not listed |
| Parallel.ParallelEndSearch | src/main/java/at/enactmentengine/serverless/nodes/ParallelStartNode.java:226-251 | the parallel end node is found iff a parallel end is met at depth zero on the first-child chain |

## Left out

- Threads, executors and futures: each `call` is modelled up to the
  submission of its children. The children's execution, `future.get()`,
  `shutdown()` and any exception a child raises are not modelled.
- The nesting counts a parallel start node sets after submitting its branches
  (a race with the running branches) are modelled as set before submission.
- Logging is left out.
- Gson's printing and parsing, `Double.parseDouble`,
  `ElementIndex.parseIndices`, the unwrapping of a single-element collection
  before BLOCK chunking and the per-element clean-up inside it are
  uninterpreted `Lib` functions. Exceptions inside them are not modelled.
  The `charAt(1)` that BLOCK chunking applies to the first element's text is
  modelled (`Distribution.Blocks`); its `charAt(length - 2)` cannot fail once
  `charAt(1)` succeeded.
- `Integer.parseInt` and `toLowerCase` are modelled on ASCII digits and
  letters only, and `\s` as the six ASCII whitespace characters.
- Doubles are kept as their text. `ParallelFor.ReadTo` takes the truncated
  value from the library and narrows it to `int` by saturation.
- Java objects other than strings, integers, doubles, JSON elements and
  `ArrayList`s (represented by the JSON array Gson turns them into) are left
  out of the held input values.
- ParallelFor.IterationCount: a loop whose step is zero, or whose counter
  would wrap past the `int` range, does not terminate or appends clones
  until memory runs out. The model reports these as `NonTerminating` and
  `CounterWrapAround` instead of following the wrap-around.
- ParallelFor.Call: requires literal bounds to be `int`s, which the parser
  guarantees.
- ParallelFor.Call: repeated calls on the same node are not modelled:
  `addChildren` overwrites `counterVariableNames` with the resolved
  alternative and appends to `children`.
- ParallelFor.TransferOutVals: `passData` is not modelled, because the output
  map it reads is always empty when it runs. Ports without constraints
  therefore contribute nothing.
- The commented-out input block of `call` (ParallelForStartNode.java lines
  264-280) is dead code.
- Clones in Java share the end node through `clone(endNode)`. The model
  returns the join count separately instead of mutating a shared end node.
- ParallelFor.SetupChildren, ParallelFor.CallIterations: in Java the shared
  end node is re-tagged by `setIdOfChildren` in every iteration whose region
  reaches it, so after `call` its id is the last such iteration's id
  (`children.size()` when there is a clone), and iterations already submitted
  race with those writes. The model gives each iteration its own copy of the
  end node, tagged `i + 1`, and does not state the shared node's final id.
- Parallel.PropagateNesting: the 64-bit `long` sum `isAfterParallelForNode +
  simNodes` is not wrapped.
- StateStore.AddResultToState: takes the function's result as the map of its
  members' printed texts, so the Gson parse of the whole result and its
  failure on a non-object are not modelled.
- `null` configuration fields (a `null` constraint value, a `null` type) are
  left out; an absent list of ports or constraints is an `Option`.
- The simulation-model and other node classes are outside this model. Only
  their kind and the two counter fields the start nodes set are kept.

=== FILE: distribution.dfy ===
/** `distributeElements` and its helpers: which part of an input collection
    each iteration of a parallel-for receives. */
module Distribution {
  import opened Failures
  import opened Text
  import opened Numerals
  import opened JsonValues
  import opened Workflow

  /** Position of the first constraint called `name`, or `|cs|` when there is
      none. */
  function FirstNamed(cs: seq<Constraint>, name: string): (k: nat)
    ensures k <= |cs|
    ensures forall j :: 0 <= j < k ==> cs[j].name != name
    ensures k < |cs| ==> cs[k].name == name
  {
    if cs == [] || cs[0].name == name then 0
    else FirstNamed(cs[1..], name) + 1
  }

  /** `getPropertyConstraintByName`: the first constraint with that name. */
  function GetConstraint(cs: seq<Constraint>, name: string): (r: Option<Constraint>)
    ensures r.None? <==> forall j :: 0 <= j < |cs| ==> cs[j].name != name
    ensures r.Some? ==> r.value.name == name
    ensures r.Some? ==>
      exists k :: 0 <= k < |cs| && cs[k] == r.value && (forall j :: 0 <= j < k ==> cs[j].name != name)
  {
    var k := FirstNamed(cs, name);
    if k < |cs| then Some(cs[k]) else None
  }

  /** The two constraint names `distributeElements` understands. */
  predicate Known(name: string) {
    name == "element-index" || name == "distribution"
  }

  /** Position of the first constraint with a name not understood, or `|cs|`. */
  function FirstUnknown(cs: seq<Constraint>): (k: nat)
    ensures k <= |cs|
    ensures forall j :: 0 <= j < k ==> Known(cs[j].name)
    ensures k < |cs| ==> !Known(cs[k].name)
  {
    if cs == [] || !Known(cs[0].name) then 0
    else FirstUnknown(cs[1..]) + 1
  }

  /** The `element-index` subset: the elements at the given positions, in the
      given order, repeats allowed. A position outside the collection is an
      `IndexOutOfBoundsException` from `JsonArray.get`. */
  function SelectIndices(data: seq<Json>, indices: seq<int>): (r: Result<seq<Json>>)
    ensures r.Ok? <==> forall k :: 0 <= k < |indices| ==> 0 <= indices[k] < |data|
    ensures r.Ok? ==> |r.value| == |indices|
    ensures r.Ok? ==> forall k :: 0 <= k < |indices| ==> r.value[k] == data[indices[k]]
    ensures r.Fail? ==> r.error.IndexOutOfBounds? && !(0 <= r.error.index < |data|)
  {
    if indices == [] then Ok([])
    else
      var i := indices[0];
      if 0 <= i < |data| then
        match SelectIndices(data, indices[1..])
        case Ok(rest) => Ok([data[i]] + rest)
        case Fail(e) => Fail(e)
      else Fail(IndexOutOfBounds(i))
  }

  /** The characters `replaceAll("[^0-9?!.]", "")` keeps. */
  predicate KeepNumeric(c: char) {
    IsDigit(c) || c == '?' || c == '!' || c == '.'
  }

  /** The count in a `BLOCK(n)` or `REPLICATE(n)` value: every character but
      digits, `?`, `!` and `.` is deleted and the rest parsed as an `int`. */
  function ParseCount(value: string): (r: Result<int>)
    ensures r.Ok? ==> 0 <= r.value <= MaxInt32
    ensures r.Fail? ==> r.error.NumberFormat?
  {
    var t := Filter(value, KeepNumeric);
    match ParseInt32(t)
    case Some(n) => Ok(n)
    case None => Fail(NumberFormat(t))
  }

  /** A count written between text free of digits, `?`, `!` and `.` is read
      back exactly, as in `BLOCK(3)` or `REPLICATE(12)`. */
  lemma ParseCountRoundTrip(prefix: string, n: int, suffix: string)
    requires 0 <= n <= MaxInt32
    requires forall i :: 0 <= i < |prefix| ==> !KeepNumeric(prefix[i])
    requires forall i :: 0 <= i < |suffix| ==> !KeepNumeric(suffix[i])
    ensures ParseCount(prefix + IntToString(n) + suffix) == Ok(n)
  {
    var digits := IntToString(n);
    assert Filter(digits, KeepNumeric) == digits by {
      FilterKeepsAll(digits, KeepNumeric);
    }
    FilterAround(prefix, digits, suffix);
    ParseIntToString(n);
  }

  lemma FilterAround(prefix: string, middle: string, suffix: string)
    requires forall i :: 0 <= i < |prefix| ==> !KeepNumeric(prefix[i])
    requires forall i :: 0 <= i < |suffix| ==> !KeepNumeric(suffix[i])
    ensures Filter(prefix + middle + suffix, KeepNumeric) == Filter(middle, KeepNumeric)
  {
    FilterNone(prefix, KeepNumeric);
    FilterNone(suffix, KeepNumeric);
    FilterConcat(prefix + middle, suffix, KeepNumeric);
    FilterConcat(prefix, middle, KeepNumeric);
  }

  /** The reference partition: consecutive chunks of `n` elements, the last
      one possibly shorter. */
  function Chunks(ys: seq<Json>, n: nat): seq<seq<Json>>
    requires n >= 1
    decreases |ys|
  {
    if |ys| <= n then (if ys == [] then [] else [ys])
    else [ys[..n]] + Chunks(ys[n..], n)
  }

  /** The chunks laid end to end. */
  function Flatten(chunks: seq<seq<Json>>): seq<Json> {
    if chunks == [] then [] else chunks[0] + Flatten(chunks[1..])
  }

  lemma {:induction false} ChunksFlatten(ys: seq<Json>, n: nat)
    requires n >= 1
    ensures Flatten(Chunks(ys, n)) == ys
    decreases |ys|
  {
    if |ys| > n {
      ChunksFlatten(ys[n..], n);
      assert ys[..n] + ys[n..] == ys;
    } else if ys != [] {
      assert Flatten([ys]) == ys + Flatten([]);
    }
  }

  lemma {:induction false} ChunksCount(ys: seq<Json>, n: nat)
    requires n >= 1
    ensures |ys| <= |Chunks(ys, n)| * n < |ys| + n
    decreases |ys|
  {
    if |ys| > n {
      ChunksCount(ys[n..], n);
      var m := |Chunks(ys[n..], n)|;
      assert (m + 1) * n == m * n + n;
    }
  }

  lemma {:induction false} ChunksShape(ys: seq<Json>, n: nat)
    requires n >= 1
    ensures var c := Chunks(ys, n);
      && (forall k :: 0 <= k < |c| - 1 ==> |c[k]| == n)
      && (|c| > 0 ==> 0 < |c[|c| - 1]| <= n)
      && (ys != [] <==> |c| > 0)
    decreases |ys|
  {
    if |ys| > n {
      ChunksShape(ys[n..], n);
      var c := Chunks(ys, n);
      assert forall k :: 1 <= k < |c| ==> c[k] == Chunks(ys[n..], n)[k - 1];
    }
  }

  /** The width BLOCK mode actually uses: a block is closed as soon as it
      holds `size` elements, so a size below 1 gives one element per block. */
  function BlockWidth(size: int): (n: nat)
    ensures n >= 1
  {
    if size >= 1 then size else 1
  }

  /** The chunking loop of `distributeOutValsBlock` from element `i` on, with
      the block built so far in `current`. */
  function BlockFrom(xs: seq<Json>, size: int, i: nat, current: seq<Json>): seq<seq<Json>>
    requires i <= |xs|
    decreases |xs| - i
  {
    if i == |xs| then []
    else
      var cur := current + [xs[i]];
      if |cur| >= size || i == |xs| - 1 then [cur] + BlockFrom(xs, size, i + 1, [])
      else BlockFrom(xs, size, i + 1, cur)
  }

  /** The loop produces exactly the reference chunks of the pending block
      followed by the remaining elements. */
  lemma {:induction false} BlockFromIsChunks(xs: seq<Json>, size: int, i: nat, current: seq<Json>)
    requires i <= |xs|
    requires |current| < BlockWidth(size)
    requires i == |xs| ==> current == []
    ensures BlockFrom(xs, size, i, current) == Chunks(current + xs[i..], BlockWidth(size))
    decreases |xs| - i
  {
    var n := BlockWidth(size);
    if i < |xs| {
      var cur := current + [xs[i]];
      var rest := xs[i + 1..];
      assert current + xs[i..] == cur + rest by {
        assert xs[i..] == [xs[i]] + rest;
      }
      if |cur| >= size || i == |xs| - 1 {
        BlockFromIsChunks(xs, size, i + 1, []);
        assert [] + rest == rest;
        if |cur + rest| > n {
          assert |cur| == n;
          assert (cur + rest)[..n] == cur;
          assert (cur + rest)[n..] == rest;
        } else {
          assert rest == [];
          assert cur + rest == cur;
        }
      } else {
        BlockFromIsChunks(xs, size, i + 1, cur);
      }
    }
  }

  /** The collection BLOCK mode chunks: the library's unwrapping of a
      collection held as a single element, then the per-element clean-up. */
  function Prepared(data: seq<Json>, lib: Lib): seq<Json> {
    var xs := lib.unwrapBlock(data);
    seq(|xs|, i requires 0 <= i < |xs| => lib.cleanElement(xs[i]))
  }

  /** The first element's text with quotes and backslashes deleted, which
      `distributeOutValsBlock` inspects with `charAt(1)`. */
  function BlockHead(data: seq<Json>, lib: Lib): string
    requires data != []
  {
    Remove(lib.show(data[0]), QuoteOrBackslash)
  }

  /** `distributeOutValsBlock`: reading the first element of an empty
      collection is an `IndexOutOfBoundsException`, and so is `charAt(1)` on a
      first element whose cleaned text is shorter than two characters (a
      `StringIndexOutOfBoundsException`); otherwise the prepared elements are
      cut, in order, into blocks of the given width. */
  function Blocks(data: seq<Json>, size: int, lib: Lib): (r: Result<seq<seq<Json>>>)
    ensures r.Ok? <==> data != [] && |BlockHead(data, lib)| >= 2
    ensures data == [] ==> r == Fail(IndexOutOfBounds(0))
    ensures data != [] && |BlockHead(data, lib)| < 2 ==> r == Fail(IndexOutOfBounds(1))
    ensures r.Ok? ==> var ys, n := Prepared(data, lib), BlockWidth(size);
      && Flatten(r.value) == ys
      && |ys| <= |r.value| * n < |ys| + n
      && (forall k :: 0 <= k < |r.value| - 1 ==> |r.value[k]| == n)
      && (|r.value| > 0 ==> 0 < |r.value[|r.value| - 1]| <= n)
  {
    if data == [] then Fail(IndexOutOfBounds(0))
    else if |BlockHead(data, lib)| < 2 then Fail(IndexOutOfBounds(1))
    else
      var ys := Prepared(data, lib);
      BlockFromIsChunks(ys, size, 0, []);
      assert [] + ys[0..] == ys;
      ChunksFlatten(ys, BlockWidth(size));
      ChunksCount(ys, BlockWidth(size));
      ChunksShape(ys, BlockWidth(size));
      Ok(BlockFrom(ys, size, 0, []))
  }

  /** `n` references to the same collection (none when `n` is not positive). */
  function Replicate(data: seq<Json>, n: int): (r: seq<seq<Json>>)
    ensures |r| == (if n > 0 then n else 0)
    ensures forall k :: 0 <= k < |r| ==> r[k] == data
  {
    seq(if n > 0 then n else 0, _ => data)
  }

  /** The collection after the optional `element-index` constraint. */
  function Selected(data: seq<Json>, cs: seq<Constraint>, lib: Lib): Result<seq<Json>> {
    match GetConstraint(cs, "element-index")
    case None => Ok(data)
    case Some(c) => SelectIndices(data, lib.parseIndices(c.value))
  }

  /** `distributeElements`: one collection per iteration, or as many as the
      distribution constraint yields. */
  function Distribute(data: seq<Json>, cs: seq<Constraint>, children: nat, lib: Lib): (r: Result<seq<seq<Json>>>)
    ensures FirstUnknown(cs) < |cs| ==> r == Fail(NotImplemented(cs[FirstUnknown(cs)].name))
    ensures FirstUnknown(cs) == |cs| && Selected(data, cs, lib).Fail? ==> r == Fail(Selected(data, cs, lib).error)
    ensures r.Ok? ==> FirstUnknown(cs) == |cs| && Selected(data, cs, lib).Ok?
    ensures r.Ok? && GetConstraint(cs, "distribution").None? ==> |r.value| == children
  {
    var u := FirstUnknown(cs);
    if u < |cs| then Fail(NotImplemented(cs[u].name))
    else
      match Selected(data, cs, lib)
      case Fail(e) => Fail(e)
      case Ok(selected) =>
        match GetConstraint(cs, "distribution")
        case None => Ok(Replicate(selected, children))
        case Some(c) =>
          if Contains(c.value, "BLOCK") then
            match ParseCount(c.value)
            case Fail(e) => Fail(e)
            case Ok(size) => Blocks(selected, size, lib)
          else if Contains(c.value, "REPLICATE") then
            if Contains(c.value, "REPLICATE(*)") then Ok(Replicate(selected, children))
            else
              match ParseCount(c.value)
              case Fail(e) => Fail(e)
              case Ok(n) => Ok(Replicate(selected, n))
          else Fail(NotImplemented(c.value))
  }

  /** Any constraint other than `element-index` and `distribution` is rejected
      before anything else happens, naming the first such constraint. */
  lemma UnknownConstraintRejected(data: seq<Json>, cs: seq<Constraint>, children: nat, lib: Lib)
    requires exists k :: 0 <= k < |cs| && !Known(cs[k].name)
    ensures var r := Distribute(data, cs, children, lib);
      r.Fail? && r.error == NotImplemented(cs[FirstUnknown(cs)].name)
  {
  }

  /** Without a distribution constraint every iteration receives the whole
      (possibly index-selected) collection. */
  lemma BroadcastWithoutDistribution(data: seq<Json>, cs: seq<Constraint>, children: nat, lib: Lib)
    requires forall k :: 0 <= k < |cs| ==> Known(cs[k].name)
    requires forall k :: 0 <= k < |cs| ==> cs[k].name != "distribution"
    requires Selected(data, cs, lib).Ok?
    ensures var r := Distribute(data, cs, children, lib);
      r.Ok? && |r.value| == children
      && forall k :: 0 <= k < children ==> r.value[k] == Selected(data, cs, lib).value
  {
  }

  /** `element-index` picks elements by position before distribution. */
  lemma ElementIndexSelects(data: seq<Json>, cs: seq<Constraint>, lib: Lib)
    requires GetConstraint(cs, "element-index").Some?
    ensures var idx := lib.parseIndices(GetConstraint(cs, "element-index").value.value);
      var r := Selected(data, cs, lib);
      (r.Ok? <==> forall k :: 0 <= k < |idx| ==> 0 <= idx[k] < |data|)
      && (r.Ok? ==> |r.value| == |idx| && forall k :: 0 <= k < |idx| ==> r.value[k] == data[idx[k]])
  {
  }

  /** `REPLICATE(n)` gives `n` copies of the collection left by the optional
      `element-index` selection. */
  lemma ReplicateCopies(data: seq<Json>, cs: seq<Constraint>, children: nat, n: int, lib: Lib)
    requires forall k :: 0 <= k < |cs| ==> Known(cs[k].name)
    requires Selected(data, cs, lib).Ok?
    requires 0 <= n <= MaxInt32
    requires GetConstraint(cs, "distribution") == Some(Constraint("distribution", "REPLICATE(" + IntToString(n) + ")"))
    ensures Distribute(data, cs, children, lib) == Ok(Replicate(Selected(data, cs, lib).value, n))
  {
    ReplicateValue(n);
  }

  /** `REPLICATE(*)` gives one copy of the selected collection per iteration. */
  lemma ReplicatePerIteration(data: seq<Json>, cs: seq<Constraint>, children: nat, lib: Lib)
    requires forall k :: 0 <= k < |cs| ==> Known(cs[k].name)
    requires Selected(data, cs, lib).Ok?
    requires GetConstraint(cs, "distribution") == Some(Constraint("distribution", "REPLICATE(*)"))
    ensures Distribute(data, cs, children, lib) == Ok(Replicate(Selected(data, cs, lib).value, children))
  {
    ReplicateStarValue();
  }

  lemma ReplicateStarValue()
    ensures !Contains("REPLICATE(*)", "BLOCK")
    ensures Contains("REPLICATE(*)", "REPLICATE") && Contains("REPLICATE(*)", "REPLICATE(*)")
  {
    MissingCharNotContained("REPLICATE(*)", "BLOCK", 'B');
    assert Contains("REPLICATE(*)", "REPLICATE") by {
      assert "REPLICATE" <= "REPLICATE(*)";
    }
    assert Contains("REPLICATE(*)", "REPLICATE(*)");
  }

  /** A distribution value naming neither BLOCK nor REPLICATE is rejected with
      a `NotImplementedException` naming the value, once the selection has
      succeeded. */
  lemma OtherDistributionRejected(data: seq<Json>, cs: seq<Constraint>, children: nat, lib: Lib)
    requires forall k :: 0 <= k < |cs| ==> Known(cs[k].name)
    requires Selected(data, cs, lib).Ok?
    requires GetConstraint(cs, "distribution").Some?
    requires var v := GetConstraint(cs, "distribution").value.value;
      !Contains(v, "BLOCK") && !Contains(v, "REPLICATE")
    ensures Distribute(data, cs, children, lib)
         == Fail(NotImplemented(GetConstraint(cs, "distribution").value.value))
  {
  }

  lemma ReplicateValue(n: int)
    requires 0 <= n <= MaxInt32
    ensures var v := "REPLICATE(" + IntToString(n) + ")";
      !Contains(v, "BLOCK") && Contains(v, "REPLICATE") && !Contains(v, "REPLICATE(*)")
      && ParseCount(v) == Ok(n)
  {
    var v := "REPLICATE(" + IntToString(n) + ")";
    ParseCountRoundTrip("REPLICATE(", n, ")");
    NoBlockInReplicate(n);
    assert "REPLICATE" <= v;
  }

  lemma NoBlockInReplicate(n: int)
    ensures !Contains("REPLICATE(" + IntToString(n) + ")", "BLOCK")
    ensures !Contains("REPLICATE(*)", "BLOCK")
    ensures !Contains("REPLICATE(" + IntToString(n) + ")", "REPLICATE(*)")
  {
    NumeralLacks(n, "BLOCK", 'B');
    NumeralLacks(n, "REPLICATE(*)", '*');
    MissingCharNotContained("REPLICATE(*)", "BLOCK", 'B');
  }

  lemma NumeralLacks(n: int, pattern: string, c: char)
    requires c in pattern && c != '-' && !IsDigit(c) && c !in "REPLICATE()"
    ensures !Contains("REPLICATE(" + IntToString(n) + ")", pattern)
  {
    NumeralAvoids(n, c);
    MissingCharNotContained("REPLICATE(" + IntToString(n) + ")", pattern, c);
  }

  /** `BLOCK(n)` with `n >= 1` cuts the prepared selected collection into
      blocks of `n` whose concatenation is the whole collection, in order; an
      empty selection, or one whose first element prints shorter than two
      characters once quotes and backslashes are deleted, is an
      `IndexOutOfBoundsException`. */
  lemma BlockPartitions(data: seq<Json>, cs: seq<Constraint>, children: nat, n: int, lib: Lib)
    requires forall k :: 0 <= k < |cs| ==> Known(cs[k].name)
    requires Selected(data, cs, lib).Ok?
    requires GetConstraint(cs, "distribution") == Some(Constraint("distribution", "BLOCK(" + IntToString(n) + ")"))
    requires 1 <= n <= MaxInt32
    ensures var sel := Selected(data, cs, lib).value;
      var r := Distribute(data, cs, children, lib); var ys := Prepared(sel, lib);
      && (r.Ok? <==> sel != [] && |BlockHead(sel, lib)| >= 2)
      && (sel == [] ==> r == Fail(IndexOutOfBounds(0)))
      && (sel != [] && |BlockHead(sel, lib)| < 2 ==> r == Fail(IndexOutOfBounds(1)))
      && (r.Ok? ==>
          && Flatten(r.value) == ys
          && |ys| <= |r.value| * n < |ys| + n
          && (forall k :: 0 <= k < |r.value| - 1 ==> |r.value[k]| == n)
          && (|r.value| > 0 ==> 0 < |r.value[|r.value| - 1]| <= n))
  {
    DistributeIsBlocks(data, cs, children, n, lib);
  }

  /** With a `BLOCK(n)` distribution the chunks are the blocks of the
      selection. */
  lemma DistributeIsBlocks(data: seq<Json>, cs: seq<Constraint>, children: nat, n: int, lib: Lib)
    requires forall k :: 0 <= k < |cs| ==> Known(cs[k].name)
    requires Selected(data, cs, lib).Ok?
    requires GetConstraint(cs, "distribution") == Some(Constraint("distribution", "BLOCK(" + IntToString(n) + ")"))
    requires 1 <= n <= MaxInt32
    ensures Distribute(data, cs, children, lib) == Blocks(Selected(data, cs, lib).value, n, lib)
  {
    BlockValue(n);
  }

  lemma BlockValue(n: int)
    requires 0 <= n <= MaxInt32
    ensures Contains("BLOCK(" + IntToString(n) + ")", "BLOCK")
    ensures ParseCount("BLOCK(" + IntToString(n) + ")") == Ok(n)
  {
    ParseCountRoundTrip("BLOCK(", n, ")");
    assert "BLOCK" <= "BLOCK(" + IntToString(n) + ")";
  }
}

=== FILE: failures.dfy ===
/** Failure-compatible result types shared by the whole model.

    The engine reports problems by throwing Java exceptions; the model returns
    them as `Fail(error)` values instead. Every `Error` variant names the
    exception the engine would raise at that point. */
module Failures {

  /** Stand-in for a Java reference that may be null. */
  datatype Option<+T> = None | Some(value: T) {

    /** The held value, or `default` when absent. */
    function GetOr(default: T): T {
      match this
      case Some(v) => v
      case None => default
    }
  }

  /** The exceptions the modelled code can raise. */
  datatype Error =
    | MissingInputData(needed: string)    // MissingInputDataException
    | MissingOutputData(output: string)   // MissingOutputDataException
    | NotImplemented(what: string)        // NotImplementedException
    | IllegalState(what: string)          // IllegalStateException
    | NumberFormat(text: string)          // NumberFormatException
    | IndexOutOfBounds(index: int)        // IndexOutOfBoundsException
    | IllegalArgument(value: int)         // IllegalArgumentException
    | NullDereference                     // NullPointerException
    | UnsupportedOperation                // UnsupportedOperationException
    | ClassCast                           // ClassCastException
    | NonTerminating                      // a loop whose counter never moves
    | CounterWrapAround                   // a 32-bit loop counter that overflows

  /** Either a value or the exception raised while computing it. */
  datatype Result<+T> = Ok(value: T) | Fail(error: Error) {

    predicate IsFailure() {
      Fail?
    }

    function PropagateFailure<U>(): Result<U>
      requires Fail?
    {
      Fail(error)
    }

    function Extract(): T
      requires Ok?
    {
      value
    }
  }
}

=== FILE: json.dfy ===
/** JSON values as the engine's state store holds them (Gson's `JsonElement`),
    and the library behaviour the model does not look inside. */
module JsonValues {
  import opened Failures
  import opened Numerals

  /** A Gson `JsonElement`. A double is kept as the decimal text it was read
      from; its binary value is not modelled. */
  datatype Json =
    | JNull
    | JBool(b: bool)
    | JInt(n: int)
    | JDouble(text: string)
    | JString(s: string)
    | JArray(elems: seq<Json>)
    | JObject(fields: map<string, Json>)

  /** Library code whose behaviour the model takes as given: Gson's serialiser
      and parsers, `Double.parseDouble`, the element-index parser, and the two
      text heuristics that prepare a collection for BLOCK chunking. */
  datatype Lib = Lib(
    show: Json -> string,                  // JsonElement.toString()
    parse: string -> Json,                 // Gson.fromJson(text, JsonElement.class)
    parseObjectList: string -> Json,       // "[...]" of objects via List<Map<String, Object>>
    truncateDouble: string -> Option<int>, // Double.parseDouble(text), truncated toward zero
    parseIndices: string -> seq<int>,      // ElementIndex.parseIndices
    unwrapBlock: seq<Json> -> seq<Json>,   // the single-element array unwrapping before BLOCK
    cleanElement: Json -> Json)            // the per-element clean-up inside BLOCK

  /** Gson reads back what it prints. */
  ghost predicate ReadsBack(lib: Lib) {
    forall j :: lib.parse(lib.show(j)) == j
  }

  /** `JsonElement.getAsString()`. */
  function AsString(j: Json, lib: Lib): Result<string> {
    match j
    case JString(s) => Ok(s)
    case JBool(b) => Ok(if b then "true" else "false")
    case JInt(n) => Ok(IntToString(n))
    case JDouble(_) => Ok(lib.show(j))
    case JArray(elems) =>
      if |elems| == 1 then AsString(elems[0], lib) else Fail(IllegalState("not a single element"))
    case JObject(_) => Fail(UnsupportedOperation)
    case JNull => Fail(UnsupportedOperation)
  }

  /** `JsonElement.getAsNumber().toString()`: a string primitive becomes a lazily
      parsed number that prints as the string itself. */
  function AsNumberText(j: Json, lib: Lib): Result<string> {
    match j
    case JString(s) => Ok(s)
    case JBool(_) => Fail(UnsupportedOperation)
    case JInt(n) => Ok(IntToString(n))
    case JDouble(_) => Ok(lib.show(j))
    case JArray(elems) =>
      if |elems| == 1 then AsNumberText(elems[0], lib) else Fail(IllegalState("not a single element"))
    case JObject(_) => Fail(UnsupportedOperation)
    case JNull => Fail(UnsupportedOperation)
  }
}

=== FILE: nodes.dfy ===
/** The control-node tree: node variants, the runtime fields the start nodes
    set on their children, the depth-tracking search for a construct's end
    node, iteration re-tagging, cloning and worker-pool sizing. */
module Nodes {
  import opened Failures

  /** The node classes the start nodes distinguish. */
  datatype Kind =
    | FunctionNode
    | SimulationNode
    | ParallelStart
    | ParallelEnd
    | ParallelForStart
    | ParallelForEnd
    | IfStart
    | IfEnd
    | SwitchStart
    | SwitchEnd

  /** The start nodes that carry an `isAfterParallelForNode` field. */
  predicate CountsNesting(k: Kind) {
    k == IfStart || k == ParallelStart || k == SwitchStart
  }

  /** A node and the subtree it owns. `afterParallelFor` is the
      `isAfterParallelForNode` field of If/Parallel/Switch start nodes and
      `parallelFunctions` the `amountParallelFunctions` of simulation nodes. */
  datatype Node = Node(
    kind: Kind,
    name: string,
    id: int,
    loopCounter: int,
    maxLoopCounter: int,
    concurrencyLimit: int,
    startTime: int,
    afterParallelFor: int,
    parallelFunctions: int,
    children: seq<Node>)

  /** What an enclosing construct learns about the first parent of a node:
      its id and its class. */
  datatype ParentRef = ParentRef(id: int, kind: Kind)

  /** The first-child chain below `n`: its first child, that child's first
      child, and so on. */
  function Chain(n: Node): seq<Node> {
    if |n.children| == 0 then [] else [n.children[0]] + Chain(n.children[0])
  }

  /** The nesting depth after passing a node of kind `k` at depth `depth`: an
      end node closes one level (never below zero), a start node opens one. */
  function Step(k: Kind, depth: nat, open: Kind, close: Kind): nat {
    if k == close then (if depth > 0 then depth - 1 else 0)
    else if k == open then depth + 1
    else depth
  }

  /** The nesting depth on reaching `chain[k]`, starting from `depth`. */
  function DepthAt(chain: seq<Node>, depth: nat, k: nat, open: Kind, close: Kind): nat
    requires k <= |chain|
  {
    if k == 0 then depth
    else Step(chain[k - 1].kind, DepthAt(chain, depth, k - 1, open, close), open, close)
  }

  /** `chain[k]` is an end node met at depth zero. */
  predicate IsMatchAt(chain: seq<Node>, depth: nat, k: nat, open: Kind, close: Kind) {
    k < |chain| && chain[k].kind == close && DepthAt(chain, depth, k, open, close) == 0
  }

  /** `findParallelForEndNode` / `findParallelEndNode`: walk the first-child
      chain, counting nested start nodes of kind `open`, and return the first
      end node of kind `close` met at depth zero. */
  function FindMatchingEnd(n: Node, depth: nat, open: Kind, close: Kind): Option<Node> {
    if |n.children| == 0 then None
    else
      var child := n.children[0];
      if child.kind == close then
        if depth == 0 then Some(child) else FindMatchingEnd(child, depth - 1, open, close)
      else if child.kind == open then FindMatchingEnd(child, depth + 1, open, close)
      else FindMatchingEnd(child, depth, open, close)
  }

  lemma {:induction false} DepthShift(c: Node, rest: seq<Node>, depth: nat, k: nat, open: Kind, close: Kind)
    requires k <= |rest|
    ensures DepthAt([c] + rest, depth, k + 1, open, close)
         == DepthAt(rest, Step(c.kind, depth, open, close), k, open, close)
  {
    if k > 0 {
      DepthShift(c, rest, depth, k - 1, open, close);
      assert ([c] + rest)[k] == rest[k - 1];
    }
  }

  /** Matches further down the chain are matches of the first child's chain,
      entered at the depth after the first child. */
  lemma MatchShift(n: Node, depth: nat, k: nat, open: Kind, close: Kind)
    requires |n.children| > 0
    ensures var c := n.children[0];
      (IsMatchAt(Chain(n), depth, k + 1, open, close)
       <==> IsMatchAt(Chain(c), Step(c.kind, depth, open, close), k, open, close))
  {
    var c := n.children[0];
    assert Chain(n) == [c] + Chain(c);
    if k < |Chain(c)| {
      DepthShift(c, Chain(c), depth, k, open, close);
      assert Chain(n)[k + 1] == Chain(c)[k];
    }
  }

  /** A found end node is the first one met at depth zero along the
      first-child chain. */
  lemma {:induction false} FindMatchingEndFound(n: Node, depth: nat, open: Kind, close: Kind) returns (k: nat)
    requires FindMatchingEnd(n, depth, open, close).Some?
    ensures IsMatchAt(Chain(n), depth, k, open, close)
    ensures Chain(n)[k] == FindMatchingEnd(n, depth, open, close).value
    ensures forall j: nat :: j < k ==> !IsMatchAt(Chain(n), depth, j, open, close)
  {
    var c := n.children[0];
    assert Chain(n) == [c] + Chain(c);
    if c.kind == close && depth == 0 {
      k := 0;
    } else {
      var d' := Step(c.kind, depth, open, close);
      var k' := FindMatchingEndFound(c, d', open, close);
      k := k' + 1;
      MatchShift(n, depth, k', open, close);
      forall j: nat | j < k
        ensures !IsMatchAt(Chain(n), depth, j, open, close)
      {
        if j > 0 {
          MatchShift(n, depth, j - 1, open, close);
        }
      }
    }
  }

  /** When the search finds nothing, no end node is met at depth zero along
      the first-child chain. */
  lemma {:induction false} FindMatchingEndNone(n: Node, depth: nat, open: Kind, close: Kind)
    requires FindMatchingEnd(n, depth, open, close).None?
    ensures forall k: nat :: !IsMatchAt(Chain(n), depth, k, open, close)
  {
    if |n.children| > 0 {
      var c := n.children[0];
      var d' := Step(c.kind, depth, open, close);
      FindMatchingEndNone(c, d', open, close);
      forall k: nat
        ensures !IsMatchAt(Chain(n), depth, k, open, close)
      {
        if k > 0 {
          MatchShift(n, depth, k - 1, open, close);
        }
      }
    }
  }

  /** `setId` on `n` followed by `setIdOfChildren`: `n` and every descendant
      reached without passing through a parallel-for end node get `id`; such
      an end node is re-tagged but its subtree is not. */
  function Retag(n: Node, id: int): Node {
    n.(id := id, children :=
      if n.kind == ParallelForEnd then n.children
      else seq(|n.children|, i requires 0 <= i < |n.children| => Retag(n.children[i], id)))
  }

  /** Every node of `n` down to and including the first parallel-for end node
      on each path carries `id`. */
  ghost predicate TaggedThrough(n: Node, id: int) {
    n.id == id
    && (n.kind != ParallelForEnd ==>
          forall i :: 0 <= i < |n.children| ==> TaggedThrough(n.children[i], id))
  }

  /** `r` is `n` except, possibly, for ids above and at the parallel-for end
      nodes; below those nothing differs. */
  ghost predicate SameButIds(r: Node, n: Node) {
    r.(id := n.id, children := n.children) == n
    && |r.children| == |n.children|
    && (if n.kind == ParallelForEnd then r.children == n.children
        else forall i :: 0 <= i < |n.children| ==> SameButIds(r.children[i], n.children[i]))
  }

  /** Re-tagging tags the whole iteration region and changes nothing else. */
  lemma {:induction false} RetagTagsRegion(n: Node, id: int)
    ensures TaggedThrough(Retag(n, id), id)
    ensures SameButIds(Retag(n, id), n)
  {
    if n.kind != ParallelForEnd {
      forall i | 0 <= i < |n.children|
        ensures TaggedThrough(Retag(n.children[i], id), id)
        ensures SameButIds(Retag(n.children[i], id), n.children[i])
      {
        RetagTagsRegion(n.children[i], id);
      }
    }
  }

  /** Conversely, the two properties pin re-tagging down: any tree that is
      tagged through its region and otherwise equal to `n` is `Retag(n, id)`. */
  lemma {:induction false} RetagUnique(r: Node, n: Node, id: int)
    requires TaggedThrough(r, id) && SameButIds(r, n)
    ensures r == Retag(n, id)
  {
    var t := Retag(n, id);
    if n.kind != ParallelForEnd {
      forall i | 0 <= i < |n.children|
        ensures r.children[i] == t.children[i]
      {
        RetagUnique(r.children[i], n.children[i], id);
      }
      assert r.children == t.children;
    }
    assert r == r.(id := n.id, children := n.children).(id := id, children := r.children);
  }

  /** `clone`: a copy of the node whose children are clones of the originals. */
  function Clone(n: Node): Node {
    n.(children := seq(|n.children|, i requires 0 <= i < |n.children| => Clone(n.children[i])))
  }

  /** A clone is structurally identical to its original: same fields, same
      number of children, each child equal to the corresponding original. */
  lemma {:induction false} CloneIsCopy(n: Node)
    ensures Clone(n) == n
  {
    forall i | 0 <= i < |n.children|
      ensures Clone(n.children[i]) == n.children[i]
    {
      CloneIsCopy(n.children[i]);
    }
    assert Clone(n).children == n.children;
  }

  /** `Executors.newFixedThreadPool(count > limit ? limit : count)`; a pool of
      no threads is an `IllegalArgumentException`. */
  function PoolSize(count: nat, limit: int): (r: Result<nat>)
    ensures r.Ok? <==> count > 0 && limit > 0
    ensures r.Ok? ==> r.value <= count && r.value <= limit
    ensures r.Ok? ==> r.value == count || r.value == limit
  {
    var n := if count > limit then limit else count;
    if n <= 0 then Fail(IllegalArgument(n)) else Ok(n)
  }

  /** How many of `nodes` are simulation nodes. */
  function SimulationCount(nodes: seq<Node>): (n: nat)
    ensures n <= |nodes|
  {
    if nodes == [] then 0
    else (if nodes[0].kind == SimulationNode then 1 else 0) + SimulationCount(nodes[1..])
  }

  /** `passResult`: every entry of `input` whose key is one of `keys` is
      copied into `m`; other entries are ignored. */
  function CopyPresent<V>(m: map<string, V>, keys: seq<string>, input: map<string, V>): (r: map<string, V>)
    ensures r.Keys == m.Keys + (set k | k in keys && k in input)
    ensures forall k :: k in keys && k in input ==> r[k] == input[k]
    ensures forall k :: k in m && (k !in keys || k !in input) ==> r[k] == m[k]
    decreases |keys|
  {
    if keys == [] then m
    else
      var k := keys[0];
      var next := if k in input then m[k := input[k]] else m;
      CopyPresent(next, keys[1..], input)
  }
}

=== FILE: numerals.dfy ===
/** Decimal text and 32-bit integers: `Integer.parseInt`, `Integer.toString`
    and Java `int` wrap-around. */
module Numerals {
  import opened Failures

  const MinInt32: int := -0x8000_0000
  const MaxInt32: int := 0x7fff_ffff

  predicate IsInt32(n: int) {
    MinInt32 <= n <= MaxInt32
  }

  /** Java `int` arithmetic: the two's-complement wrap of an exact result. */
  function Wrap32(n: int): (r: int)
    ensures IsInt32(r)
    ensures (r - n) % 0x1_0000_0000 == 0
    ensures IsInt32(n) ==> r == n
  {
    (n - MinInt32) % 0x1_0000_0000 + MinInt32
  }

  /** Java's narrowing of a (whole) double to `int`: out-of-range values
      saturate. */
  function Clamp32(n: int): (r: int)
    ensures IsInt32(r)
    ensures IsInt32(n) ==> r == n
    ensures n > MaxInt32 ==> r == MaxInt32
    ensures n < MinInt32 ==> r == MinInt32
  {
    if n > MaxInt32 then MaxInt32 else if n < MinInt32 then MinInt32 else n
  }

  predicate IsDigit(c: char) {
    '0' <= c <= '9'
  }

  predicate AllDigits(s: string) {
    forall i :: 0 <= i < |s| ==> IsDigit(s[i])
  }

  function DigitValue(c: char): nat
    requires IsDigit(c)
  {
    c as int - '0' as int
  }

  function DigitChar(d: nat): (c: char)
    requires d < 10
    ensures IsDigit(c) && DigitValue(c) == d
  {
    ('0' as int + d) as char
  }

  /** The value of a run of decimal digits, most significant first. */
  function DigitsValue(s: string): nat
    requires AllDigits(s)
  {
    if s == [] then 0 else DigitsValue(s[..|s| - 1]) * 10 + DigitValue(s[|s| - 1])
  }

  /** `Integer.toString` of a non-negative number: no sign, no leading zero. */
  function NatToString(n: nat): (s: string)
    ensures |s| > 0 && AllDigits(s)
    ensures |s| > 1 ==> s[0] != '0'
  {
    if n < 10 then [DigitChar(n)] else NatToString(n / 10) + [DigitChar(n % 10)]
  }

  /** `Integer.toString`: a minus sign, then the digits of the magnitude. */
  function IntToString(n: int): string {
    if n < 0 then "-" + NatToString(-n) else NatToString(n)
  }

  /** Reading the digits back gives the number they were printed from. */
  lemma {:induction false} NatToStringValue(n: nat)
    ensures DigitsValue(NatToString(n)) == n
  {
    if n >= 10 {
      NatToStringValue(n / 10);
      var s := NatToString(n);
      assert s[..|s| - 1] == NatToString(n / 10);
    }
  }

  /** `Integer.parseInt(s)`: an optional sign, at least one decimal digit, and a
      value inside the 32-bit range; anything else is a `NumberFormatException`
      (here `None`). */
  function ParseInt32(s: string): (r: Option<int>)
    ensures r.Some? ==> IsInt32(r.value)
    ensures r.Some? && (s == [] || s[0] != '-') ==> r.value >= 0
  {
    if s == [] then None
    else
      var signed := s[0] == '-' || s[0] == '+';
      var digits := if signed then s[1..] else s;
      if digits == [] || !AllDigits(digits) then None
      else
        var magnitude: int := DigitsValue(digits);
        var v: int := if s[0] == '-' then -magnitude else magnitude;
        if IsInt32(v) then Some(v) else None
  }

  /** Parsing the printed form of any 32-bit integer gives it back. */
  lemma ParseIntToString(n: int)
    requires IsInt32(n)
    ensures ParseInt32(IntToString(n)) == Some(n)
  {
    var s := IntToString(n);
    if n < 0 {
      NatToStringValue(-n);
      assert s[1..] == NatToString(-n);
    } else {
      NatToStringValue(n);
    }
  }

  /** Distinct integers print differently. */
  lemma IntToStringInjective(a: int, b: int)
    requires IntToString(a) == IntToString(b)
    ensures a == b
  {
    var s := IntToString(a);
    if a < 0 && b < 0 {
      assert s[1..] == NatToString(-a) == NatToString(-b);
      NatToStringValue(-a);
      NatToStringValue(-b);
    } else if a >= 0 && b >= 0 {
      NatToStringValue(a);
      NatToStringValue(b);
    }
  }

  /** A printed number holds no `/`, so it can end a slash-separated path. */
  lemma IntToStringHasNoSlash(n: int)
    ensures '/' !in IntToString(n)
  {
    if n < 0 {
      assert IntToString(n)[1..] == NatToString(-n);
    }
  }

  /** A printed integer consists of digits and at most a leading minus sign. */
  lemma IntToStringIsNumeral(n: int)
    ensures forall i :: 0 <= i < |IntToString(n)| ==> IntToString(n)[i] == '-' || IsDigit(IntToString(n)[i])
  {
    if n < 0 {
      var s := IntToString(n);
      assert forall i :: 1 <= i < |s| ==> s[i] == NatToString(-n)[i - 1];
    }
  }

  /** A printed number holds no character other than a sign and digits. */
  lemma NumeralAvoids(n: int, c: char)
    requires c != '-' && !IsDigit(c)
    ensures c !in IntToString(n)
  {
    IntToStringIsNumeral(n);
  }
}

=== FILE: parallel.dfy ===
/** The static parallel start node: every input port is resolved from one of
    its alternative sources and copied to the node's own key, then the branches
    receive the enclosing loop context and the nesting bookkeeping for
    simulation nodes, and a worker pool is sized for them. */
module Parallel {
  import opened Failures
  import opened Text
  import opened JsonValues
  import opened Workflow
  import opened Nodes
  import opened StateStore
  import opened Sources
  import opened ParallelFor

  /** `MAX_NUMBER_THREADS`. */
  const MaxParallelThreads: int := 1000

  /** A configured parallel start node: the node itself (its name, id, loop
      context, `isAfterParallelForNode` and branches), its first parent, and
      its declared inputs (`None` when the workflow declares none). */
  datatype ParNode = ParNode(self: Node, parent: Option<ParentRef>, ports: Option<seq<Port>>)

  /** The resolution loop over the alternatives of one port. Each alternative
      that is stored, or any alternative when the port's raw source names a
      sub-object, overwrites `key` with the parsed text; `got` records whether
      any did. The store seen by later alternatives includes earlier writes. An
      exception of the sub-object read stops the loop before any write. */
  function ResolveAlternatives(store: Store, key: string, source: string, alts: seq<string>, got: bool, lib: Lib)
    : (r: Result<(Store, bool)>)
    requires got ==> key in store
    ensures r.Ok? ==> r.value.0.Keys <= store.Keys + {key}
    ensures r.Ok? ==> forall x :: x in store && x != key ==> x in r.value.0 && r.value.0[x] == store[x]
    ensures r.Ok? && r.value.1 ==> key in r.value.0
    ensures r.Ok? && !r.value.1 ==> r.value.0 == store && !got
    decreases |alts|
  {
    if alts == [] then Ok((store, got))
    else
      var sub :- SubObject(store, source, lib);
      var alt := alts[0];
      if alt in store || sub.Some? then
        var text := if sub.Some? then sub.value else lib.show(store[alt]);
        ResolveAlternatives(store[key := lib.parse(text)], key, source, alts[1..], true, lib)
      else ResolveAlternatives(store, key, source, alts[1..], got, lib)
  }

  /** For a source with at most one `/` the loop cannot throw, and it finds
      a value iff one was found already or some alternative is stored. */
  lemma {:induction false} PlainAlternatives(store: Store, key: string, source: string, alts: seq<string>, got: bool, lib: Lib)
    requires got ==> key in store
    requires Count(source, '/') <= 1
    ensures var r := ResolveAlternatives(store, key, source, alts, got, lib);
      r.Ok? && (r.value.1 <==> got || exists a :: a in alts && a in store)
    decreases |alts|
  {
    if alts != [] {
      var next := if alts[0] in store then store[key := lib.parse(lib.show(store[alts[0]]))] else store;
      PlainAlternatives(next, key, source, alts[1..], got || alts[0] in store, lib);
      if alts[0] !in store {
        assert forall a :: a in alts ==> a == alts[0] || a in alts[1..];
      } else {
        assert forall a :: a in alts[1..] && a != key ==> (a in next <==> a in store);
      }
    }
  }

  /** An exception of the sub-object read is the port's exception, raised
      before anything is written. */
  lemma SubObjectFailureStops(store: Store, key: string, source: string, alts: seq<string>, got: bool, lib: Lib)
    requires got ==> key in store
    requires alts != [] && SubObject(store, source, lib).Fail?
    ensures ResolveAlternatives(store, key, source, alts, got, lib) == Fail(SubObject(store, source, lib).error)
  {
  }

  /** Position `m` holds the last alternative that is stored. */
  predicate LastStoredAt(alts: seq<string>, store: Store, m: int) {
    0 <= m < |alts| && alts[m] in store && forall m' :: m < m' < |alts| ==> alts[m'] !in store
  }

  /** Without a sub-object and with no alternative stored, nothing is written. */
  lemma {:induction false} NoAlternativeStored(store: Store, key: string, source: string, alts: seq<string>, got: bool, lib: Lib)
    requires got ==> key in store
    requires SubObject(store, source, lib) == Ok(None)
    requires forall a :: a in alts ==> a !in store
    ensures ResolveAlternatives(store, key, source, alts, got, lib) == Ok((store, got))
    decreases |alts|
  {
    if alts != [] {
      NoAlternativeStored(store, key, source, alts[1..], got, lib);
    }
  }

  /** Without a sub-object, the key ends up holding the parsed text of the
      last stored alternative: every stored alternative overwrites it, and the
      port's own key is not one of the alternatives read. */
  lemma {:induction false} LastStoredAlternativeWins(store: Store, key: string, source: string, alts: seq<string>,
                                                      got: bool, lib: Lib, m: int)
    requires got ==> key in store
    requires SubObject(store, source, lib) == Ok(None) && SubObjectAvoids(source, key)
    requires key !in alts && LastStoredAt(alts, store, m)
    ensures var r := ResolveAlternatives(store, key, source, alts, got, lib);
      r.Ok? && r.value.1 && r.value.0[key] == lib.parse(lib.show(store[alts[m]]))
    decreases |alts|
  {
    var rest := alts[1..];
    if alts[0] in store {
      var next := store[key := lib.parse(lib.show(store[alts[0]]))];
      SubObjectFrame(store, key, lib.parse(lib.show(store[alts[0]])), source, lib);
      if m == 0 {
        forall a | a in rest ensures a !in next {
          var k :| 0 <= k < |rest| && rest[k] == a;
          assert alts[k + 1] == a;
        }
        NoAlternativeStored(next, key, source, rest, true, lib);
      } else {
        assert LastStoredAt(rest, next, m - 1) by {
          assert rest[m - 1] == alts[m];
          forall m' | m - 1 < m' < |rest| ensures rest[m'] !in next {
            assert rest[m'] == alts[m' + 1];
          }
        }
        LastStoredAlternativeWins(next, key, source, rest, true, lib, m - 1);
        assert next[rest[m - 1]] == store[alts[m]];
      }
    } else {
      assert m != 0;
      assert LastStoredAt(rest, store, m - 1) by {
        assert rest[m - 1] == alts[m];
        forall m' | m - 1 < m' < |rest| ensures rest[m'] !in store {
          assert rest[m'] == alts[m' + 1];
        }
      }
      LastStoredAlternativeWins(store, key, source, rest, got, lib, m - 1);
    }
  }

  /** A sub-object found for the port's raw source is what every alternative
      writes, so the key ends up holding its parsed text. */
  lemma {:induction false} SubObjectWins(store: Store, key: string, source: string, alts: seq<string>, got: bool, lib: Lib)
    requires got ==> key in store
    requires alts != [] && SubObjectAvoids(source, key)
    requires SubObject(store, source, lib).Ok? && SubObject(store, source, lib).value.Some?
    ensures ResolveAlternatives(store, key, source, alts, got, lib)
      == Ok((store[key := lib.parse(SubObject(store, source, lib).value.value)], true))
    decreases |alts|
  {
    var v := lib.parse(SubObject(store, source, lib).value.value);
    SubObjectFrame(store, key, v, source, lib);
    if |alts| > 1 {
      SubObjectWins(store[key := v], key, source, alts[1..], true, lib);
      assert store[key := v][key := v] == store[key := v];
    }
  }

  /** The key a port's value is copied to: `name/port`, scoped by the node's
      id. */
  function PortKey(node: ParNode, port: Port): string {
    OutputKey(node.self.name, port.name, node.self.id)
  }

  /** The resolution loop of one port, starting with nothing found. */
  function ResolvePort(store: Store, node: ParNode, port: Port, lib: Lib): Result<(Store, bool)> {
    ResolveAlternatives(store, PortKey(node, port), port.source, PortAlternatives(port, node.self.id, node.parent), false, lib)
  }

  /** Every key of `after` was in `before` or is the key of a port from `i`
      on. */
  predicate OnlyPortKeysAdded(before: Store, after: Store, node: ParNode, ports: seq<Port>, i: nat) {
    forall x :: x in after ==> x in before || exists j :: i <= j < |ports| && x == PortKey(node, ports[j])
  }

  /** Every key of `before` that is not the key of a port from `i` on keeps
      its value in `after`. */
  predicate KeepsNonPortKeys(before: Store, after: Store, node: ParNode, ports: seq<Port>, i: nat) {
    forall x :: x in before && (forall j :: i <= j < |ports| ==> x != PortKey(node, ports[j])) ==>
      x in after && after[x] == before[x]
  }

  /** The frame of the input loop carries over one resolved port. */
  lemma ResolveFrameStep(before: Store, mid: Store, after: Store, node: ParNode, ports: seq<Port>, i: nat)
    requires i < |ports|
    requires mid.Keys <= before.Keys + {PortKey(node, ports[i])}
    requires forall x :: x in before && x != PortKey(node, ports[i]) ==> x in mid && mid[x] == before[x]
    requires OnlyPortKeysAdded(mid, after, node, ports, i + 1) && KeepsNonPortKeys(mid, after, node, ports, i + 1)
    ensures OnlyPortKeysAdded(before, after, node, ports, i) && KeepsNonPortKeys(before, after, node, ports, i)
  {
  }

  /** Every port from `i` on has its key in `s`. */
  predicate HasPortKeys(s: Store, node: ParNode, ports: seq<Port>, i: nat) {
    forall j :: i <= j < |ports| ==> PortKey(node, ports[j]) in s
  }

  /** A key written by port `i` and kept by the rest of the loop is present
      with the later ports' keys. */
  lemma PortKeysStep(mid: Store, after: Store, node: ParNode, ports: seq<Port>, i: nat)
    requires i < |ports| && PortKey(node, ports[i]) in mid
    requires KeepsNonPortKeys(mid, after, node, ports, i + 1) && HasPortKeys(after, node, ports, i + 1)
    ensures HasPortKeys(after, node, ports, i)
  {
  }

  /** The input loop of `call` from port `i` on: a port none of whose
      alternatives resolves is a missing input. The state keeps whatever the
      loop wrote before the exception. */
  function ResolveFrom(store: Store, node: ParNode, ports: seq<Port>, i: nat, lib: Lib): (w: Written)
    requires i <= |ports|
    ensures w.failure.None? ==> HasPortKeys(w.store, node, ports, i)
    ensures OnlyPortKeysAdded(store, w.store, node, ports, i)
    ensures KeepsNonPortKeys(store, w.store, node, ports, i)
    decreases |ports| - i
  {
    if i == |ports| then Written(store, None)
    else
      var port := ports[i];
      var found := ResolveAlternatives(store, PortKey(node, port), port.source,
        PortAlternatives(port, node.self.id, node.parent), false, lib);
      if found.Fail? then Written(store, Some(found.error))
      else if !found.value.1 then Written(store, Some(MissingInputData(port.source)))
      else
        var w := ResolveFrom(found.value.0, node, ports, i + 1, lib);
        ResolveFrameStep(store, found.value.0, w.store, node, ports, i);
        if w.failure.None? then
          PortKeysStep(found.value.0, w.store, node, ports, i);
          w
        else w
  }

  /** No later port writes the key of port `j`. */
  predicate LastPortOfKey(node: ParNode, ports: seq<Port>, j: nat)
    requires j < |ports|
  {
    forall k :: j < k < |ports| ==> PortKey(node, ports[k]) != PortKey(node, ports[j])
  }

  /** No alternative of port `j` is the key of a port from `i` on. */
  predicate ReadsNoPortKey(node: ParNode, ports: seq<Port>, i: nat, j: nat)
    requires j < |ports|
  {
    forall a, k :: a in PortAlternatives(ports[j], node.self.id, node.parent) && i <= k < |ports| ==>
      a != PortKey(node, ports[k])
  }

  /** When every port resolves, a plain port that is the last to write its
      key holds the parsed text of its last stored alternative, as the state
      held it before the loop. */
  lemma {:induction false} ResolvedPortValue(store: Store, node: ParNode, ports: seq<Port>, i: nat, lib: Lib, j: nat, m: int)
    requires i <= j < |ports| && ResolveFrom(store, node, ports, i, lib).failure.None?
    requires Count(ports[j].source, '/') <= 1 && LastPortOfKey(node, ports, j) && ReadsNoPortKey(node, ports, i, j)
    requires LastStoredAt(PortAlternatives(ports[j], node.self.id, node.parent), store, m)
    ensures ResolveFrom(store, node, ports, i, lib).store[PortKey(node, ports[j])]
      == lib.parse(lib.show(store[PortAlternatives(ports[j], node.self.id, node.parent)[m]]))
    decreases |ports| - i
  {
    var found := ResolvePort(store, node, ports[i], lib).value;
    var key := PortKey(node, ports[i]);
    if j == i {
      LastStoredAlternativeWins(store, key, ports[i].source, PortAlternatives(ports[i], node.self.id, node.parent), false, lib, m);
    } else {
      var alts := PortAlternatives(ports[j], node.self.id, node.parent);
      assert key !in alts;
      LastStoredKept(alts, store, found.0, key, m);
      ResolvedPortValue(found.0, node, ports, i + 1, lib, j, m);
    }
  }

  /** A write to a key that is not among the alternatives keeps the last
      stored alternative and its value. */
  lemma LastStoredKept(alts: seq<string>, before: Store, after: Store, key: string, m: int)
    requires key !in alts && LastStoredAt(alts, before, m)
    requires after.Keys <= before.Keys + {key}
    requires forall x :: x in before && x != key ==> x in after && after[x] == before[x]
    ensures LastStoredAt(alts, after, m) && after[alts[m]] == before[alts[m]]
  {
    forall m' | m < m' < |alts| ensures alts[m'] !in after {
      assert alts[m'] in alts;
    }
    assert alts[m] in alts;
  }

  /** The ports from `i` up to `j` have resolved and port `j` does not: its
      sub-object read throws, or none of its alternatives resolves. */
  predicate StopsAt(store: Store, node: ParNode, ports: seq<Port>, i: nat, j: nat, lib: Lib, w: Written)
    requires i <= j < |ports|
  {
    ResolveFrom(store, node, ports[..j], i, lib) == Written(w.store, None)
    && (ResolvePort(w.store, node, ports[j], lib).Fail? || !ResolvePort(w.store, node, ports[j], lib).value.1)
  }

  /** A failed input loop leaves exactly the writes of the ports that resolved
      before the first one that did not. */
  lemma {:induction false} FailureKeepsEarlierPorts(store: Store, node: ParNode, ports: seq<Port>, i: nat, lib: Lib)
    returns (j: nat)
    requires i <= |ports| && ResolveFrom(store, node, ports, i, lib).failure.Some?
    ensures i <= j < |ports| && StopsAt(store, node, ports, i, j, lib, ResolveFrom(store, node, ports, i, lib))
    decreases |ports| - i
  {
    var w := ResolveFrom(store, node, ports, i, lib);
    var r := ResolvePort(store, node, ports[i], lib);
    if r.Fail? || !r.value.1 {
      j := i;
      assert |ports[..i]| == i;
    } else {
      j := FailureKeepsEarlierPorts(r.value.0, node, ports, i + 1, lib);
      PrefixStep(store, node, ports, i, j, lib);
    }
  }

  /** Resolving a prefix of the ports takes the same first step as resolving
      all of them. */
  lemma PrefixStep(store: Store, node: ParNode, ports: seq<Port>, i: nat, j: nat, lib: Lib)
    requires i < j <= |ports| && ResolvePort(store, node, ports[i], lib).Ok? && ResolvePort(store, node, ports[i], lib).value.1
    ensures ResolveFrom(store, node, ports[..j], i, lib)
      == ResolveFrom(ResolvePort(store, node, ports[i], lib).value.0, node, ports[..j], i + 1, lib)
  {
    assert ports[..j][i] == ports[i];
  }

  /** A port whose raw source has at most one `/` is missing exactly when
      none of its alternatives is stored; the state is then unchanged. */
  lemma MissingIffNoAlternative(store: Store, node: ParNode, port: Port, lib: Lib)
    requires Count(port.source, '/') <= 1
    ensures var alts := Alternatives(SourceKey(port.source, node.self.id, node.parent));
      ResolveFrom(store, node, [port], 0, lib).failure.Some? <==> forall a :: a in alts ==> a !in store
    ensures ResolveFrom(store, node, [port], 0, lib).failure.Some? ==>
      ResolveFrom(store, node, [port], 0, lib) == Written(store, Some(MissingInputData(port.source)))
  {
    PlainAlternatives(store, PortKey(node, port), port.source, PortAlternatives(port, node.self.id, node.parent), false, lib);
  }

  /** With a reading-back JSON library, a port with one stored alternative
      gets a copy of that alternative's value under its own key. */
  lemma ResolvedPortCopiesValue(store: Store, node: ParNode, port: Port, lib: Lib)
    requires ReadsBack(lib) && Count(port.source, '/') <= 1
    requires var alts := Alternatives(SourceKey(port.source, node.self.id, node.parent));
      |alts| == 1 && alts[0] in store
    ensures var a := Alternatives(SourceKey(port.source, node.self.id, node.parent))[0];
      ResolveFrom(store, node, [port], 0, lib) == Written(store[PortKey(node, port) := store[a]], None)
  {
    var alts := Alternatives(SourceKey(port.source, node.self.id, node.parent));
    var a := alts[0];
    var key := PortKey(node, port);
    assert ResolveAlternatives(store, key, port.source, alts, false, lib)
        == ResolveAlternatives(store[key := lib.parse(lib.show(store[a]))], key, port.source, alts[1..], true, lib);
    assert alts[1..] == [];
  }

  /** `call`'s input phase: nothing to do without declared inputs. */
  function ResolveInputs(store: Store, node: ParNode, lib: Lib): (w: Written)
    ensures node.ports.None? ==> w == Written(store, None)
    ensures w.failure.None? && node.ports.Some? ==> forall p :: p in node.ports.value ==> PortKey(node, p) in w.store
    ensures node.ports.Some? ==> forall x :: x in w.store ==>
      x in store || exists p :: p in node.ports.value && x == PortKey(node, p)
    ensures node.ports.Some? ==> forall x :: x in store && (forall p :: p in node.ports.value ==> x != PortKey(node, p)) ==>
      x in w.store && w.store[x] == store[x]
  {
    match node.ports
    case None => Written(store, None)
    case Some(ports) => ResolveFrom(store, node, ports, 0, lib)
  }

  /** The loop context of the start node, copied to a branch only when the
      start node runs inside a parallel-for iteration. */
  function ForwardContext(child: Node, self: Node): (r: Node)
    ensures self.loopCounter == -1 ==> r == child
    ensures self.loopCounter != -1 ==>
      r.loopCounter == self.loopCounter && r.maxLoopCounter == self.maxLoopCounter
      && r.concurrencyLimit == self.concurrencyLimit && r.startTime == self.startTime
    ensures r.(loopCounter := child.loopCounter, maxLoopCounter := child.maxLoopCounter,
      concurrencyLimit := child.concurrencyLimit, startTime := child.startTime) == child
  {
    if self.loopCounter != -1 then
      child.(loopCounter := self.loopCounter, maxLoopCounter := self.maxLoopCounter,
        concurrencyLimit := self.concurrencyLimit, startTime := self.startTime)
    else child
  }

  /** The nesting bookkeeping after a parallel-for: nested start nodes learn
      the enclosing count plus the number of simulation branches, and so do
      simulation branches as their parallel-function amount. */
  function PropagateNesting(child: Node, after: int, sims: nat): (r: Node)
    ensures after == -1 ==> r == child
    ensures after != -1 && CountsNesting(child.kind) ==> r == child.(afterParallelFor := after + sims)
    ensures after != -1 && child.kind == SimulationNode ==> r == child.(parallelFunctions := after + sims)
    ensures !CountsNesting(child.kind) && child.kind != SimulationNode ==> r == child
  {
    if after == -1 then child
    else if CountsNesting(child.kind) then child.(afterParallelFor := after + sims)
    else if child.kind == SimulationNode then child.(parallelFunctions := after + sims)
    else child
  }

  /** Every branch with the context forwarded and the nesting counts set, as
      if both happened before the branches were submitted: inside a loop each
      branch takes over the loop context; after a parallel-for each nested
      start node, and each simulation branch as its parallel-function amount,
      gets the enclosing count plus the number of simulation branches; no
      other field changes. */
  function PrepareBranches(self: Node): (r: seq<Node>)
    ensures |r| == |self.children|
    ensures forall i :: 0 <= i < |r| ==> var c := self.children[i];
      if self.loopCounter != -1 then
        r[i].loopCounter == self.loopCounter && r[i].maxLoopCounter == self.maxLoopCounter
        && r[i].concurrencyLimit == self.concurrencyLimit && r[i].startTime == self.startTime
      else
        r[i].loopCounter == c.loopCounter && r[i].maxLoopCounter == c.maxLoopCounter
        && r[i].concurrencyLimit == c.concurrencyLimit && r[i].startTime == c.startTime
    ensures forall i :: 0 <= i < |r| ==> var c := self.children[i];
      r[i].afterParallelFor
        == (if self.afterParallelFor != -1 && CountsNesting(c.kind)
            then self.afterParallelFor + SimulationCount(self.children) else c.afterParallelFor)
    ensures forall i :: 0 <= i < |r| ==> var c := self.children[i];
      r[i].parallelFunctions
        == (if self.afterParallelFor != -1 && c.kind == SimulationNode && !CountsNesting(c.kind)
            then self.afterParallelFor + SimulationCount(self.children) else c.parallelFunctions)
    ensures forall i :: 0 <= i < |r| ==> var c := self.children[i];
      r[i].(loopCounter := c.loopCounter, maxLoopCounter := c.maxLoopCounter, concurrencyLimit := c.concurrencyLimit,
        startTime := c.startTime, afterParallelFor := c.afterParallelFor, parallelFunctions := c.parallelFunctions) == c
  {
    var sims := SimulationCount(self.children);
    seq(|self.children|, i requires 0 <= i < |self.children| =>
      PropagateNesting(ForwardContext(self.children[i], self), self.afterParallelFor, sims))
  }

  /** Outside any loop and any parallel-for, the branches are left as they
      are. */
  lemma TopLevelBranchesUnchanged(self: Node)
    requires self.loopCounter == -1 && self.afterParallelFor == -1
    ensures PrepareBranches(self) == self.children
  {
  }

  /** The simulation count adds up over concatenation and counts every
      simulation branch. */
  lemma {:induction false} SimulationCountConcat(a: seq<Node>, b: seq<Node>)
    ensures SimulationCount(a + b) == SimulationCount(a) + SimulationCount(b)
  {
    if a == [] {
      assert a + b == b;
    } else {
      assert (a + b)[1..] == a[1..] + b;
      SimulationCountConcat(a[1..], b);
    }
  }

  lemma {:induction false} SimulationCountAll(nodes: seq<Node>)
    ensures (forall i :: 0 <= i < |nodes| ==> nodes[i].kind == SimulationNode) ==> SimulationCount(nodes) == |nodes|
    ensures (forall i :: 0 <= i < |nodes| ==> nodes[i].kind != SimulationNode) ==> SimulationCount(nodes) == 0
  {
    if nodes != [] {
      SimulationCountAll(nodes[1..]);
    }
  }

  /** The prepared branches and the size of the pool they are submitted to. */
  datatype Fanout = Fanout(children: seq<Node>, poolSize: nat)

  /** What `call` leaves behind: the state as the input loop left it, which
      keeps its writes even when the call throws, and either the branches
      about to be submitted or the exception. */
  datatype Started = Started(store: Store, fanout: Result<Fanout>)

  /** `call`, up to the submission of the branches: inputs, then the pool,
      then the branch preparation. */
  function Call(node: ParNode, store: Store, lib: Lib): (r: Started)
    ensures r.fanout.Ok? ==> |r.fanout.value.children| == |node.self.children| > 0
    ensures r.fanout.Ok? ==>
      r.fanout.value.poolSize == (if |node.self.children| > MaxParallelThreads then MaxParallelThreads else |node.self.children|)
    ensures ResolveInputs(store, node, lib).failure.None? ==> (r.fanout.Ok? <==> |node.self.children| > 0)
    ensures ResolveInputs(store, node, lib).failure.Some? ==> r.fanout == Fail(ResolveInputs(store, node, lib).failure.value)
    ensures r.fanout.Ok? ==> forall i :: 0 <= i < |r.fanout.value.children| ==>
      r.fanout.value.children[i] == PropagateNesting(ForwardContext(node.self.children[i], node.self),
        node.self.afterParallelFor, SimulationCount(node.self.children))
    ensures node.ports.None? ==> r.store == store
    ensures node.ports.Some? && ResolveInputs(store, node, lib).failure.None? ==>
      forall p :: p in node.ports.value ==> PortKey(node, p) in r.store
    ensures node.ports.Some? ==> forall x :: x in r.store ==>
      x in store || exists p :: p in node.ports.value && x == PortKey(node, p)
    ensures node.ports.Some? ==> forall x :: x in store && (forall p :: p in node.ports.value ==> x != PortKey(node, p)) ==>
      x in r.store && r.store[x] == store[x]
  {
    var w := ResolveInputs(store, node, lib);
    if w.failure.Some? then Started(w.store, Fail(w.failure.value))
    else match PoolSize(|node.self.children|, MaxParallelThreads)
      case Fail(e) => Started(w.store, Fail(e))
      case Ok(pool) => Started(w.store, Ok(Fanout(PrepareBranches(node.self), pool)))
  }

  /** When every input resolves, the key of a plain port that is the last to
      write it holds the parsed text of its last stored alternative. */
  lemma CallPortValue(node: ParNode, store: Store, lib: Lib, j: nat, m: int)
    requires node.ports.Some? && j < |node.ports.value| && ResolveInputs(store, node, lib).failure.None?
    requires var ports := node.ports.value;
      Count(ports[j].source, '/') <= 1 && LastPortOfKey(node, ports, j) && ReadsNoPortKey(node, ports, 0, j)
      && LastStoredAt(PortAlternatives(ports[j], node.self.id, node.parent), store, m)
    ensures var port := node.ports.value[j];
      Call(node, store, lib).store[PortKey(node, port)]
        == lib.parse(lib.show(store[PortAlternatives(port, node.self.id, node.parent)[m]]))
  {
    ResolvedPortValue(store, node, node.ports.value, 0, lib, j, m);
  }

  /** A call whose inputs fail still leaves the writes of the ports that
      resolved before the first one that did not. */
  lemma FailedCallKeepsEarlierPorts(node: ParNode, store: Store, lib: Lib) returns (j: nat)
    requires node.ports.Some? && ResolveInputs(store, node, lib).failure.Some?
    ensures j < |node.ports.value| && Call(node, store, lib).fanout.Fail?
    ensures StopsAt(store, node, node.ports.value, 0, j, lib, Written(Call(node, store, lib).store, None))
  {
    j := FailureKeepsEarlierPorts(store, node, node.ports.value, 0, lib);
  }

  /** `passResult`: input entries under a declared port's raw source are kept;
      others are ignored. */
  function PassResult(dataValues: map<string, Value>, node: ParNode, input: map<string, Value>): (r: map<string, Value>)
    ensures node.ports.None? ==> r == dataValues
    ensures node.ports.Some? ==> r.Keys == dataValues.Keys + (set k | k in PortSources(node.ports.value) && k in input)
    ensures node.ports.Some? ==> forall k :: k in PortSources(node.ports.value) && k in input ==> r[k] == input[k]
    ensures forall k :: k in dataValues && (node.ports.None? || k !in PortSources(node.ports.value) || k !in input) ==>
      r[k] == dataValues[k]
  {
    match node.ports
    case None => dataValues
    case Some(ports) => CopyPresent(dataValues, PortSources(ports), input)
  }

  /** `findParallelEndNode` from a branch: the first parallel end met at
      depth zero along the first-child chain, if any. */
  lemma ParallelEndSearch(first: Node)
    ensures var e := FindMatchingEnd(first, 0, ParallelStart, ParallelEnd);
      (e.Some? <==> exists k: nat :: IsMatchAt(Chain(first), 0, k, ParallelStart, ParallelEnd))
    ensures var e := FindMatchingEnd(first, 0, ParallelStart, ParallelEnd);
      e.Some? ==> e.value.kind == ParallelEnd
  {
    var e := FindMatchingEnd(first, 0, ParallelStart, ParallelEnd);
    if e.Some? {
      var k := FindMatchingEndFound(first, 0, ParallelStart, ParallelEnd);
    } else {
      FindMatchingEndNone(first, 0, ParallelStart, ParallelEnd);
    }
  }
}

=== FILE: parallel_for.dfy ===
/** The parallel-for start node: loop bounds and the concurrency constraint,
    counter variables, unrolling of the loop body into one clone per
    iteration, per-iteration re-tagging, and the hand-off of distributed input
    data to the iterations through the state store. */
module ParallelFor {
  import opened Failures
  import opened Text
  import opened Numerals
  import opened JsonValues
  import opened Workflow
  import opened Nodes
  import opened StateStore
  import opened Sources
  import opened Distribution

  /** A loop bound: a literal integer or the name of a variable to look up. */
  datatype Bound = Literal(n: int) | Variable(name: string)

  /** The parsed `LoopCounter`: the step is always a literal. */
  datatype LoopSpec = LoopSpec(from: Bound, to: Bound, step: int)

  /** `Integer.valueOf(text)`, falling back to treating the text as a
      variable name. */
  function ParseBound(text: string): (b: Bound)
    ensures b.Literal? <==> ParseInt32(text).Some?
    ensures b.Literal? ==> IsInt32(b.n) && ParseInt32(text) == Some(b.n)
    ensures b.Variable? ==> b.name == text
  {
    match ParseInt32(text)
    case Some(n) => Literal(n)
    case None => Variable(text)
  }

  /** `parseLoopCounter`: a `from`/`to` that is not an integer names a
      variable; a `step` that is not an integer silently becomes 1. */
  function ParseLoopCounter(lc: LoopCounter): (s: LoopSpec)
    ensures s.from.Literal? <==> ParseInt32(lc.from).Some?
    ensures s.to.Literal? <==> ParseInt32(lc.to).Some?
    ensures s.from.Literal? ==> ParseInt32(lc.from) == Some(s.from.n)
    ensures s.to.Literal? ==> ParseInt32(lc.to) == Some(s.to.n)
    ensures s.from.Variable? ==> s.from.name == lc.from
    ensures s.to.Variable? ==> s.to.name == lc.to
    ensures ParseInt32(lc.step).Some? ==> s.step == ParseInt32(lc.step).value
    ensures ParseInt32(lc.step).None? ==> s.step == 1
    ensures IsInt32(s.step)
  {
    LoopSpec(ParseBound(lc.from), ParseBound(lc.to),
      match ParseInt32(lc.step) case Some(n) => n case None => 1)
  }

  /** Printed integer bounds are read back as literals. */
  lemma LiteralLoopCounter(from: int, to: int, step: int)
    requires IsInt32(from) && IsInt32(to) && IsInt32(step)
    ensures ParseLoopCounter(LoopCounter(IntToString(from), IntToString(to), IntToString(step)))
         == LoopSpec(Literal(from), Literal(to), step)
  {
    ParseIntToString(from);
    ParseIntToString(to);
    ParseIntToString(step);
  }

  /** A bound holding a character other than a sign or a digit is a variable
      name; a step like that is 1. */
  lemma NamedLoopCounter(from: string, to: string, step: string)
    requires HasLetter(from) && HasLetter(to) && HasLetter(step)
    ensures ParseLoopCounter(LoopCounter(from, to, step)) == LoopSpec(Variable(from), Variable(to), 1)
  {
    LetterIsNoNumber(from);
    LetterIsNoNumber(to);
    LetterIsNoNumber(step);
  }

  /** Some character of `s` is neither a digit nor a sign. */
  predicate HasLetter(s: string) {
    exists i :: 0 <= i < |s| && NotNumeric(s[i])
  }

  predicate NotNumeric(c: char) {
    !IsDigit(c) && c != '-' && c != '+'
  }

  lemma LetterIsNoNumber(s: string)
    requires HasLetter(s)
    ensures ParseInt32(s).None?
  {
    var i :| 0 <= i < |s| && NotNumeric(s[i]);
    if s[0] == '-' || s[0] == '+' {
      assert s[1..][i - 1] == s[i];
    }
  }

  /** The default of `maxNumberThreads`. */
  const DefaultThreads: int := 1000

  /** A `concurrency` constraint whose value parses as an integer. */
  predicate SetsConcurrency(c: Constraint) {
    c.name == "concurrency" && ParseInt32(c.value).Some?
  }

  /** `checkConstraints`, from constraint `i` on, with `current` the limit so
      far: every parsable `concurrency` constraint overrides it, others are
      ignored. */
  function ConcurrencyFrom(cs: seq<Constraint>, i: nat, current: int): int
    requires i <= |cs|
    decreases |cs| - i
  {
    if i == |cs| then current
    else if SetsConcurrency(cs[i]) then ConcurrencyFrom(cs, i + 1, ParseInt32(cs[i].value).value)
    else ConcurrencyFrom(cs, i + 1, current)
  }

  /** The configured thread limit: the default without constraints. */
  function MaxThreads(constraints: Option<seq<Constraint>>): int {
    match constraints
    case None => DefaultThreads
    case Some(cs) => ConcurrencyFrom(cs, 0, DefaultThreads)
  }

  /** Constraint `j` (at or after `i`) is the last one that sets the
      concurrency. */
  predicate IsLastSetting(cs: seq<Constraint>, i: nat, j: int) {
    i <= j < |cs| && SetsConcurrency(cs[j]) && forall l :: j < l < |cs| ==> !SetsConcurrency(cs[l])
  }

  /** The last parsable `concurrency` constraint wins; without one the
      default stays. */
  lemma {:induction false} ConcurrencyFromIsLast(cs: seq<Constraint>, i: nat, current: int)
    requires i <= |cs|
    ensures var r := ConcurrencyFrom(cs, i, current);
      ((forall j :: i <= j < |cs| ==> !SetsConcurrency(cs[j])) ==> r == current)
      && (forall j :: IsLastSetting(cs, i, j) ==> r == ParseInt32(cs[j].value).value)
    decreases |cs| - i
  {
    if i < |cs| {
      if SetsConcurrency(cs[i]) {
        ConcurrencyFromIsLast(cs, i + 1, ParseInt32(cs[i].value).value);
      } else {
        ConcurrencyFromIsLast(cs, i + 1, current);
      }
    }
  }

  /** The concurrency limit handed to each iteration: -1 ("none") for the
      default. */
  function ForwardedLimit(maxThreads: int): (r: int)
    ensures r == -1 <==> maxThreads == DefaultThreads || maxThreads == -1
    ensures r != -1 ==> r == maxThreads
  {
    if maxThreads == DefaultThreads then -1 else maxThreads
  }

  /** The Java objects the start node keeps in its `dataValues` and
      `counterValues` maps. A Java `ArrayList` is represented by the JSON
      array Gson turns it into. */
  datatype Value =
    | VText(s: string)   // java.lang.String
    | VJson(j: Json)     // a Gson JsonElement
    | VInt(n: int)       // java.lang.Integer
    | VDouble(text: string) // java.lang.Double, by its printed form

  /** `Object.toString()` of a held value. */
  function ValueText(v: Value, lib: Lib): string {
    match v
    case VText(s) => s
    case VJson(j) => lib.show(j)
    case VInt(n) => IntToString(n)
    case VDouble(t) => t
  }

  /** The per-node maps filled by `passResult` and by `call`. */
  datatype Inputs = Inputs(dataValues: map<string, Value>, counterValues: map<string, Value>)

  /** The variable names among the bounds, in `counterVariableNames` order
      (the step is never a variable). */
  function CounterNames(spec: LoopSpec): (names: seq<string>)
    ensures forall k :: 0 <= k < |names| ==>
      (spec.from.Variable? && names[k] == spec.from.name) || (spec.to.Variable? && names[k] == spec.to.name)
    ensures spec.from.Variable? ==> spec.from.name in names
    ensures spec.to.Variable? ==> spec.to.name in names
  {
    (if spec.from.Variable? then [spec.from.name] else [])
    + (if spec.to.Variable? then [spec.to.name] else [])
  }

  /** The position of the last alternative present in `m`, or -1. */
  function LastPresent<V>(alts: seq<string>, m: map<string, V>): (k: int)
    ensures -1 <= k < |alts|
    ensures k >= 0 ==> alts[k] in m
    ensures forall j :: k < j < |alts| ==> alts[j] !in m
  {
    if alts == [] then -1
    else if alts[|alts| - 1] in m then |alts| - 1
    else LastPresent(alts[..|alts| - 1], m)
  }

  /** The name-resolution loop of `addChildren` for one variable: the last
      alternative with a counter value wins; none is a missing input. */
  function ResolveName(name: string, counters: map<string, Value>): (r: Result<string>)
    ensures r.Ok? <==> exists j :: 0 <= j < |Alternatives(name)| && Alternatives(name)[j] in counters
    ensures r.Ok? ==> r.value in counters
    ensures r.Ok? ==> exists j :: (0 <= j < |Alternatives(name)| && Alternatives(name)[j] == r.value
      && forall l :: j < l < |Alternatives(name)| ==> Alternatives(name)[l] !in counters)
    ensures r.Fail? ==> r.error == MissingInputData(name)
  {
    var alts := Alternatives(name);
    var k := LastPresent(alts, counters);
    if k >= 0 then Ok(alts[k]) else Fail(MissingInputData(name))
  }

  /** A bound after name resolution: literals stay, variable names become the
      alternative that was found. */
  function ResolveBound(b: Bound, counters: map<string, Value>): (r: Result<Bound>)
    ensures b.Literal? ==> r == Ok(b)
    ensures r.Ok? && r.value.Variable? ==> r.value.name in counters
    ensures b.Variable? ==> r.Ok? == ResolveName(b.name, counters).Ok?
  {
    match b
    case Literal(_) => Ok(b)
    case Variable(name) =>
      match ResolveName(name, counters)
      case Ok(found) => Ok(Variable(found))
      case Fail(e) => Fail(e)
  }

  /** `Integer.parseInt((String) value)`: only a Java string can be read. */
  function ReadFrom(v: Value): (r: Result<int>)
    ensures r.Ok? ==> v.VText? && ParseInt32(v.s) == Some(r.value)
    ensures !v.VText? ==> r == Fail(ClassCast)
  {
    match v
    case VText(s) => (match ParseInt32(s) case Some(n) => Ok(n) case None => Fail(NumberFormat(s)))
    case _ => Fail(ClassCast)
  }

  /** `(int) Double.parseDouble(value.toString())`: the whole part of the
      number, saturated to the `int` range. */
  function ReadTo(v: Value, lib: Lib): (r: Result<int>)
    ensures r.Ok? <==> lib.truncateDouble(ValueText(v, lib)).Some?
    ensures r.Ok? ==> r.value == Clamp32(lib.truncateDouble(ValueText(v, lib)).value)
    ensures r.Fail? ==> r.error == NumberFormat(ValueText(v, lib))
  {
    var t := ValueText(v, lib);
    match lib.truncateDouble(t)
    case Some(n) => Ok(Clamp32(n))
    case None => Fail(NumberFormat(t))
  }

  /** The bounds a Java `int` can hold. */
  predicate LiteralsFit(spec: LoopSpec) {
    (spec.from.Literal? ==> IsInt32(spec.from.n)) && (spec.to.Literal? ==> IsInt32(spec.to.n))
  }

  /** The effective loop bounds: every variable is resolved first, then the
      start and the end are read. */
  function ResolveBounds(spec: LoopSpec, counters: map<string, Value>, lib: Lib): (r: Result<(int, int)>)
    ensures (spec.from.Variable? && ResolveName(spec.from.name, counters).Fail?) ==>
      r == Fail(MissingInputData(spec.from.name))
    ensures ((spec.from.Literal? || ResolveName(spec.from.name, counters).Ok?)
      && spec.to.Variable? && ResolveName(spec.to.name, counters).Fail?) ==>
      r == Fail(MissingInputData(spec.to.name))
    ensures spec.from.Literal? && spec.to.Literal? ==> r == Ok((spec.from.n, spec.to.n))
    ensures r.Ok? && LiteralsFit(spec) ==> IsInt32(r.value.0) && IsInt32(r.value.1)
  {
    var from :- ResolveBound(spec.from, counters);
    var to :- ResolveBound(spec.to, counters);
    var start :- if from.Literal? then Ok(from.n) else ReadFrom(counters[from.name]);
    var end :- if to.Literal? then Ok(to.n) else ReadTo(counters[to.name], lib);
    Ok((start, end))
  }

  /** The counter values `for (i = start; i < bound; i += step)` visits,
      stepping without overflow. */
  function LoopValues(start: int, bound: int, step: int): seq<int>
    requires step > 0
    decreases bound - start
  {
    if start >= bound then [] else [start] + LoopValues(start + step, bound, step)
  }

  lemma {:induction false} LoopValuesShape(start: int, bound: int, step: int)
    requires step > 0
    ensures var vs := LoopValues(start, bound, step);
      && (forall j :: 0 <= j < |vs| ==> vs[j] == start + j * step && vs[j] < bound)
      && (start < bound ==> bound - start <= |vs| * step < bound - start + step)
      && (start >= bound ==> vs == [])
    decreases bound - start
  {
    if start < bound {
      var rest := LoopValues(start + step, bound, step);
      LoopValuesShape(start + step, bound, step);
      var vs := LoopValues(start, bound, step);
      forall j | 1 <= j < |vs|
        ensures vs[j] == start + j * step
      {
        assert vs[j] == rest[j - 1];
        assert (j - 1) * step + step == j * step;
      }
      assert (|rest| + 1) * step == |rest| * step + step;
    }
  }

  /** How many clones the unrolling loop appends, for the Java `int` loop
      `for (i = start; i < end - 1; i += step)`. A loop that would never end
      or whose counter would wrap past the `int` range is an error. */
  function IterationCount(start: int, end: int, step: int): (r: Result<nat>)
    requires IsInt32(start) && IsInt32(end)
    ensures start >= Wrap32(end - 1) ==> r == Ok(0)
    ensures start < Wrap32(end - 1) && step == 0 ==> r == Fail(NonTerminating)
    ensures start < Wrap32(end - 1) && step < 0 ==> r == Fail(CounterWrapAround)
    ensures r.Ok? && start < Wrap32(end - 1) ==>
      && step > 0
      && Wrap32(end - 1) - start <= r.value * step < Wrap32(end - 1) - start + step
      && start + r.value * step <= MaxInt32
    ensures step > 0 && start < Wrap32(end - 1) ==>
      (r.Ok? <==> start + |LoopValues(start, Wrap32(end - 1), step)| * step <= MaxInt32)
  {
    var bound := Wrap32(end - 1);
    if start >= bound then Ok(0)
    else if step == 0 then Fail(NonTerminating)
    else if step < 0 then Fail(CounterWrapAround)
    else
      var k := |LoopValues(start, bound, step)|;
      LoopValuesShape(start, bound, step);
      if start + k * step > MaxInt32 then Fail(CounterWrapAround) else Ok(k)
  }

  /** `for (i = 0; i < n - 1; i++)` runs `n - 1` times for a positive `n`. */
  lemma CountFromZero(n: int)
    requires 1 <= n <= MaxInt32
    ensures IterationCount(0, n, 1) == Ok(n - 1)
  {
    LoopValuesShape(0, n - 1, 1);
  }

  /** The loop body after unrolling, and the number of parents its end node
      waits for. */
  datatype Unrolled = Unrolled(children: seq<Node>, joinCount: nat)

  /** `addChildren` after the bounds are known: reading the first child of
      an empty body fails, then one clone of the first child is appended per
      iteration, and a missing end node fails when its parent count is set. */
  function Unroll(children: seq<Node>, start: int, end: int, step: int): (r: Result<Unrolled>)
    requires IsInt32(start) && IsInt32(end)
    ensures children == [] ==> r == Fail(IndexOutOfBounds(0))
    ensures r.Ok? ==> IterationCount(start, end, step).Ok?
    ensures r.Ok? ==> var k := IterationCount(start, end, step).value;
      && |r.value.children| == |children| + k
      && r.value.children[..|children|] == children
      && (forall j :: |children| <= j < |r.value.children| ==> r.value.children[j] == Clone(children[0]))
      && r.value.joinCount == |r.value.children|
    ensures children != [] && IterationCount(start, end, step).Ok? ==>
      (r.Ok? <==> FindMatchingEnd(children[0], 0, ParallelForStart, ParallelForEnd).Some?)
    ensures r.Fail? && children != [] && IterationCount(start, end, step).Ok? ==> r.error == NullDereference
  {
    if children == [] then Fail(IndexOutOfBounds(0))
    else
      var endNode := FindMatchingEnd(children[0], 0, ParallelForStart, ParallelForEnd);
      var k :- IterationCount(start, end, step);
      var all := children + seq(k, _ => Clone(children[0]));
      if endNode.None? then Fail(NullDereference) else Ok(Unrolled(all, |all|))
  }

  /** From 0 to `n` with step 1, `n - 1` clones of the first body node are
      appended, and the end node waits for every resulting child: `n` of them
      for a one-node body. */
  lemma UnrollZeroToN(children: seq<Node>, n: int)
    requires 1 <= n <= MaxInt32 && children != []
    requires FindMatchingEnd(children[0], 0, ParallelForStart, ParallelForEnd).Some?
    ensures var r := Unroll(children, 0, n, 1);
      r.Ok? && |r.value.children| == |children| + n - 1 && r.value.joinCount == |children| + n - 1
  {
    CountFromZero(n);
  }

  /** The end node found from the first child is the first parallel-for end
      met at depth zero along the first-child chain; if there is none, none
      exists. */
  lemma EndNodeSearch(first: Node)
    ensures var e := FindMatchingEnd(first, 0, ParallelForStart, ParallelForEnd);
      (e.Some? <==> exists k: nat :: IsMatchAt(Chain(first), 0, k, ParallelForStart, ParallelForEnd))
  {
    var e := FindMatchingEnd(first, 0, ParallelForStart, ParallelForEnd);
    if e.Some? {
      var k := FindMatchingEndFound(first, 0, ParallelForStart, ParallelForEnd);
    } else {
      FindMatchingEndNone(first, 0, ParallelForStart, ParallelForEnd);
    }
  }

  /** The setup of iteration `i` in `call`: loop counter, loop bound,
      concurrency limit and start time are set, a following If/Parallel/Switch
      start forgets its enclosing parallel-for, and the iteration is
      re-tagged with id `i + 1`. */
  function SetupChild(node: Node, i: nat, maxLoop: int, limit: int, startTime: int): (r: Node)
    ensures r.id == i + 1 && r.loopCounter == i && r.maxLoopCounter == maxLoop
    ensures r.concurrencyLimit == limit && r.startTime == startTime
    ensures CountsNesting(node.kind) ==> r.afterParallelFor == 0
    ensures !CountsNesting(node.kind) ==> r.afterParallelFor == node.afterParallelFor
    ensures TaggedThrough(r, i + 1)
    ensures SameButIds(r, node.(loopCounter := i, maxLoopCounter := maxLoop, concurrencyLimit := limit,
      startTime := startTime, afterParallelFor := r.afterParallelFor))
  {
    var n := node.(loopCounter := i, maxLoopCounter := maxLoop, concurrencyLimit := limit,
      startTime := startTime,
      afterParallelFor := if CountsNesting(node.kind) then 0 else node.afterParallelFor);
    RetagTagsRegion(n, i + 1);
    Retag(n, i + 1)
  }

  /** The children of `call`, iteration `i` set up with counter `i`: each
      carries the shared bound, limit and start time, is tagged `i + 1`
      through its region and is otherwise the body node it came from, and no
      two iterations share an id. */
  function SetupChildren(children: seq<Node>, maxLoop: int, limit: int, startTime: int): (r: seq<Node>)
    ensures |r| == |children|
    ensures forall i :: 0 <= i < |r| ==>
      && r[i].id == i + 1 && r[i].loopCounter == i && r[i].maxLoopCounter == maxLoop
      && r[i].concurrencyLimit == limit && r[i].startTime == startTime
      && TaggedThrough(r[i], i + 1)
    ensures forall i :: 0 <= i < |r| ==>
      SameButIds(r[i], children[i].(loopCounter := i, maxLoopCounter := maxLoop, concurrencyLimit := limit,
        startTime := startTime, afterParallelFor := r[i].afterParallelFor))
    ensures forall i :: 0 <= i < |r| ==>
      r[i].afterParallelFor == (if CountsNesting(children[i].kind) then 0 else children[i].afterParallelFor)
    ensures forall i, j :: 0 <= i < |r| && 0 <= j < |r| && i != j ==> r[i].id != r[j].id
  {
    seq(|children|, i requires 0 <= i < |children| => SetupChild(children[i], i, maxLoop, limit, startTime))
  }

  /** Iteration `i` is tagged `i + 1` down to its parallel-for end nodes and
      nothing below those changes; iterations carry distinct ids. */
  lemma SetupTagsIteration(children: seq<Node>, maxLoop: int, limit: int, startTime: int, i: nat, j: nat)
    requires i < |children| && j < |children| && i != j
    ensures var r := SetupChildren(children, maxLoop, limit, startTime);
      TaggedThrough(r[i], i + 1) && r[i].id != r[j].id
    ensures var r := SetupChildren(children, maxLoop, limit, startTime);
      var n := children[i];
      SameButIds(r[i], n.(loopCounter := r[i].loopCounter, maxLoopCounter := maxLoop,
        concurrencyLimit := limit, startTime := startTime, afterParallelFor := r[i].afterParallelFor))
  {
    var n := children[i];
    var m := n.(loopCounter := i, maxLoopCounter := maxLoop, concurrencyLimit := limit,
      startTime := startTime,
      afterParallelFor := if CountsNesting(n.kind) then 0 else n.afterParallelFor);
    RetagTagsRegion(m, i + 1);
  }

  /** The alternative keys a port is read from, in this node's scope. */
  function PortAlternatives(port: Port, id: int, parent: Option<ParentRef>): seq<string> {
    Alternatives(SourceKey(port.source, id, parent))
  }

  /** The text `call` keeps for a resolved alternative: a sub-object found
      along the path wins; otherwise a collection (by port type or by stored
      value) keeps its JSON text and anything else its string value. */
  function DataText(store: Store, alt: string, sub: Option<string>, typeTag: string, lib: Lib): (r: Result<string>)
    requires alt in store || sub.Some?
    ensures sub.Some? ==> r == Ok(sub.value)
    ensures sub.None? && (typeTag == "collection" || store[alt].JArray?) ==> r == Ok(lib.show(store[alt]))
    ensures sub.None? && store[alt].JString? ==>
      r == Ok(if typeTag == "collection" then lib.show(store[alt]) else store[alt].s)
  {
    if sub.Some? then Ok(sub.value)
    else if typeTag == "collection" || store[alt].JArray? then Ok(lib.show(store[alt]))
    else AsString(store[alt], lib)
  }

  /** The data-gathering loop of `call` over the alternatives of one port:
      each alternative that resolves is kept under its own key as text. */
  function GatherAlternatives(dv: map<string, Value>, store: Store, alts: seq<string>, typeTag: string, lib: Lib)
    : (r: Result<map<string, Value>>)
    ensures r.Ok? ==> dv.Keys <= r.value.Keys <= dv.Keys + (set a | a in alts)
    ensures r.Ok? ==> forall k :: k in dv && k !in alts ==> r.value[k] == dv[k]
    ensures r.Ok? ==> forall a :: a in alts && a in store ==> a in r.value
    ensures r.Ok? && (forall a :: a in alts ==> Count(a, '/') <= 1) ==>
      r.value.Keys == dv.Keys + (set a | a in alts && a in store)
    ensures r.Ok? && (forall a :: a in alts ==> Count(a, '/') <= 1) ==>
      forall a :: a in alts && a in store ==>
        (DataText(store, a, None, typeTag, lib).Ok? && r.value[a] == VText(DataText(store, a, None, typeTag, lib).value))
    decreases |alts|
  {
    if alts == [] then Ok(dv)
    else
      var alt := alts[0];
      var sub :- SubObject(store, alt, lib);
      if alt in store || sub.Some? then
        var t :- DataText(store, alt, sub, typeTag, lib);
        GatherAlternatives(dv[alt := VText(t)], store, alts[1..], typeTag, lib)
      else GatherAlternatives(dv, store, alts[1..], typeTag, lib)
  }

  /** A stored alternative without a sub-object path holds its text after
      the loop, whatever the port's other alternatives are. */
  lemma {:induction false} GatheredText(dv: map<string, Value>, store: Store, alts: seq<string>, typeTag: string,
                                         lib: Lib, a: string)
    requires GatherAlternatives(dv, store, alts, typeTag, lib).Ok?
    requires a in alts && a in store && Count(a, '/') <= 1
    ensures DataText(store, a, None, typeTag, lib).Ok?
    ensures GatherAlternatives(dv, store, alts, typeTag, lib).value[a] == VText(DataText(store, a, None, typeTag, lib).value)
    decreases |alts|
  {
    var rest := alts[1..];
    var sub := SubObject(store, alts[0], lib).value;
    var next := if alts[0] in store || sub.Some? then dv[alts[0] := VText(DataText(store, alts[0], sub, typeTag, lib).value)] else dv;
    if a in rest {
      GatheredText(next, store, rest, typeTag, lib, a);
    } else {
      assert alts[0] == a;
    }
  }

  /** No port after port `i` reads alternative `a`. */
  predicate LastPortReading(ports: seq<Port>, id: int, parent: Option<ParentRef>, i: int, a: string) {
    forall k :: 0 <= k < |ports| && i < k ==> a !in PortAlternatives(ports[k], id, parent)
  }

  /** Every stored alternative of every port is in `out`. */
  predicate GathersStored(ports: seq<Port>, id: int, parent: Option<ParentRef>, store: Store, out: map<string, Value>) {
    forall i, a :: (0 <= i < |ports| && a in PortAlternatives(ports[i], id, parent) && a in store) ==> a in out
  }

  /** Entries of `dv` that no port reads keep their value in `out`. */
  predicate KeepsUnread(ports: seq<Port>, id: int, parent: Option<ParentRef>, dv: map<string, Value>,
                        out: map<string, Value>) {
    forall k :: k in dv && LastPortReading(ports, id, parent, -1, k) ==> k in out && out[k] == dv[k]
  }

  /** A stored plain alternative holds, in `out`, the text the last port
      reading it takes from the state. */
  predicate HoldsGatheredTexts(ports: seq<Port>, id: int, parent: Option<ParentRef>, store: Store, lib: Lib,
                               out: map<string, Value>) {
    forall i, a :: (0 <= i < |ports| && a in PortAlternatives(ports[i], id, parent) && a in store
      && Count(a, '/') <= 1 && LastPortReading(ports, id, parent, i, a)) ==>
        (DataText(store, a, None, ports[i].typeTag, lib).Ok?
         && a in out && out[a] == VText(DataText(store, a, None, ports[i].typeTag, lib).value))
  }

  /** The data-gathering loop of `call` over all ports: every stored
      alternative is gathered, entries no port reads keep their value, and a
      plain alternative holds the text its last reading port takes from the
      state. */
  function GatherData(ports: seq<Port>, id: int, parent: Option<ParentRef>, dv: map<string, Value>,
                      store: Store, lib: Lib): (r: Result<map<string, Value>>)
    ensures r.Ok? ==> dv.Keys <= r.value.Keys
    ensures r.Ok? ==> GathersStored(ports, id, parent, store, r.value)
    ensures r.Ok? ==> KeepsUnread(ports, id, parent, dv, r.value)
    ensures r.Ok? ==> HoldsGatheredTexts(ports, id, parent, store, lib, r.value)
    decreases |ports|
  {
    if ports == [] then Ok(dv)
    else
      var next :- GatherAlternatives(dv, store, PortAlternatives(ports[0], id, parent), ports[0].typeTag, lib);
      var r := GatherData(ports[1..], id, parent, next, store, lib);
      if r.Ok? then
        GatherDataStep(ports, id, parent, dv, next, store, lib, r.value);
        r
      else r
  }

  /** Every stored plain alternative of a port holds its text in `next`. */
  predicate HoldsPortTexts(alts: seq<string>, store: Store, typeTag: string, lib: Lib, next: map<string, Value>) {
    forall a :: a in alts && a in store && Count(a, '/') <= 1 ==>
      (DataText(store, a, None, typeTag, lib).Ok? && a in next && next[a] == VText(DataText(store, a, None, typeTag, lib).value))
  }

  /** The facts of the gathering loop carry over one port. */
  lemma GatherDataStep(ports: seq<Port>, id: int, parent: Option<ParentRef>, dv: map<string, Value>,
                       next: map<string, Value>, store: Store, lib: Lib, out: map<string, Value>)
    requires ports != []
    requires GatherAlternatives(dv, store, PortAlternatives(ports[0], id, parent), ports[0].typeTag, lib) == Ok(next)
    requires GathersStored(ports[1..], id, parent, store, out)
    requires KeepsUnread(ports[1..], id, parent, next, out)
    requires HoldsGatheredTexts(ports[1..], id, parent, store, lib, out)
    ensures GathersStored(ports, id, parent, store, out)
    ensures KeepsUnread(ports, id, parent, dv, out)
    ensures HoldsGatheredTexts(ports, id, parent, store, lib, out)
  {
    var alts := PortAlternatives(ports[0], id, parent);
    assert forall i :: 1 <= i < |ports| ==> ports[i] == ports[1..][i - 1];
    KeepsUnreadStep(ports, id, parent, dv, next, out);
    forall a | a in alts && a in store && Count(a, '/') <= 1
      ensures DataText(store, a, None, ports[0].typeTag, lib).Ok? && a in next
        && next[a] == VText(DataText(store, a, None, ports[0].typeTag, lib).value)
    {
      GatheredText(dv, store, alts, ports[0].typeTag, lib, a);
    }
    HoldsGatheredTextsStep(ports, id, parent, next, store, lib, out);
  }

  lemma KeepsUnreadStep(ports: seq<Port>, id: int, parent: Option<ParentRef>, dv: map<string, Value>,
                        next: map<string, Value>, out: map<string, Value>)
    requires ports != []
    requires forall k :: k in dv && k !in PortAlternatives(ports[0], id, parent) ==> k in next && next[k] == dv[k]
    requires KeepsUnread(ports[1..], id, parent, next, out)
    ensures KeepsUnread(ports, id, parent, dv, out)
  {
    forall k | k in dv && LastPortReading(ports, id, parent, -1, k) ensures k in out && out[k] == dv[k] {
      assert k !in PortAlternatives(ports[0], id, parent);
      assert LastPortReading(ports[1..], id, parent, -1, k) by {
        assert forall i :: 0 <= i < |ports| - 1 ==> ports[1..][i] == ports[i + 1];
      }
    }
  }

  lemma HoldsGatheredTextsStep(ports: seq<Port>, id: int, parent: Option<ParentRef>,
                               next: map<string, Value>, store: Store, lib: Lib, out: map<string, Value>)
    requires ports != []
    requires HoldsPortTexts(PortAlternatives(ports[0], id, parent), store, ports[0].typeTag, lib, next)
    requires KeepsUnread(ports[1..], id, parent, next, out)
    requires HoldsGatheredTexts(ports[1..], id, parent, store, lib, out)
    ensures HoldsGatheredTexts(ports, id, parent, store, lib, out)
  {
    forall i, a | (0 <= i < |ports| && a in PortAlternatives(ports[i], id, parent) && a in store
      && Count(a, '/') <= 1 && LastPortReading(ports, id, parent, i, a))
      ensures DataText(store, a, None, ports[i].typeTag, lib).Ok?
        && a in out && out[a] == VText(DataText(store, a, None, ports[i].typeTag, lib).value)
    {
      assert forall k :: 0 <= k < |ports| - 1 ==> ports[1..][k] == ports[k + 1];
      if i == 0 {
        assert LastPortReading(ports[1..], id, parent, -1, a);
      } else {
        assert ports[i] == ports[1..][i - 1];
        assert LastPortReading(ports[1..], id, parent, i - 1, a);
      }
    }
  }

  /** How the counter-gathering loop of `call` splits a variable name: it
      deletes the literal texts `\s+`, `\[` and `\]` (not whitespace and
      brackets) and splits on commas. */
  function LiteralAlternatives(name: string): seq<string> {
    JavaSplit(DeleteAll(DeleteAll(DeleteAll(name, "\\s+"), "\\["), "\\]"), ',')
  }

  /** Every alternative that is stored, kept with its stored value. */
  function StoredAlternatives(cv: map<string, Value>, alts: seq<string>, store: Store): (r: map<string, Value>)
    ensures forall k :: k in r ==> k in cv || (k in alts && k in store)
    ensures forall a :: a in alts && a in store ==> a in r && r[a] == VJson(store[a])
    ensures forall k :: k in cv && (k !in alts || k !in store) ==> k in r && r[k] == cv[k]
    ensures forall k :: k in cv ==> k in r && (r[k] == cv[k] || (k in store && r[k] == VJson(store[k])))
    decreases |alts|
  {
    if alts == [] then cv
    else if alts[0] in store then StoredAlternatives(cv[alts[0] := VJson(store[alts[0]])], alts[1..], store)
    else StoredAlternatives(cv, alts[1..], store)
  }

  /** The counter-gathering loop of `call`: every split alternative of every
      variable name that is stored is kept with its stored value. */
  function GatherCounters(names: seq<string>, cv: map<string, Value>, store: Store): (r: map<string, Value>)
    ensures forall k :: k in r ==> k in cv || (k in store && exists i :: 0 <= i < |names| && k in LiteralAlternatives(names[i]))
    ensures forall i, a :: (0 <= i < |names| && a in LiteralAlternatives(names[i]) && a in store) ==>
      a in r && r[a] == VJson(store[a])
    ensures forall k :: k in cv && k !in store ==> k in r && r[k] == cv[k]
  {
    var altss := seq(|names|, i requires 0 <= i < |names| => LiteralAlternatives(names[i]));
    assert forall i :: 0 <= i < |names| ==> altss[i] == LiteralAlternatives(names[i]);
    StoredAll(cv, altss, store)
  }

  /** `StoredAlternatives` for each list of alternatives in turn. */
  function StoredAll(cv: map<string, Value>, altss: seq<seq<string>>, store: Store): (r: map<string, Value>)
    ensures forall k :: k in r ==> k in cv || (k in store && exists i :: 0 <= i < |altss| && k in altss[i])
    ensures forall i, a :: (0 <= i < |altss| && a in altss[i] && a in store) ==> a in r && r[a] == VJson(store[a])
    ensures forall k :: k in cv && k !in store ==> k in r && r[k] == cv[k]
    ensures forall k :: k in cv ==> k in r && (r[k] == cv[k] || (k in store && r[k] == VJson(store[k])))
    decreases |altss|
  {
    if altss == [] then cv
    else
      var r := StoredAll(StoredAlternatives(cv, altss[0], store), altss[1..], store);
      assert forall i :: 1 <= i < |altss| ==> altss[i] == altss[1..][i - 1];
      r
  }

  /** The two ways of splitting a counter name disagree on whitespace: for
      `i, n` the name is resolved as `n` but the state is searched for ` n`,
      so a counter `n` held only in the state is reported missing. */
  lemma SpacedCounterNameIsMissing(store: Store)
    requires "n" in store && " n" !in store && "i" !in store
    ensures Alternatives("i, n") == ["i", "n"]
    ensures LiteralAlternatives("i, n") == ["i", " n"]
    ensures ResolveName("i, n", GatherCounters(["i, n"], map[], store)) == Fail(MissingInputData("i, n"))
  {
    SpacedAlternatives();
    SpacedLiteralAlternatives();
    SpacedCountersLackName(store);
  }

  lemma SpacedCountersLackName(store: Store)
    requires "n" in store && " n" !in store && "i" !in store
    requires LiteralAlternatives("i, n") == ["i", " n"]
    ensures var cv := GatherCounters(["i, n"], map[], store); "n" !in cv && "i" !in cv
  {
    assert "n" !in LiteralAlternatives("i, n");
  }

  lemma SpacedAlternatives()
    ensures Alternatives("i, n") == ["i", "n"]
  {
    assert Remove("i, n", SourceNoise) == "i" + "," + "n";
    SplitsInTwo("i", "n");
  }

  lemma SpacedLiteralAlternatives()
    ensures LiteralAlternatives("i, n") == ["i", " n"]
  {
    NoBackslash("i, n", "\\s+");
    NoBackslash("i, n", "\\[");
    NoBackslash("i, n", "\\]");
    assert "i, n" == "i" + "," + " n";
    SplitsInTwo("i", " n");
  }

  lemma SplitsInTwo(a: string, b: string)
    requires a != [] && b != [] && ',' !in a && ',' !in b
    ensures JavaSplit(a + "," + b, ',') == [a, b]
  {
    assert Join([a, b], ',') == a + "," + b;
    SplitKeepJoin([a, b], ',');
  }

  lemma NoBackslash(s: string, pattern: string)
    requires |pattern| > 0 && pattern[0] == '\\' && '\\' !in s
    ensures DeleteAll(s, pattern) == s
  {
    MissingCharNotContained(s, pattern, '\\');
    DeleteAbsent(s, pattern);
  }

  /** A `from` variable read from the state is a JSON element, which the cast
      to `String` in `addChildren` rejects: only a start value handed over by
      `passResult` as a Java string can be used. */
  lemma FromStateVariableFails(spec: LoopSpec, counters: map<string, Value>, found: string, lib: Lib)
    requires spec.from.Variable? && ResolveName(spec.from.name, counters) == Ok(found)
    requires counters[found].VJson?
    requires spec.to.Literal?
    ensures ResolveBounds(spec, counters, lib) == Fail(ClassCast)
  {
  }

  /** The effective bounds of a loop whose `to` is a variable held in the
      state as a number: the printed number read back as a double. */
  lemma ToStateVariableReads(spec: LoopSpec, counters: map<string, Value>, found: string, lib: Lib)
    requires spec.from.Literal? && spec.to.Variable? && ResolveName(spec.to.name, counters) == Ok(found)
    requires counters[found].VJson?
    ensures var r := ResolveBounds(spec, counters, lib);
      var t := lib.show(counters[found].j);
      (r.Ok? <==> lib.truncateDouble(t).Some?)
      && (r.Ok? ==> r.value == (spec.from.n, Clamp32(lib.truncateDouble(t).value)))
  {
  }

  /** The collection a held value stands for in `transferOutVals`: arrays as
      they are, single Java numbers and strings as one-element arrays, a JSON
      primitive as the state value under the same key, anything else is not
      implemented. */
  function Elements(v: Value, alt: string, store: Store): (r: Result<seq<Json>>)
    ensures v.VJson? && v.j.JArray? ==> r == Ok(v.j.elems)
    ensures v.VText? ==> r == Ok([JString(v.s)])
    ensures v.VInt? ==> r == Ok([JInt(v.n)])
    ensures r.Fail? <==> v.VJson? && (v.j.JObject? || v.j.JNull?)
  {
    match v
    case VDouble(t) => Ok([JDouble(t)])
    case VInt(n) => Ok([JInt(n)])
    case VText(s) => Ok([JString(s)])
    case VJson(j) =>
      if j.JArray? then Ok(j.elems)
      else if j.JObject? || j.JNull? then Fail(NotImplemented("value class"))
      else Ok([if alt in store then store[alt] else JNull])
  }

  /** `checkDistributedElements`' view of one chunk: a single element becomes
      a scalar (a number for `number` ports, a string otherwise); any other
      chunk is kept as a JSON array. The result is its printed form. */
  function Collapse(chunk: seq<Json>, typeTag: string, lib: Lib): (r: Result<string>)
    ensures |chunk| != 1 ==> r == Ok(lib.show(JArray(chunk)))
    ensures |chunk| == 1 && chunk[0].JString? ==> r == Ok(chunk[0].s)
    ensures |chunk| == 1 && chunk[0].JInt? ==> r == Ok(IntToString(chunk[0].n))
    ensures |chunk| == 1 && chunk[0].JBool? ==> (r.Ok? <==> typeTag != "number")
    ensures |chunk| == 1 && (chunk[0].JObject? || chunk[0].JNull?) ==> r == Fail(UnsupportedOperation)
  {
    if |chunk| == 1 then
      if typeTag == "number" then AsNumberText(chunk[0], lib) else AsString(chunk[0], lib)
    else Ok(lib.show(JArray(chunk)))
  }

  /** Every chunk collapsed, stopping at the first failure. */
  function CollapseAll(chunks: seq<seq<Json>>, typeTag: string, lib: Lib): (r: Result<seq<string>>)
    ensures r.Ok? <==> forall i :: 0 <= i < |chunks| ==> Collapse(chunks[i], typeTag, lib).Ok?
    ensures r.Ok? ==> |r.value| == |chunks|
    ensures r.Ok? ==> forall i :: 0 <= i < |chunks| ==> r.value[i] == Collapse(chunks[i], typeTag, lib).value
    decreases |chunks|
  {
    if chunks == [] then Ok([])
    else
      var first :- Collapse(chunks[0], typeTag, lib);
      var rest :- CollapseAll(chunks[1..], typeTag, lib);
      assert forall i :: 1 <= i < |chunks| ==> chunks[i] == chunks[1..][i - 1];
      Ok([first] + rest)
  }

  /** The per-iteration entries `values` (one map per iteration, from key to
      printed value). */
  type Values = seq<map<string, string>>

  /** The bookkeeping loop of `checkDistributedElements` from chunk `i` on:
      entry `i` of an existing map is overwritten, a missing map is added. */
  function RecordFrom(values: Values, key: string, texts: seq<string>, i: nat): (r: Values)
    requires i <= |texts| && i <= |values|
    ensures |r| == if |texts| > |values| then |texts| else |values|
    ensures forall j :: 0 <= j < i ==> r[j] == values[j]
    ensures forall j :: i <= j < |texts| && j < |values| ==> r[j] == values[j][key := texts[j]]
    ensures forall j :: i <= j < |texts| && j >= |values| ==> r[j] == map[key := texts[j]]
    ensures forall j :: |texts| <= j < |values| ==> r[j] == values[j]
    decreases |texts| - i
  {
    if i == |texts| then values
    else if i < |values| then RecordFrom(values[i := values[i][key := texts[i]]], key, texts, i + 1)
    else RecordFrom(values + [map[key := texts[i]]], key, texts, i + 1)
  }

  /** The texts one gathered alternative hands to the iterations: its value
      as a collection, distributed by the port's constraints, each chunk
      collapsed by the port's type. */
  function PortTexts(v: Value, alt: string, cs: seq<Constraint>, typeTag: string, store: Store, children: nat,
                     lib: Lib): (r: Result<seq<string>>)
    ensures r.Ok? <==>
      && Elements(v, alt, store).Ok?
      && Distribute(Elements(v, alt, store).value, cs, children, lib).Ok?
      && CollapseAll(Distribute(Elements(v, alt, store).value, cs, children, lib).value, typeTag, lib).Ok?
    ensures r.Ok? ==> var chunks := Distribute(Elements(v, alt, store).value, cs, children, lib).value;
      |r.value| == |chunks| && forall i :: 0 <= i < |chunks| ==> r.value[i] == Collapse(chunks[i], typeTag, lib).value
  {
    var elems :- Elements(v, alt, store);
    var chunks :- Distribute(elems, cs, children, lib);
    CollapseAll(chunks, typeTag, lib)
  }

  /** Alternative `j` is the last of `alts` with a gathered value. */
  predicate LastGathered<V>(alts: seq<string>, dv: map<string, V>, j: int) {
    0 <= j < |alts| && alts[j] in dv && forall l :: j < l < |alts| ==> alts[l] !in dv
  }

  /** `after` keeps every entry of `before` except those under `key`, and has
      at least as many iterations. */
  predicate KeepsOthers(before: Values, after: Values, key: string) {
    |after| >= |before|
    && forall i, k :: 0 <= i < |before| && k in before[i] && k != key ==> k in after[i] && after[i][k] == before[i][k]
  }

  /** Iteration `i` holds `texts[i]` under `key`, for every `i` that has a
      text. */
  predicate HoldsTexts(values: Values, key: string, texts: seq<string>) {
    |values| >= |texts| && forall i :: 0 <= i < |texts| ==> key in values[i] && values[i][key] == texts[i]
  }

  /** Recording one alternative's texts keeps the other entries and puts the
      texts under `key`. */
  lemma RecordKeeps(values: Values, key: string, texts: seq<string>)
    ensures var next := RecordFrom(values, key, texts, 0);
      KeepsOthers(values, next, key) && HoldsTexts(next, key, texts)
  {
  }

  /** A frame for other keys keeps texts recorded under `key`. */
  lemma HoldsKept(before: Values, after: Values, key: string, other: string, texts: seq<string>)
    requires HoldsTexts(before, key, texts) && KeepsOthers(before, after, other) && key != other
    ensures HoldsTexts(after, key, texts)
  {
  }

  lemma KeepsTrans(a: Values, b: Values, c: Result<Values>, key: string)
    requires KeepsOthers(a, b, key) && (c.Ok? ==> KeepsOthers(b, c.value, key))
    ensures c.Ok? ==> KeepsOthers(a, c.value, key)
  {
  }

  /** Every alternative of `alts` with a gathered value distributes. */
  predicate TextsOk(alts: seq<string>, dv: map<string, Value>, cs: seq<Constraint>, typeTag: string, store: Store,
                    children: nat, lib: Lib) {
    forall j :: 0 <= j < |alts| && alts[j] in dv ==> PortTexts(dv[alts[j]], alts[j], cs, typeTag, store, children, lib).Ok?
  }

  /** `values` holds, under `key`, the texts of the last alternative with a
      gathered value. */
  predicate HoldsLastTexts(values: Values, key: string, alts: seq<string>, dv: map<string, Value>, cs: seq<Constraint>,
                           typeTag: string, store: Store, children: nat, lib: Lib) {
    forall j :: 0 <= j < |alts| && LastGathered(alts, dv, j) ==>
      var t := PortTexts(dv[alts[j]], alts[j], cs, typeTag, store, children, lib);
      t.Ok? && HoldsTexts(values, key, t.value)
  }

  /** One port's contribution to `transferOutVals`: every alternative that
      has a gathered value is distributed and recorded under `node/port`, so
      the last such alternative decides the entries it has chunks for; it
      fails iff some gathered alternative fails to distribute. */
  function TransferPort(values: Values, name: string, port: Port, cs: seq<Constraint>, alts: seq<string>,
                        dv: map<string, Value>, store: Store, children: nat, lib: Lib): (r: Result<Values>)
    ensures (forall a :: a in alts ==> a !in dv) ==> r == Ok(values)
    ensures r.Ok? <==> TextsOk(alts, dv, cs, port.typeTag, store, children, lib)
    ensures r.Ok? ==> KeepsOthers(values, r.value, name + "/" + port.name)
    ensures r.Ok? ==> HoldsLastTexts(r.value, name + "/" + port.name, alts, dv, cs, port.typeTag, store, children, lib)
    decreases |alts|
  {
    var key := name + "/" + port.name;
    if alts == [] then Ok(values)
    else if alts[0] !in dv then
      var r := TransferPort(values, name, port, cs, alts[1..], dv, store, children, lib);
      SkipStep(alts, dv, cs, port.typeTag, store, children, lib, key, r);
      r
    else
      var t0 := PortTexts(dv[alts[0]], alts[0], cs, port.typeTag, store, children, lib);
      if t0.Fail? then Fail(t0.error)
      else
        var next := RecordFrom(values, key, t0.value, 0);
        RecordKeeps(values, key, t0.value);
        var r := TransferPort(next, name, port, cs, alts[1..], dv, store, children, lib);
        KeepsTrans(values, next, r, key);
        TakeStep(alts, dv, cs, port.typeTag, store, children, lib, key, next, r);
        r
  }

  /** An alternative without a gathered value changes nothing. */
  lemma SkipStep(alts: seq<string>, dv: map<string, Value>, cs: seq<Constraint>, typeTag: string, store: Store,
                 children: nat, lib: Lib, key: string, r: Result<Values>)
    requires |alts| > 0 && alts[0] !in dv
    requires r.Ok? <==> TextsOk(alts[1..], dv, cs, typeTag, store, children, lib)
    requires r.Ok? ==> HoldsLastTexts(r.value, key, alts[1..], dv, cs, typeTag, store, children, lib)
    ensures r.Ok? <==> TextsOk(alts, dv, cs, typeTag, store, children, lib)
    ensures r.Ok? ==> HoldsLastTexts(r.value, key, alts, dv, cs, typeTag, store, children, lib)
  {
    assert forall j :: 1 <= j < |alts| ==> alts[j] == alts[1..][j - 1];
    assert forall j :: LastGathered(alts, dv, j) ==> j >= 1 && LastGathered(alts[1..], dv, j - 1);
  }

  /** A gathered alternative whose texts were recorded in `next`: they stay
      if no later alternative is gathered. */
  lemma TakeStep(alts: seq<string>, dv: map<string, Value>, cs: seq<Constraint>, typeTag: string, store: Store,
                 children: nat, lib: Lib, key: string, next: Values, r: Result<Values>)
    requires |alts| > 0 && alts[0] in dv
    requires PortTexts(dv[alts[0]], alts[0], cs, typeTag, store, children, lib).Ok?
    requires HoldsTexts(next, key, PortTexts(dv[alts[0]], alts[0], cs, typeTag, store, children, lib).value)
    requires (forall a :: a in alts[1..] ==> a !in dv) ==> r == Ok(next)
    requires r.Ok? <==> TextsOk(alts[1..], dv, cs, typeTag, store, children, lib)
    requires r.Ok? ==> HoldsLastTexts(r.value, key, alts[1..], dv, cs, typeTag, store, children, lib)
    ensures r.Ok? <==> TextsOk(alts, dv, cs, typeTag, store, children, lib)
    ensures r.Ok? ==> HoldsLastTexts(r.value, key, alts, dv, cs, typeTag, store, children, lib)
  {
    assert forall j :: 1 <= j < |alts| ==> alts[j] == alts[1..][j - 1];
    TakeStepOk(alts, dv, cs, typeTag, store, children, lib);
    if r.Ok? {
      forall j | 0 <= j < |alts| && LastGathered(alts, dv, j)
        ensures var t := PortTexts(dv[alts[j]], alts[j], cs, typeTag, store, children, lib);
          t.Ok? && HoldsTexts(r.value, key, t.value)
      {
        if j == 0 {
          assert forall a :: a in alts[1..] ==> a !in dv;
        } else {
          assert LastGathered(alts[1..], dv, j - 1);
        }
      }
    }
  }

  lemma TakeStepOk(alts: seq<string>, dv: map<string, Value>, cs: seq<Constraint>, typeTag: string, store: Store,
                   children: nat, lib: Lib)
    requires |alts| > 0 && alts[0] in dv
    requires PortTexts(dv[alts[0]], alts[0], cs, typeTag, store, children, lib).Ok?
    ensures TextsOk(alts, dv, cs, typeTag, store, children, lib) <==> TextsOk(alts[1..], dv, cs, typeTag, store, children, lib)
  {
    assert forall j :: 1 <= j < |alts| ==> alts[j] == alts[1..][j - 1];
  }

  /** A port with a single gathered alternative: chunk `i` of its
      distribution, collapsed, is entry `i` under `node/port`. */
  lemma TransferSinglePort(values: Values, name: string, port: Port, cs: seq<Constraint>, alt: string,
                           dv: map<string, Value>, store: Store, children: nat, lib: Lib)
    requires alt in dv
    ensures var r := TransferPort(values, name, port, cs, [alt], dv, store, children, lib);
      var elems := Elements(dv[alt], alt, store);
      var chunks := if elems.Ok? then Distribute(elems.value, cs, children, lib) else Fail(NullDereference);
      r.Ok? ==> (chunks.Ok? && |r.value| >= |chunks.value|
        && forall i :: 0 <= i < |chunks.value| ==>
             (name + "/" + port.name) in r.value[i]
             && r.value[i][name + "/" + port.name] == Collapse(chunks.value[i], port.typeTag, lib).value)
  {
    assert LastGathered([alt], dv, 0);
  }

  /** Port `q` is constrained and no later constrained port has its name, so
      its entries are the ones that stay. */
  predicate LastConstrainedOfName(ports: seq<Port>, q: int) {
    0 <= q < |ports| && ports[q].constraints.Some?
    && forall q' :: q < q' < |ports| && ports[q'].constraints.Some? ==> ports[q'].name != ports[q].name
  }

  /** `key` is not the entry key of any constrained port. */
  predicate NoPortKey(name: string, ports: seq<Port>, key: string) {
    forall q :: 0 <= q < |ports| && ports[q].constraints.Some? ==> key != name + "/" + ports[q].name
  }

  /** What the last gathered alternative of port `q` leaves under its key. */
  predicate PortDelivered(values: Values, name: string, ports: seq<Port>, q: int, id: int, parent: Option<ParentRef>,
                          dv: map<string, Value>, store: Store, children: nat, lib: Lib)
    requires 0 <= q < |ports| && ports[q].constraints.Some?
  {
    var alts := PortAlternatives(ports[q], id, parent);
    forall j :: 0 <= j < |alts| && LastGathered(alts, dv, j) ==>
      var t := PortTexts(dv[alts[j]], alts[j], ports[q].constraints.value, ports[q].typeTag, store, children, lib);
      t.Ok? && HoldsTexts(values, name + "/" + ports[q].name, t.value)
  }

  /** `transferOutVals`: ports with constraints are distributed; ports
      without constraints contribute nothing, since the output values
      `passData` would forward are always empty. Each constrained port's
      last gathered alternative puts its collapsed chunk `i` into iteration
      `i` under `node/port`. */
  function TransferOutVals(name: string, ports: seq<Port>, id: int, parent: Option<ParentRef>,
                           dv: map<string, Value>, store: Store, children: nat, lib: Lib): (r: Result<Values>)
    ensures (forall i :: 0 <= i < |ports| ==> ports[i].constraints.None?) ==> r == Ok([])
    ensures r.Ok? ==> forall i :: 0 <= i < |r.value| ==>
      forall k :: k in r.value[i] ==>
        exists q :: 0 <= q < |ports| && ports[q].constraints.Some? && k == name + "/" + ports[q].name
    ensures r.Ok? ==> forall q :: LastConstrainedOfName(ports, q) ==>
      PortDelivered(r.value, name, ports, q, id, parent, dv, store, children, lib)
  {
    var r := TransferFrom([], name, ports, id, parent, dv, store, children, lib);
    OnlyPortKeys(name, ports, id, parent, dv, store, children, lib, r);
    r
  }

  /** Every entry `transferOutVals` makes is under the key of a constrained
      port. */
  lemma OnlyPortKeys(name: string, ports: seq<Port>, id: int, parent: Option<ParentRef>,
                     dv: map<string, Value>, store: Store, children: nat, lib: Lib, r: Result<Values>)
    requires TransferFrom([], name, ports, id, parent, dv, store, children, lib) == r
    ensures r.Ok? ==> forall i :: 0 <= i < |r.value| ==>
      forall k :: k in r.value[i] ==>
        exists q :: 0 <= q < |ports| && ports[q].constraints.Some? && k == name + "/" + ports[q].name
  {
    forall i, k | r.Ok? && 0 <= i < |r.value| && k in r.value[i]
      ensures exists q :: 0 <= q < |ports| && ports[q].constraints.Some? && k == name + "/" + ports[q].name
    {
      if NoPortKey(name, ports, k) {
        EntryKeysFrom([], name, ports, id, parent, dv, store, children, lib, k);
        assert false;
      }
    }
  }

  /** No entry under a key that no constrained port owns is ever created. */
  lemma {:induction false} EntryKeysFrom(values: Values, name: string, ports: seq<Port>, id: int,
                                         parent: Option<ParentRef>, dv: map<string, Value>, store: Store,
                                         children: nat, lib: Lib, key: string)
    requires NoPortKey(name, ports, key)
    requires Absent(values, key)
    ensures var r := TransferFrom(values, name, ports, id, parent, dv, store, children, lib);
      r.Ok? ==> Absent(r.value, key)
    decreases |ports|
  {
    if ports != [] {
      NoPortKeyTail(name, ports, key);
      var next := FirstPortStep(values, name, ports, id, parent, dv, store, children, lib, key);
      if next.Ok? {
        EntryKeysFrom(next.value, name, ports[1..], id, parent, dv, store, children, lib, key);
      }
    }
  }

  /** No iteration holds an entry under `key`. */
  predicate Absent(values: Values, key: string) {
    forall i :: 0 <= i < |values| ==> key !in values[i]
  }

  /** The values after the first port of the loop; a key the first port
      does not own stays absent. */
  lemma FirstPortStep(values: Values, name: string, ports: seq<Port>, id: int, parent: Option<ParentRef>,
                      dv: map<string, Value>, store: Store, children: nat, lib: Lib, key: string)
    returns (next: Result<Values>)
    requires |ports| > 0
    requires ports[0].constraints.Some? ==> key != name + "/" + ports[0].name
    requires Absent(values, key)
    ensures next.Ok? ==> Absent(next.value, key)
    ensures TransferFrom(values, name, ports, id, parent, dv, store, children, lib)
         == (if next.Fail? then Fail(next.error)
             else TransferFrom(next.value, name, ports[1..], id, parent, dv, store, children, lib))
  {
    match ports[0].constraints
    case None =>
      next := Ok(values);
    case Some(cs) =>
      var alts := PortAlternatives(ports[0], id, parent);
      next := TransferPort(values, name, ports[0], cs, alts, dv, store, children, lib);
      PortKeysOnly(values, name, ports[0], cs, alts, dv, store, children, lib, key);
  }

  lemma NoPortKeyTail(name: string, ports: seq<Port>, key: string)
    requires |ports| > 0 && NoPortKey(name, ports, key)
    ensures NoPortKey(name, ports[1..], key)
    ensures ports[0].constraints.Some? ==> key != name + "/" + ports[0].name
  {
    forall q | 0 <= q < |ports[1..]| && ports[1..][q].constraints.Some?
      ensures key != name + "/" + ports[1..][q].name
    {
      assert ports[1..][q] == ports[q + 1];
    }
  }

  /** One port only ever adds entries under its own key. */
  lemma {:induction false} PortKeysOnly(values: Values, name: string, port: Port, cs: seq<Constraint>,
                                        alts: seq<string>, dv: map<string, Value>, store: Store, children: nat,
                                        lib: Lib, key: string)
    requires key != name + "/" + port.name
    requires Absent(values, key)
    ensures var r := TransferPort(values, name, port, cs, alts, dv, store, children, lib);
      r.Ok? ==> Absent(r.value, key)
    decreases |alts|
  {
    if alts != [] {
      if alts[0] !in dv {
        PortKeysOnly(values, name, port, cs, alts[1..], dv, store, children, lib, key);
      } else {
        var t0 := PortTexts(dv[alts[0]], alts[0], cs, port.typeTag, store, children, lib);
        if t0.Ok? {
          var next := RecordFrom(values, name + "/" + port.name, t0.value, 0);
          PortKeysOnly(next, name, port, cs, alts[1..], dv, store, children, lib, key);
        }
      }
    }
  }

  /** The loop of `transferOutVals` over the ports from the first of
      `ports` on, adding to `values`: entries under keys no constrained port
      owns are kept, and each constrained port whose name no later
      constrained port reuses delivers its last gathered alternative. */
  function TransferFrom(values: Values, name: string, ports: seq<Port>, id: int, parent: Option<ParentRef>,
                        dv: map<string, Value>, store: Store, children: nat, lib: Lib): (r: Result<Values>)
    ensures (forall i :: 0 <= i < |ports| ==> ports[i].constraints.None?) ==> r == Ok(values)
    ensures r.Ok? ==> |r.value| >= |values|
    ensures r.Ok? ==> forall i, k :: 0 <= i < |values| && k in values[i] && NoPortKey(name, ports, k) ==>
      k in r.value[i] && r.value[i][k] == values[i][k]
    ensures r.Ok? ==> forall q :: LastConstrainedOfName(ports, q) ==>
      PortDelivered(r.value, name, ports, q, id, parent, dv, store, children, lib)
    decreases |ports|
  {
    if ports == [] then Ok(values)
    else
      var port := ports[0];
      assert forall i :: 1 <= i < |ports| ==> ports[i] == ports[1..][i - 1];
      match port.constraints
      case None =>
        var r := TransferFrom(values, name, ports[1..], id, parent, dv, store, children, lib);
        TransferFromShift(r, name, ports, id, parent, dv, store, children, lib);
        TransferFromKeeps(values, values, r, name, ports);
        r
      case Some(cs) =>
        var next :- TransferPort(values, name, port, cs, PortAlternatives(port, id, parent), dv, store, children, lib);
        var r := TransferFrom(next, name, ports[1..], id, parent, dv, store, children, lib);
        TransferFromShift(r, name, ports, id, parent, dv, store, children, lib);
        TransferFromFirst(next, r, name, ports, id, parent, dv, store, children, lib);
        TransferFromKeeps(values, next, r, name, ports);
        r
  }

  /** The delivery of every constrained port after the first carries over
      from the tail of the port list. */
  lemma TransferFromShift(r: Result<Values>, name: string, ports: seq<Port>, id: int, parent: Option<ParentRef>,
                          dv: map<string, Value>, store: Store, children: nat, lib: Lib)
    requires |ports| > 0
    requires r.Ok? ==> forall q :: LastConstrainedOfName(ports[1..], q) ==>
      PortDelivered(r.value, name, ports[1..], q, id, parent, dv, store, children, lib)
    ensures r.Ok? ==> forall q :: LastConstrainedOfName(ports, q) && q >= 1 ==>
      PortDelivered(r.value, name, ports, q, id, parent, dv, store, children, lib)
  {
    forall q | r.Ok? && LastConstrainedOfName(ports, q) && q >= 1
      ensures PortDelivered(r.value, name, ports, q, id, parent, dv, store, children, lib)
    {
      assert ports[q] == ports[1..][q - 1];
      assert LastConstrainedOfName(ports[1..], q - 1);
    }
  }

  /** The first port, when it is the last constrained one of its name,
      keeps what it delivered through the rest of the loop. */
  lemma TransferFromFirst(next: Values, r: Result<Values>, name: string, ports: seq<Port>, id: int,
                          parent: Option<ParentRef>, dv: map<string, Value>, store: Store, children: nat, lib: Lib)
    requires |ports| > 0 && ports[0].constraints.Some?
    requires PortDelivered(next, name, ports, 0, id, parent, dv, store, children, lib)
    requires r.Ok? ==> |r.value| >= |next|
    requires r.Ok? ==> forall i, k :: 0 <= i < |next| && k in next[i] && NoPortKey(name, ports[1..], k) ==>
      k in r.value[i] && r.value[i][k] == next[i][k]
    ensures r.Ok? && LastConstrainedOfName(ports, 0) ==>
      PortDelivered(r.value, name, ports, 0, id, parent, dv, store, children, lib)
  {
    if r.Ok? && LastConstrainedOfName(ports, 0) {
      var key := name + "/" + ports[0].name;
      forall q | 0 <= q < |ports[1..]| && ports[1..][q].constraints.Some?
        ensures key != name + "/" + ports[1..][q].name
      {
        assert ports[1..][q] == ports[q + 1];
        PortKeyInjective(name, ports[0].name, ports[q + 1].name);
      }
      assert NoPortKey(name, ports[1..], key);
    }
  }

  /** Different port names give different entry keys. */
  lemma PortKeyInjective(name: string, a: string, b: string)
    ensures name + "/" + a == name + "/" + b ==> a == b
  {
    assert (name + "/" + a)[|name| + 1..] == a;
    assert (name + "/" + b)[|name| + 1..] == b;
  }

  /** Entries under no constrained port's key survive the first port and
      then the rest of the loop. */
  lemma TransferFromKeeps(values: Values, next: Values, r: Result<Values>, name: string, ports: seq<Port>)
    requires |ports| > 0
    requires |next| >= |values|
    requires forall i, k :: 0 <= i < |values| && k in values[i] && !OwnedByFirst(name, ports, k) ==>
      k in next[i] && next[i][k] == values[i][k]
    requires r.Ok? ==> |r.value| >= |next|
    requires r.Ok? ==> forall i, k :: 0 <= i < |next| && k in next[i] && NoPortKey(name, ports[1..], k) ==>
      k in r.value[i] && r.value[i][k] == next[i][k]
    ensures r.Ok? ==> forall i, k :: 0 <= i < |values| && k in values[i] && NoPortKey(name, ports, k) ==>
      k in r.value[i] && r.value[i][k] == values[i][k]
  {
    forall i, k | r.Ok? && 0 <= i < |values| && k in values[i] && NoPortKey(name, ports, k)
      ensures k in r.value[i] && r.value[i][k] == values[i][k]
    {
      forall q | 0 <= q < |ports[1..]| && ports[1..][q].constraints.Some?
        ensures k != name + "/" + ports[1..][q].name
      {
        assert ports[1..][q] == ports[q + 1];
      }
      assert NoPortKey(name, ports[1..], k);
      assert !OwnedByFirst(name, ports, k);
    }
  }

  /** `key` is the entry key of the first port, which is constrained. */
  predicate OwnedByFirst(name: string, ports: seq<Port>, key: string)
    requires |ports| > 0
  {
    ports[0].constraints.Some? && key == name + "/" + ports[0].name
  }

  /** The state writes for iteration `i`: every entry `key` is stored as text
      under `key/(i+1)`. */
  function WriteIteration(store: Store, entries: map<string, string>, i: nat): (r: Store)
    ensures r.Keys == store.Keys + (set k | k in entries :: WriteKey(k, i + 1))
    ensures forall k :: k in entries ==> r[WriteKey(k, i + 1)] == JString(entries[k])
    ensures forall x :: x in store && (forall k :: k in entries ==> x != WriteKey(k, i + 1)) ==> r[x] == store[x]
  {
    store + Scoped(entries, i + 1)
  }

  /** The entries of one iteration, as strings under their scoped paths. */
  function Scoped(entries: map<string, string>, n: int): (m: Store)
    requires n != 0
    ensures m.Keys == set k | k in entries :: WriteKey(k, n)
    ensures forall k :: k in entries ==> m[WriteKey(k, n)] == JString(entries[k])
  {
    WriteKeyInjective(n);
    map k | k in entries :: WriteKey(k, n) := JString(entries[k])
  }

  /** Within one iteration, different keys are written to different paths. */
  lemma WriteKeyInjective(n: int)
    requires n != 0
    ensures forall a, b :: WriteKey(a, n) == WriteKey(b, n) ==> a == b
  {
    forall a, b | WriteKey(a, n) == WriteKey(b, n)
      ensures a == b
    {
      WriteKeyUnique(a, n, b, n);
    }
  }

  /** The state writes of the child loop of `call` for iterations `i` to
      `n - 1`. */
  function WriteFrom(store: Store, values: Values, i: nat, n: nat): (r: Store)
    requires i <= n <= |values|
    ensures forall j, k :: i <= j < n && k in values[j] ==>
      WriteKey(k, j + 1) in r && r[WriteKey(k, j + 1)] == JString(values[j][k])
    ensures forall x :: x in store ==> x in r
    ensures forall x :: x in r ==> x in store || exists j, k :: i <= j < n && k in values[j] && x == WriteKey(k, j + 1)
    ensures forall x :: (x in store && forall j, k :: i <= j < n && k in values[j] ==> x != WriteKey(k, j + 1)) ==>
      r[x] == store[x]
    decreases n - i
  {
    if i == n then store
    else
      var next := WriteIteration(store, values[i], i);
      var r := WriteFrom(next, values, i + 1, n);
      forall k | k in values[i]
        ensures r[WriteKey(k, i + 1)] == JString(values[i][k])
      {
        forall j, k' | i + 1 <= j < n && k' in values[j]
          ensures WriteKey(k, i + 1) != WriteKey(k', j + 1)
        {
          if WriteKey(k, i + 1) == WriteKey(k', j + 1) {
            WriteKeyUnique(k, i + 1, k', j + 1);
          }
        }
      }
      r
  }

  /** The state writes of `call`: only iterations that exist and have an
      entry are written. */
  function WriteChunks(store: Store, values: Values, children: nat): (r: Store)
    ensures var n := if children < |values| then children else |values|;
      forall j, k :: 0 <= j < n && k in values[j] ==>
        WriteKey(k, j + 1) in r && r[WriteKey(k, j + 1)] == JString(values[j][k])
    ensures forall x :: x in store ==> x in r
    ensures var n := if children < |values| then children else |values|;
      forall x :: x in r ==> x in store || exists j, k :: 0 <= j < n && k in values[j] && x == WriteKey(k, j + 1)
    ensures var n := if children < |values| then children else |values|;
      forall x :: (x in store && forall j, k :: 0 <= j < n && k in values[j] ==> x != WriteKey(k, j + 1)) ==>
        r[x] == store[x]
  {
    WriteFrom(store, values, 0, if children < |values| then children else |values|)
  }

  /** A configured parallel-for start node. */
  datatype ForNode = ForNode(
    name: string,
    id: int,
    parent: Option<ParentRef>,
    ports: seq<Port>,
    spec: LoopSpec,
    maxThreads: int,
    startTime: int,
    children: seq<Node>)

  /** The constructor: the loop counter is parsed, then the constraints. */
  function NewForNode(name: string, ports: seq<Port>, lc: LoopCounter, constraints: Option<seq<Constraint>>,
                      children: seq<Node>): (n: ForNode)
    ensures n.spec == ParseLoopCounter(lc)
    ensures constraints.None? ==> n.maxThreads == DefaultThreads
    ensures constraints.Some? ==> n.maxThreads == ConcurrencyFrom(constraints.value, 0, DefaultThreads)
    ensures n.id == 0 && n.parent.None? && n.ports == ports && n.children == children
  {
    ForNode(name, 0, None, ports, ParseLoopCounter(lc), MaxThreads(constraints), 0, children)
  }

  /** `passResult`: input entries under a port's raw source or a counter
      variable's name are kept. */
  function PassForResult(node: ForNode, inputs: Inputs, input: map<string, Value>): (r: Inputs)
    ensures r.dataValues.Keys == inputs.dataValues.Keys + (set k | k in PortSources(node.ports) && k in input)
    ensures r.counterValues.Keys == inputs.counterValues.Keys + (set k | k in CounterNames(node.spec) && k in input)
    ensures forall k :: k in PortSources(node.ports) && k in input ==> r.dataValues[k] == input[k]
    ensures forall k :: k in CounterNames(node.spec) && k in input ==> r.counterValues[k] == input[k]
    ensures forall k :: k in inputs.dataValues && (k !in PortSources(node.ports) || k !in input) ==>
      r.dataValues[k] == inputs.dataValues[k]
    ensures forall k :: k in inputs.counterValues && (k !in CounterNames(node.spec) || k !in input) ==>
      r.counterValues[k] == inputs.counterValues[k]
  {
    Inputs(CopyPresent(inputs.dataValues, PortSources(node.ports), input),
           CopyPresent(inputs.counterValues, CounterNames(node.spec), input))
  }

  /** The raw source of every port, in order. */
  function PortSources(ports: seq<Port>): (s: seq<string>)
    ensures |s| == |ports| && forall i :: 0 <= i < |ports| ==> s[i] == ports[i].source
  {
    seq(|ports|, i requires 0 <= i < |ports| => ports[i].source)
  }

  /** What `call` leaves behind once the iterations are handed to the pool:
      the set-up iterations, the end node's parent count, the pool size and
      the state with the distributed inputs written. */
  datatype Launch = Launch(children: seq<Node>, joinCount: nat, poolSize: nat, store: Store)

  /** The part of `call` after the bounds are read: unrolling, the pool,
      the distribution of the inputs, the setup of every iteration and the
      state writes. */
  function Launched(node: ForNode, dv: map<string, Value>, start: int, end: int, store: Store, lib: Lib)
    : (r: Result<Launch>)
    requires IsInt32(start) && IsInt32(end)
    ensures r.Ok? ==> IterationCount(start, end, node.spec.step).Ok?
    ensures r.Ok? ==> |r.value.children| == |node.children| + IterationCount(start, end, node.spec.step).value
    ensures r.Ok? ==> |r.value.children| == r.value.joinCount >= |node.children| > 0
    ensures r.Ok? ==> r.value.poolSize == if node.maxThreads < r.value.joinCount then node.maxThreads else r.value.joinCount
    ensures r.Ok? ==> forall i :: 0 <= i < |r.value.children| ==>
      r.value.children[i] == SetupChild(if i < |node.children| then node.children[i] else node.children[0], i,
        Wrap32(end - 1), ForwardedLimit(node.maxThreads), node.startTime)
    ensures node.children == [] ==> r.Fail?
    ensures r.Ok? ==> store.Keys <= r.value.store.Keys
    ensures r.Ok? ==> forall x :: x in r.value.store && x !in store ==>
      r.value.store[x].JString? && exists j, k :: 1 <= j <= |r.value.children| && x == WriteKey(k, j)
    ensures r.Ok? ==>
      var t := TransferOutVals(node.name, node.ports, node.id, node.parent, dv, store, |r.value.children|, lib);
      && t.Ok?
      && forall j, k :: 0 <= j < |r.value.children| && j < |t.value| && k in t.value[j] ==>
           WriteKey(k, j + 1) in r.value.store && r.value.store[WriteKey(k, j + 1)] == JString(t.value[j][k])
  {
    var unrolled :- Unroll(node.children, start, end, node.spec.step);
    var pool :- PoolSize(|unrolled.children|, node.maxThreads);
    var values :- TransferOutVals(node.name, node.ports, node.id, node.parent, dv, store, |unrolled.children|, lib);
    var kids := SetupChildren(unrolled.children, Wrap32(end - 1), ForwardedLimit(node.maxThreads), node.startTime);
    CloneIsCopy(node.children[0]);
    Ok(Launch(kids, unrolled.joinCount, pool, WriteChunks(store, values, |kids|)))
  }

  /** `call`, up to the submission of the iterations. */
  function Call(node: ForNode, inputs: Inputs, store: Store, lib: Lib): (r: Result<Launch>)
    requires LiteralsFit(node.spec)
    ensures r.Ok? ==> |r.value.children| == r.value.joinCount >= |node.children| > 0
    ensures r.Ok? ==> r.value.poolSize == if node.maxThreads < r.value.joinCount then node.maxThreads else r.value.joinCount
    ensures node.children == [] ==> r.Fail?
    ensures GatherData(node.ports, node.id, node.parent, inputs.dataValues, store, lib).Ok?
      && node.spec.from.Variable?
      && ResolveName(node.spec.from.name, GatherCounters(CounterNames(node.spec), inputs.counterValues, store)).Fail?
      ==> r == Fail(MissingInputData(node.spec.from.name))
    ensures var counters := GatherCounters(CounterNames(node.spec), inputs.counterValues, store);
      GatherData(node.ports, node.id, node.parent, inputs.dataValues, store, lib).Ok?
      && (node.spec.from.Literal? || ResolveName(node.spec.from.name, counters).Ok?)
      && node.spec.to.Variable? && ResolveName(node.spec.to.name, counters).Fail?
      ==> r == Fail(MissingInputData(node.spec.to.name))
  {
    var dv :- GatherData(node.ports, node.id, node.parent, inputs.dataValues, store, lib);
    var counters := GatherCounters(CounterNames(node.spec), inputs.counterValues, store);
    var bounds :- ResolveBounds(node.spec, counters, lib);
    Launched(node, dv, bounds.0, bounds.1, store, lib)
  }

  /** A successful `call` resolved both bounds; it runs one clone per
      iteration of the range beyond the body nodes, and every child's loop
      bound is the 32-bit `to - 1`. */
  lemma CallBounds(node: ForNode, inputs: Inputs, store: Store, lib: Lib)
    requires LiteralsFit(node.spec)
    ensures var r := Call(node, inputs, store, lib);
      r.Ok? ==>
      var counters := GatherCounters(CounterNames(node.spec), inputs.counterValues, store);
      && ResolveBounds(node.spec, counters, lib).Ok?
      && var (start, end) := ResolveBounds(node.spec, counters, lib).value;
      && IterationCount(start, end, node.spec.step).Ok?
      && |r.value.children| == |node.children| + IterationCount(start, end, node.spec.step).value
      && forall i :: 0 <= i < |r.value.children| ==> r.value.children[i].maxLoopCounter == Wrap32(end - 1)
  {
    var r := Call(node, inputs, store, lib);
    if r.Ok? {
      var dv := GatherData(node.ports, node.id, node.parent, inputs.dataValues, store, lib).value;
      var counters := GatherCounters(CounterNames(node.spec), inputs.counterValues, store);
      var bounds := ResolveBounds(node.spec, counters, lib).value;
      assert r == Launched(node, dv, bounds.0, bounds.1, store, lib);
    }
  }

  /** The iterations of a successful `call`: child `i` is body node `i`, or
      for a clone the first body node, set up for iteration `i` with id
      `i + 1`, the shared loop bound and the forwarded limit. */
  lemma CallIterations(node: ForNode, inputs: Inputs, store: Store, lib: Lib)
    requires LiteralsFit(node.spec)
    ensures var r := Call(node, inputs, store, lib);
      r.Ok? ==> forall i :: 0 <= i < |r.value.children| ==>
        r.value.children[i].id == i + 1 && r.value.children[i].loopCounter == i
        && r.value.children[i].concurrencyLimit == ForwardedLimit(node.maxThreads)
    ensures var r := Call(node, inputs, store, lib);
      r.Ok? ==> forall i :: 0 <= i < |r.value.children| ==>
        r.value.children[i] == SetupChild(if i < |node.children| then node.children[i] else node.children[0], i,
          r.value.children[0].maxLoopCounter, ForwardedLimit(node.maxThreads), node.startTime)
  {
    var r := Call(node, inputs, store, lib);
    if r.Ok? {
      var dv := GatherData(node.ports, node.id, node.parent, inputs.dataValues, store, lib).value;
      var counters := GatherCounters(CounterNames(node.spec), inputs.counterValues, store);
      var bounds := ResolveBounds(node.spec, counters, lib).value;
      assert r == Launched(node, dv, bounds.0, bounds.1, store, lib);
    }
  }

  /** The state writes of a successful `call`: the store only gains keys, each
      new key is `key/j` for an iteration `j` and holds a string, and entry
      `k` of iteration `j`'s distributed inputs is stored under `k/(j + 1)`. */
  lemma CallWrites(node: ForNode, inputs: Inputs, store: Store, lib: Lib)
    requires LiteralsFit(node.spec)
    ensures var r := Call(node, inputs, store, lib);
      r.Ok? ==> store.Keys <= r.value.store.Keys
    ensures var r := Call(node, inputs, store, lib);
      r.Ok? ==> forall x :: x in r.value.store && x !in store ==>
        r.value.store[x].JString? && exists j, k :: 1 <= j <= |r.value.children| && x == WriteKey(k, j)
    ensures var r := Call(node, inputs, store, lib);
      r.Ok? ==>
      && GatherData(node.ports, node.id, node.parent, inputs.dataValues, store, lib).Ok?
      && var dv := GatherData(node.ports, node.id, node.parent, inputs.dataValues, store, lib).value;
      var t := TransferOutVals(node.name, node.ports, node.id, node.parent, dv, store, |r.value.children|, lib);
      && t.Ok?
      && forall j, k :: 0 <= j < |r.value.children| && j < |t.value| && k in t.value[j] ==>
           WriteKey(k, j + 1) in r.value.store && r.value.store[WriteKey(k, j + 1)] == JString(t.value[j][k])
  {
    var r := Call(node, inputs, store, lib);
    if r.Ok? {
      var dv := GatherData(node.ports, node.id, node.parent, inputs.dataValues, store, lib).value;
      var counters := GatherCounters(CounterNames(node.spec), inputs.counterValues, store);
      var bounds := ResolveBounds(node.spec, counters, lib).value;
      assert r == Launched(node, dv, bounds.0, bounds.1, store, lib);
    }
  }
}

=== FILE: sources.dfy ===
/** How a start node turns a port's declared source into state keys: the
    scope suffix, the whitespace/bracket/comma grammar of alternatives, and the
    sub-object path rule for sources with more than one `/`. */
module Sources {
  import opened Failures
  import opened Text
  import opened Numerals
  import opened JsonValues
  import opened Nodes
  import opened StateStore

  /** The scope a start node reads its inputs in: its own id, or else the id
      of its first parent unless that parent closes a parallel-for, or else the
      top level (0). */
  function ScopeId(id: int, parent: Option<ParentRef>): (s: int)
    ensures id != 0 ==> s == id
    ensures id == 0 && parent.Some? && parent.value.id != 0 && parent.value.kind != ParallelForEnd
      ==> s == parent.value.id
    ensures id == 0 && (parent.None? || parent.value.id == 0 || parent.value.kind == ParallelForEnd) ==> s == 0
  {
    if id != 0 then id
    else if parent.Some? && parent.value.id != 0 && parent.value.kind != ParallelForEnd then parent.value.id
    else 0
  }

  /** The source string of a port as qualified by the node's scope: `source/id`,
      `source/parentId`, or the bare source. */
  function SourceKey(source: string, id: int, parent: Option<ParentRef>): (key: string)
    ensures key == WriteKey(source, ScopeId(id, parent))
    ensures id == 0 && (parent.None? || parent.value.kind == ParallelForEnd) ==> key == source
  {
    if id != 0 then source + "/" + IntToString(id)
    else if parent.Some? && parent.value.id != 0 && parent.value.kind != ParallelForEnd then
      source + "/" + IntToString(parent.value.id)
    else source
  }

  /** A reader inside iteration or branch `id` looks up exactly the path a
      writer in the same scope stores under, and readers in different scopes
      look up different paths. */
  lemma ScopedReadsMatchWrites(source: string, id: int, parent: Option<ParentRef>, other: int)
    requires id != 0
    ensures SourceKey(source, id, parent) == WriteKey(source, id)
    ensures other != id ==> SourceKey(source, id, parent) != WriteKey(source, other)
  {
    if other != id {
      WriteKeysDistinct(source, id, other);
    }
  }

  /** The alternative keys of a qualified source: whitespace and brackets are
      deleted, then the text is split on commas (trailing empty alternatives
      dropped). */
  function Alternatives(key: string): (alts: seq<string>)
    ensures forall i, c :: 0 <= i < |alts| && c in alts[i] ==> c != ',' && c !in SourceNoise
    ensures var fields := SplitKeep(Remove(key, SourceNoise), ',');
      && alts <= fields
      && (forall i :: |alts| <= i < |fields| ==> fields[i] == [])
      && Join(fields, ',') == Remove(key, SourceNoise)
  {
    JoinSplitKeep(Remove(key, SourceNoise), ',');
    SplitKeepChars(Remove(key, SourceNoise), ',');
    JavaSplit(Remove(key, SourceNoise), ',')
  }

  /** `JavaSplit` keeps every field when the last one is non-empty. */
  lemma JavaSplitKeepsAll(s: string, sep: char)
    requires var fs := SplitKeep(s, sep); fs[|fs| - 1] != []
    ensures JavaSplit(s, sep) == SplitKeep(s, sep)
  {
  }

  /** A clean source list `a,b,c` in a scope with an id: the scope suffix
      attaches to the last alternative only, so the earlier alternatives are
      looked up unscoped. */
  lemma OnlyLastAlternativeScoped(alts: seq<string>, id: int, parent: Option<ParentRef>)
    requires |alts| > 0 && id != 0
    requires forall i :: 0 <= i < |alts| ==> CleanSource(alts[i])
    ensures Alternatives(SourceKey(Join(alts, ','), id, parent))
         == alts[..|alts| - 1] + [alts[|alts| - 1] + "/" + IntToString(id)]
  {
    var n := IntToString(id);
    SuffixIsClean(id);
    ScopedAlternatives(alts, "/" + n);
    ConcatAssoc(Join(alts, ','), "/", n);
    ConcatAssoc(alts[|alts| - 1], "/", n);
  }

  /** No comma, whitespace or bracket. */
  predicate CleanSource(s: string) {
    ',' !in s && Avoids(s, SourceNoise)
  }

  lemma ScopedAlternatives(alts: seq<string>, d: string)
    requires |alts| > 0 && d != [] && CleanSource(d)
    requires forall i :: 0 <= i < |alts| ==> CleanSource(alts[i])
    ensures Alternatives(Join(alts, ',') + d) == alts[..|alts| - 1] + [alts[|alts| - 1] + d]
  {
    CleanJoin(alts, d);
    SplitWithSuffix(alts, d);
  }

  lemma ConcatAssoc(x: string, y: string, z: string)
    ensures x + (y + z) == x + y + z
  {
  }

  lemma SuffixIsClean(id: int)
    ensures CleanSource("/" + IntToString(id))
  {
    var d := "/" + IntToString(id);
    IntToStringIsNumeral(id);
    assert forall k :: 1 <= k < |d| ==> d[k] == IntToString(id)[k - 1];
    assert Avoids(d, SourceNoise + {','});
  }

  lemma CleanJoin(alts: seq<string>, d: string)
    requires |alts| > 0 && Avoids(d, SourceNoise)
    requires forall i :: 0 <= i < |alts| ==> Avoids(alts[i], SourceNoise)
    ensures Remove(Join(alts, ',') + d, SourceNoise) == Join(alts, ',') + d
  {
    var src := Join(alts, ',');
    JoinAvoids(alts, ',', SourceNoise);
    RemoveNothing(src, SourceNoise);
    RemoveNothing(d, SourceNoise);
    RemoveConcat(src, d, SourceNoise);
  }

  lemma SplitWithSuffix(alts: seq<string>, d: string)
    requires |alts| > 0 && ',' !in d && d != []
    requires forall i :: 0 <= i < |alts| ==> ',' !in alts[i]
    ensures JavaSplit(Join(alts, ',') + d, ',') == alts[..|alts| - 1] + [alts[|alts| - 1] + d]
  {
    var src := Join(alts, ',');
    SplitKeepJoin(alts, ',');
    SplitKeepAppend(src, d, ',');
    var fs := SplitKeep(src + d, ',');
    assert fs == alts[..|alts| - 1] + [alts[|alts| - 1] + d];
    assert fs[|fs| - 1] != [];
    JavaSplitKeepsAll(src + d, ',');
  }

  /** A single clean source names exactly one alternative, itself. */
  lemma SingleSourceIsOnlyAlternative(source: string)
    requires CleanSource(source)
    ensures Alternatives(source) == [source]
  {
    RemoveNothing(source, SourceNoise);
  }

  /** The sub-object read for a source with more than one `/`: the part before
      the second `/` names a stored value and the rest is a path inside it;
      other sources have no sub-object. */
  function SubObject(store: Store, path: string, lib: Lib): (r: Result<Option<string>>)
    ensures Count(path, '/') <= 1 ==> r == Ok(None)
  {
    var count := Count(path, '/');
    if count > 1 then
      var k := SecondSlash(path);
      FindJsonSubObject(store, path[..k], path[k + 1..], count, lib)
    else Ok(None)
  }

  /** A sub-object read of `path` does not look at `key`: either the path
      has no sub-object, or its stored part (before the second `/`) is not
      `key`. */
  predicate SubObjectAvoids(path: string, key: string) {
    Count(path, '/') <= 1 || key != path[..SecondSlash(path)]
  }

  /** Writing a key the sub-object read does not look at leaves the read
      unchanged. */
  lemma SubObjectFrame(store: Store, key: string, v: Json, path: string, lib: Lib)
    requires SubObjectAvoids(path, key)
    ensures SubObject(store[key := v], path, lib) == SubObject(store, path, lib)
  {
    if Count(path, '/') > 1 {
      var head := path[..SecondSlash(path)];
      assert (head in store[key := v]) == (head in store);
      if head in store {
        assert store[key := v][head] == store[head];
      }
    }
  }

  /** For a source `a/b/sub` with slash-free `a` and `b`, the sub-object is
      looked up at `a/b` along `sub`, with the slash count of the whole source. */
  lemma SubObjectSplitsAtSecondSlash(store: Store, a: string, b: string, sub: string, lib: Lib)
    requires '/' !in a && '/' !in b
    ensures var path := a + "/" + b + "/" + sub;
      SubObject(store, path, lib) == FindJsonSubObject(store, a + "/" + b, sub, 2 + Count(sub, '/'), lib)
  {
    var path := a + "/" + b + "/" + sub;
    var head := a + "/" + b;
    PathSlashCount(a, b, sub);
    var k := SecondSlash(path);
    SecondSlashAt(a, b, sub, k);
    assert path[..k] == head;
    assert path[k + 1..] == sub;
  }

  lemma PathSlashCount(a: string, b: string, sub: string)
    requires '/' !in a && '/' !in b
    ensures Count(a + "/" + b + "/" + sub, '/') == 2 + Count(sub, '/')
  {
    var head := a + "/" + b;
    CountConcat(a + "/", b, '/');
    CountConcat(a, "/", '/');
    CountConcat(head + "/", sub, '/');
    CountConcat(head, "/", '/');
  }

  lemma SecondSlashAt(a: string, b: string, sub: string, k: nat)
    requires '/' !in a && '/' !in b
    requires var path := a + "/" + b + "/" + sub; k < |path| && path[k] == '/' && Count(path[..k], '/') == 1
    ensures k == |a| + 1 + |b|
  {
    var path := a + "/" + b + "/" + sub;
    var j := |a| + 1 + |b|;
    if k > j {
      assert path[..k] == a + "/" + b + "/" + path[j + 1..k];
      CountConcat(a + "/" + b + "/", path[j + 1..k], '/');
      CountConcat(a + "/" + b, "/", '/');
      CountConcat(a + "/", b, '/');
      CountConcat(a, "/", '/');
    }
  }
}

=== FILE: state.dfy ===
/** The engine's state store: one JSON object mapping slash-separated paths to
    values, written with a typed conversion of a function's textual result,
    and read back either whole or by walking into nested objects. */
module StateStore {
  import opened Failures
  import opened Text
  import opened Numerals
  import opened JsonValues
  import opened Workflow

  /** The store's top-level JSON object, keyed by path. */
  type Store = map<string, Json>

  /** The path a value is written under: `name`, or `name/id` for a node that
      runs inside a numbered branch or iteration. */
  function WriteKey(name: string, id: int): string {
    if id != 0 then name + "/" + IntToString(id) else name
  }

  /** A path ending in a `/`-free segment determines that segment and the
      part before it. */
  lemma SlashSuffixInjective(a: string, b: string, s1: string, s2: string)
    requires '/' !in s1 && '/' !in s2
    requires a + "/" + s1 == b + "/" + s2
    ensures a == b && s1 == s2
  {
    var x := a + "/" + s1;
    assert x[|a|] == '/' && x[|b|] == '/';
    assert forall j :: |a| < j < |x| ==> x[j] == s1[j - |a| - 1];
    assert forall j :: |b| < j < |x| ==> x[j] == s2[j - |b| - 1];
    assert |a| == |b|;
    assert a == x[..|a|] == b;
    assert s1 == x[|a| + 1..] == s2;
  }

  /** Two iterations with different ids never share a path, so their writes
      cannot interfere. */
  lemma WriteKeysDistinct(name: string, i: int, j: int)
    requires i != j
    ensures WriteKey(name, i) != WriteKey(name, j)
  {
    IntToStringHasNoSlash(i);
    IntToStringHasNoSlash(j);
    if i != 0 && j != 0 && WriteKey(name, i) == WriteKey(name, j) {
      SlashSuffixInjective(name, name, IntToString(i), IntToString(j));
      IntToStringInjective(i, j);
    }
  }

  /** Two scoped keys agree only when both the name and the scope do. */
  lemma WriteKeyUnique(a: string, i: int, b: string, j: int)
    requires i != 0 && j != 0 && WriteKey(a, i) == WriteKey(b, j)
    ensures a == b && i == j
  {
    IntToStringHasNoSlash(i);
    IntToStringHasNoSlash(j);
    SlashSuffixInjective(a, b, IntToString(i), IntToString(j));
    IntToStringInjective(i, j);
  }

  /** The four port types a result can be converted to. */
  datatype TypeTag = StringType | NumberType | CollectionType | BooleanType

  /** The type switch of `addParamToState`: the tag is lower-cased first, and
      any other tag is an `IllegalStateException`. */
  function ParseTypeTag(tag: string): (r: Result<TypeTag>)
    ensures r.Ok? <==> ToLower(tag) in {"string", "number", "collection", "boolean"}
    ensures r.Fail? ==> r.error.IllegalState?
  {
    var t := ToLower(tag);
    if t == "string" then Ok(StringType)
    else if t == "number" then Ok(NumberType)
    else if t == "collection" then Ok(CollectionType)
    else if t == "boolean" then Ok(BooleanType)
    else Fail(IllegalState("Unexpected type: " + t))
  }


  lemma RemoveKeepsEnds(t: string, cs: set<char>)
    requires |t| >= 2 && t[0] !in cs && t[|t| - 1] !in cs
    ensures Remove(t, cs) == [t[0]] + Remove(t[1..|t| - 1], cs) + [t[|t| - 1]]
  {
    assert t == [t[0]] + t[1..|t| - 1] + [t[|t| - 1]];
    RemoveConcat([t[0]] + t[1..|t| - 1], [t[|t| - 1]], cs);
    RemoveConcat([t[0]], t[1..|t| - 1], cs);
  }

  /** `s` starts with `open` and ends with `close`. */
  predicate Enclosed(s: string, open: char, close: char) {
    StartsWith(s, [open]) && EndsWith(s, [close])
  }

  /** The text between the brackets of a bracketed list, with quotes and
      backslashes deleted (the code deletes them before cutting the brackets
      off, which comes to the same). */
  function ListBody(t: string): (inner: string)
    requires Enclosed(t, '[', ']')
    ensures inner == Remove(t[1..|t| - 1], QuoteOrBackslash)
  {
    assert t[0] == '[' && t[|t| - 1] == ']';
    RemoveKeepsEnds(t, QuoteOrBackslash);
    var u := Remove(t, QuoteOrBackslash);
    u[1..|u| - 1]
  }

  /** One JSON string per comma-separated field of `inner`, trimmed. */
  function ListElements(inner: string): (elems: seq<Json>)
    ensures |elems| == |SplitKeep(inner, ',')|
  {
    var fields := SplitKeep(inner, ',');
    seq(|fields|, i requires 0 <= i < |fields| => JString(Trim(fields[i])))
  }

  /** The `"collection"` conversion: a bracketed text is split on commas (empty
      fields kept, each trimmed) unless it holds objects; a braced text is
      parsed as one object; any other text yields no value (JSON null). */
  function CollectionToJson(result: string, lib: Lib): Json {
    TrimmedCollectionToJson(Trim(result), lib)
  }

  function TrimmedCollectionToJson(t: string, lib: Lib): Json {
    if Enclosed(t, '[', ']') then
      var inner := ListBody(t);
      if Enclosed(inner, '{', '}') then lib.parseObjectList("[" + inner + "]")
      else JArray(ListElements(inner))
    else if Enclosed(t, '{', '}') then lib.parse(t)
    else JNull
  }

  /** The value `addParamToState` stores for a result text of a given type. A
      number with a `.` must still be one `Double.parseDouble` accepts. */
  function ToJson(result: string, tag: TypeTag, lib: Lib): Result<Json> {
    match tag
    case StringType => Ok(JString(Remove(result, {'"'})))
    case NumberType =>
      var t := Remove(result, QuoteOrBackslash);
      if '.' in t then
        if lib.truncateDouble(t).Some? then Ok(JDouble(t)) else Fail(NumberFormat(t))
      else (match ParseInt32(t)
            case Some(n) => Ok(JInt(n))
            case None => Fail(NumberFormat(t)))
    case CollectionType => Ok(CollectionToJson(result, lib))
    case BooleanType => Ok(JBool(ToLower(result) == "true"))
  }

  /** `addParamToState`: convert `result` by its type tag and store it under
      `WriteKey(name, id)`, leaving every other path alone. */
  function AddParamToState(store: Store, result: string, name: string, id: int, typeTag: string, lib: Lib)
    : (r: Result<Store>)
    ensures r.Ok? <==> ParseTypeTag(typeTag).Ok? && ToJson(result, ParseTypeTag(typeTag).value, lib).Ok?
    ensures r.Ok? ==> r.value.Keys == store.Keys + {WriteKey(name, id)}
    ensures r.Ok? ==> r.value[WriteKey(name, id)] == ToJson(result, ParseTypeTag(typeTag).value, lib).value
    ensures r.Ok? ==> forall k :: k in store && k != WriteKey(name, id) ==> r.value[k] == store[k]
  {
    var tag :- ParseTypeTag(typeTag);
    var v :- ToJson(result, tag, lib);
    Ok(store[WriteKey(name, id) := v])
  }

  /** A `"string"` result is stored without its double quotes: the text a JSON
      string prints as comes back as the string itself. */
  lemma StringResultDropsQuotes(s: string, lib: Lib)
    requires '"' !in s
    ensures ToJson(s, StringType, lib) == Ok(JString(s))
    ensures ToJson("\"" + s + "\"", StringType, lib) == Ok(JString(s))
  {
    var q: string := "\"";
    RemoveNothing(s, {'"'});
    assert Remove(q, {'"'}) == [];
    RemoveConcat(q + s, q, {'"'});
    RemoveConcat(q, s, {'"'});
    assert Remove(q + s + q, {'"'}) == s;
  }

  /** The `"number"` conversion takes the double branch exactly when the
      stripped text has a `.` (and parses as a double), and otherwise stores the
      32-bit integer the text denotes, failing when there is none. */
  lemma NumberBranch(result: string, lib: Lib)
    ensures var t := Remove(result, QuoteOrBackslash); var r := ToJson(result, NumberType, lib);
      && ('.' in t && lib.truncateDouble(t).Some? <==> r == Ok(JDouble(t)))
      && ('.' !in t ==> (r.Ok? <==> ParseInt32(t).Some?))
      && (r.Ok? && r.value.JInt? ==> '.' !in t && Some(r.value.n) == ParseInt32(t))
      && (r.Fail? ==> r == Fail(NumberFormat(t)))
  {
  }

  lemma NumberText(t: string, stripped: string, n: int, lib: Lib)
    requires Remove(t, QuoteOrBackslash) == stripped
    requires '.' !in stripped && ParseInt32(stripped) == Some(n)
    ensures ToJson(t, NumberType, lib) == Ok(JInt(n))
  {
  }

  /** A 32-bit integer printed by Java, bare or quoted, is stored as that
      integer. */
  lemma NumberResultRoundTrip(n: int, lib: Lib)
    requires IsInt32(n)
    ensures ToJson(IntToString(n), NumberType, lib) == Ok(JInt(n))
    ensures ToJson("\"" + IntToString(n) + "\"", NumberType, lib) == Ok(JInt(n))
  {
    var s := IntToString(n);
    var q: string := "\"";
    IntToStringIsNumeral(n);
    assert forall i :: 0 <= i < |s| ==> s[i] !in QuoteOrBackslash;
    RemoveNothing(s, QuoteOrBackslash);
    assert Remove(q, QuoteOrBackslash) == [];
    RemoveConcat(q + s, q, QuoteOrBackslash);
    RemoveConcat(q, s, QuoteOrBackslash);
    ParseIntToString(n);
    NumberText(s, s, n, lib);
    NumberText(q + s + q, s, n, lib);
  }

  /** A bracketed list that does not hold objects becomes one trimmed string
      per comma-separated field, empty fields included: the element count is
      the number of commas plus one, and the untrimmed fields join back into
      the stripped text between the brackets. */
  lemma CollectionElements(result: string, lib: Lib)
    requires Enclosed(Trim(result), '[', ']')
    requires !Enclosed(ListBody(Trim(result)), '{', '}')
    ensures var inner := ListBody(Trim(result));
      var fields := SplitKeep(inner, ',');
      var v := CollectionToJson(result, lib);
      && v.JArray?
      && |v.elems| == Count(inner, ',') + 1
      && Join(fields, ',') == inner
      && forall i :: 0 <= i < |v.elems| ==> v.elems[i] == JString(Trim(fields[i]))
  {
    JoinSplitKeep(ListBody(Trim(result)), ',');
  }

  /** An item that a bracketed list hands back unchanged: already trimmed, and
      free of commas, quotes, backslashes and braces. */
  predicate PlainItem(s: string) {
    Trim(s) == s && ListItem(s)
  }

  /** An item free of commas, quotes, backslashes and braces. */
  predicate ListItem(s: string) {
    ',' !in s && Avoids(s, ListReserved)
  }

  /** Quotes, backslashes and braces. */
  const ListReserved: set<char> := QuoteOrBackslash + {'{', '}'}

  /** No character of `s` is in `cs`. */
  predicate Avoids(s: string, cs: set<char>) {
    forall k :: 0 <= k < |s| ==> s[k] !in cs
  }

  /** Round trip: a bracketed, comma-separated list of plain items converts to
      exactly those items, in order. */
  lemma CollectionRoundTrip(items: seq<string>, lib: Lib)
    requires |items| > 0
    requires forall i :: 0 <= i < |items| ==> PlainItem(items[i])
    ensures CollectionToJson("[" + Join(items, ',') + "]", lib)
         == JArray(seq(|items|, i requires 0 <= i < |items| => JString(items[i])))
  {
    var inner := Join(items, ',');
    var t := "[" + inner + "]";
    assert ListItems(items) by {
      forall i | 0 <= i < |items|
        ensures ListItem(items[i])
      {
        assert PlainItem(items[i]);
      }
    }
    PlainListConverts(items, lib);
    calc {
      CollectionToJson(t, lib);
      { BracketedIsTrimmed(inner); }
      TrimmedCollectionToJson(t, lib);
      JArray(ListElements(inner));
      { PlainElements(items); }
      JArray(seq(|items|, i requires 0 <= i < |items| => JString(items[i])));
    }
  }

  predicate ListItems(items: seq<string>) {
    forall i :: 0 <= i < |items| ==> ListItem(items[i])
  }

  lemma PlainElements(items: seq<string>)
    requires |items| > 0
    requires forall i :: 0 <= i < |items| ==> PlainItem(items[i])
    requires SplitKeep(Join(items, ','), ',') == items
    ensures ListElements(Join(items, ',')) == seq(|items|, i requires 0 <= i < |items| => JString(items[i]))
  {
  }

  lemma PlainListConverts(items: seq<string>, lib: Lib)
    requires |items| > 0
    requires ListItems(items)
    ensures SplitKeep(Join(items, ','), ',') == items
    ensures TrimmedCollectionToJson("[" + Join(items, ',') + "]", lib) == JArray(ListElements(Join(items, ',')))
  {
    JoinAvoids(items, ',', ListReserved);
    ListBodyConverts(Join(items, ','), lib);
    SplitKeepJoin(items, ',');
  }

  lemma ListBodyConverts(inner: string, lib: Lib)
    requires Avoids(inner, ListReserved)
    ensures TrimmedCollectionToJson("[" + inner + "]", lib) == JArray(ListElements(inner))
  {
    PlainListBody(inner);
    assert !Enclosed(inner, '{', '}') by {
      if |inner| > 0 { assert inner[0] !in {'{'}; }
    }
  }

  lemma PlainListBody(inner: string)
    requires Avoids(inner, QuoteOrBackslash)
    ensures var t := "[" + inner + "]"; Enclosed(t, '[', ']') && ListBody(t) == inner
  {
    BracketedIsEnclosed(inner);
    var t := "[" + inner + "]";
    assert t[1..|t| - 1] == inner;
    RemoveNothing(inner, QuoteOrBackslash);
  }

  lemma BracketedIsTrimmed(inner: string)
    ensures Trim("[" + inner + "]") == "[" + inner + "]"
  {
    var t := "[" + inner + "]";
    assert t[0] == '[' && t[|t| - 1] == ']';
    TrimIdentity(t);
  }

  lemma BracketedIsEnclosed(inner: string)
    ensures Enclosed("[" + inner + "]", '[', ']')
  {
    var t := "[" + inner + "]";
    assert t[..1] == "[";
    assert t[|t| - 1..] == "]";
  }

  lemma {:induction false} JoinAvoids(items: seq<string>, sep: char, cs: set<char>)
    requires |items| > 0 && sep !in cs
    requires forall i :: 0 <= i < |items| ==> Avoids(items[i], cs)
    ensures Avoids(Join(items, sep), cs)
  {
    if |items| > 1 {
      JoinAvoids(items[1..], sep, cs);
      var rest := Join(items[1..], sep);
      var j := Join(items, sep);
      assert j == items[0] + [sep] + rest;
      forall k | 0 <= k < |j|
        ensures j[k] !in cs
      {
        if k < |items[0]| {
          assert j[k] == items[0][k];
        } else if k > |items[0]| {
          assert j[k] == rest[k - |items[0]| - 1];
        }
      }
    }
  }

  /** The empty list literal is read as one empty string, not as no elements. */
  lemma EmptyCollectionHasOneEmptyElement(lib: Lib)
    ensures CollectionToJson("[]", lib) == JArray([JString("")])
  {
    var t := "[]";
    TrimIdentity(t);
    assert ListBody(t) == "";
    assert SplitKeep("", ',') == [""];
  }

  /** A text that is neither bracketed nor braced stores JSON null. */
  lemma CollectionWithoutDelimitersIsNull(result: string, lib: Lib)
    requires !Enclosed(Trim(result), '[', ']') && !Enclosed(Trim(result), '{', '}')
    ensures CollectionToJson(result, lib) == JNull
  {
  }

  /** The outcome of `addResultToState`: the store as left behind, and the
      exception that stopped it, if any. Writes made before the exception stay. */
  datatype Written = Written(store: Store, failure: Option<Error>)

  /** The path of a declared output of function `name`. */
  function OutputKey(name: string, output: string, id: int): string {
    WriteKey(name + "/" + output, id)
  }

  /** Output `o` is present in the result and converts cleanly to its type. */
  predicate Converts(fields: map<string, string>, o: Output, lib: Lib) {
    o.name in fields
    && ParseTypeTag(o.typeTag).Ok?
    && ToJson(fields[o.name], ParseTypeTag(o.typeTag).value, lib).Ok?
  }

  /** The first output from index `i` on that does not convert, or the number
      of outputs when all of them do. */
  function FirstBad(fields: map<string, string>, outputs: seq<Output>, i: nat, lib: Lib): (k: nat)
    requires i <= |outputs|
    ensures i <= k <= |outputs|
    ensures forall j :: i <= j < k ==> Converts(fields, outputs[j], lib)
    ensures k < |outputs| ==> !Converts(fields, outputs[k], lib)
    decreases |outputs| - i
  {
    if i == |outputs| || !Converts(fields, outputs[i], lib) then i
    else FirstBad(fields, outputs, i + 1, lib)
  }

  /** The value output `o` is stored as, once it converts. */
  function Converted(fields: map<string, string>, o: Output, lib: Lib): Json
    requires Converts(fields, o, lib)
  {
    ToJson(fields[o.name], ParseTypeTag(o.typeTag).value, lib).value
  }

  /** No output after `j` and before `k` has the name of output `j`, so the
      value written for `j` is the one that stays. */
  predicate LastOfName(outputs: seq<Output>, j: nat, k: nat)
    requires j < k <= |outputs|
  {
    forall j' :: j < j' < k ==> outputs[j'].name != outputs[j].name
  }

  /** Within one scope, different outputs of a function have different paths. */
  lemma OutputKeyInjective(name: string, id: int)
    ensures forall a, b :: OutputKey(name, a, id) == OutputKey(name, b, id) ==> a == b
  {
    forall a, b | OutputKey(name, a, id) == OutputKey(name, b, id)
      ensures a == b
    {
      if id != 0 {
        WriteKeyUnique(name + "/" + a, id, name + "/" + b, id);
      }
      assert a == (name + "/" + a)[|name| + 1..];
      assert b == (name + "/" + b)[|name| + 1..];
    }
  }

  /** What outputs `i` to `k - 1`, all of which convert, leave in the store
      `after` that was `before`: exactly their paths are added, each holds the
      converted value of the last output of that name, and every other path
      keeps its value. */
  predicate StoredFrom(before: Store, after: Store, fields: map<string, string>, name: string, id: int,
                       outputs: seq<Output>, i: nat, k: nat, lib: Lib)
    requires i <= k <= |outputs|
    requires forall j :: i <= j < k ==> Converts(fields, outputs[j], lib)
  {
    && after.Keys == before.Keys + OutputKeys(name, id, outputs, i, k)
    && HoldsLast(after, fields, name, id, outputs, i, k, lib)
    && KeepsOtherPaths(before, after, name, id, outputs, i, k)
  }

  function OutputKeys(name: string, id: int, outputs: seq<Output>, i: nat, k: nat): set<string>
    requires i <= k <= |outputs|
  {
    set j | i <= j < k :: OutputKey(name, outputs[j].name, id)
  }

  /** Each output in `i` to `k - 1` that no later one in range shares a name
      with has its converted value in `after`. */
  predicate HoldsLast(after: Store, fields: map<string, string>, name: string, id: int,
                      outputs: seq<Output>, i: nat, k: nat, lib: Lib)
    requires i <= k <= |outputs|
    requires forall j :: i <= j < k ==> Converts(fields, outputs[j], lib)
  {
    forall j :: i <= j < k && LastOfName(outputs, j, k) ==>
      && OutputKey(name, outputs[j].name, id) in after
      && after[OutputKey(name, outputs[j].name, id)] == Converted(fields, outputs[j], lib)
  }

  /** Every path of `before` that is not an output path of `i` to `k - 1`
      keeps its value in `after`. */
  predicate KeepsOtherPaths(before: Store, after: Store, name: string, id: int, outputs: seq<Output>, i: nat, k: nat)
    requires i <= k <= |outputs|
  {
    forall x :: x in before && (forall j :: i <= j < k ==> x != OutputKey(name, outputs[j].name, id)) ==>
      x in after && after[x] == before[x]
  }

  /** Writing output `i` and then outputs `i + 1` to `k - 1` is writing
      outputs `i` to `k - 1`. */
  lemma StoredStep(store: Store, next: Store, after: Store, fields: map<string, string>, name: string, id: int,
                   outputs: seq<Output>, i: nat, k: nat, lib: Lib)
    requires i < k <= |outputs|
    requires forall j :: i <= j < k ==> Converts(fields, outputs[j], lib)
    requires next.Keys == store.Keys + {OutputKey(name, outputs[i].name, id)}
    requires next[OutputKey(name, outputs[i].name, id)] == Converted(fields, outputs[i], lib)
    requires forall x :: x in store && x != OutputKey(name, outputs[i].name, id) ==> next[x] == store[x]
    requires StoredFrom(next, after, fields, name, id, outputs, i + 1, k, lib)
    ensures StoredFrom(store, after, fields, name, id, outputs, i, k, lib)
  {
    OutputKeysStep(name, id, outputs, i, k);
    UnionStep(store.Keys, next.Keys, after.Keys, OutputKey(name, outputs[i].name, id),
              OutputKeys(name, id, outputs, i + 1, k));
    HoldsLastStep(next, after, fields, name, id, outputs, i, k, lib);
    KeepsOtherPathsStep(store, next, after, name, id, outputs, i, k);
  }

  lemma OutputKeysStep(name: string, id: int, outputs: seq<Output>, i: nat, k: nat)
    requires i < k <= |outputs|
    ensures OutputKeys(name, id, outputs, i, k) == {OutputKey(name, outputs[i].name, id)} + OutputKeys(name, id, outputs, i + 1, k)
  {
  }

  lemma UnionStep<T>(a: set<T>, b: set<T>, c: set<T>, x: T, rest: set<T>)
    requires b == a + {x} && c == b + rest
    ensures c == a + ({x} + rest)
  {
  }

  lemma HoldsLastStep(next: Store, after: Store, fields: map<string, string>, name: string, id: int,
                      outputs: seq<Output>, i: nat, k: nat, lib: Lib)
    requires i < k <= |outputs|
    requires forall j :: i <= j < k ==> Converts(fields, outputs[j], lib)
    requires OutputKey(name, outputs[i].name, id) in next
    requires next[OutputKey(name, outputs[i].name, id)] == Converted(fields, outputs[i], lib)
    requires HoldsLast(after, fields, name, id, outputs, i + 1, k, lib)
    requires KeepsOtherPaths(next, after, name, id, outputs, i + 1, k)
    ensures HoldsLast(after, fields, name, id, outputs, i, k, lib)
  {
    var key := OutputKey(name, outputs[i].name, id);
    if LastOfName(outputs, i, k) {
      forall j | i + 1 <= j < k
        ensures key != OutputKey(name, outputs[j].name, id)
      {
        OutputKeyInjective(name, id);
      }
    }
    forall j | i + 1 <= j < k && LastOfName(outputs, j, k)
      ensures LastOfName(outputs, j, k)
    {
    }
  }

  lemma KeepsOtherPathsStep(store: Store, next: Store, after: Store, name: string, id: int,
                            outputs: seq<Output>, i: nat, k: nat)
    requires i < k <= |outputs|
    requires forall x :: x in store && x != OutputKey(name, outputs[i].name, id) ==> x in next && next[x] == store[x]
    requires KeepsOtherPaths(next, after, name, id, outputs, i + 1, k)
    ensures KeepsOtherPaths(store, after, name, id, outputs, i, k)
  {
    forall x | x in store && (forall j :: i <= j < k ==> x != OutputKey(name, outputs[j].name, id))
      ensures x in after && after[x] == store[x]
    {
      assert x != OutputKey(name, outputs[i].name, id);
    }
  }

  /** The loop of `addResultToState` from output `i` on. */
  function StoreOutputs(store: Store, fields: map<string, string>, name: string, id: int,
                        outputs: seq<Output>, i: nat, lib: Lib): (w: Written)
    requires i <= |outputs|
    ensures StoredFrom(store, w.store, fields, name, id, outputs, i, FirstBad(fields, outputs, i, lib), lib)
    ensures w.failure.None? <==> FirstBad(fields, outputs, i, lib) == |outputs|
    ensures var k := FirstBad(fields, outputs, i, lib);
      k < |outputs| && outputs[k].name !in fields ==> w.failure == Some(MissingOutputData(outputs[k].name))
    decreases |outputs| - i
  {
    if i == |outputs| then Written(store, None)
    else
      var o := outputs[i];
      if o.name !in fields then Written(store, Some(MissingOutputData(o.name)))
      else
        match AddParamToState(store, fields[o.name], name + "/" + o.name, id, o.typeTag, lib)
        case Fail(e) => Written(store, Some(e))
        case Ok(next) =>
          var w := StoreOutputs(next, fields, name, id, outputs, i + 1, lib);
          StoredStep(store, next, w.store, fields, name, id, outputs, i, FirstBad(fields, outputs, i, lib), lib);
          w
  }

  /** `addResultToState`: `fields` holds the members of the function's JSON
      result, each as its printed text. The declared outputs are stored in
      order under `name/output[/id]`; the first missing output is a
      `MissingOutputDataException`, and the outputs before it stay written. */
  function AddResultToState(store: Store, fields: map<string, string>, name: string, id: int,
                            outputs: seq<Output>, lib: Lib): (w: Written)
    ensures StoredFrom(store, w.store, fields, name, id, outputs, 0, FirstBad(fields, outputs, 0, lib), lib)
    ensures w.failure.None? <==> forall j :: 0 <= j < |outputs| ==> Converts(fields, outputs[j], lib)
    ensures var k := FirstBad(fields, outputs, 0, lib);
      k < |outputs| && outputs[k].name !in fields ==> w.failure == Some(MissingOutputData(outputs[k].name))
  {
    StoreOutputs(store, fields, name, id, outputs, 0, lib)
  }

  /** The reference reading of a sub-key path: descend through objects; a
      missing last key is absent, a missing or non-object intermediate value is
      the exception the engine runs into. */
  function PathLookup(obj: map<string, Json>, path: seq<string>): Result<Option<Json>>
    requires |path| > 0
    decreases |path|
  {
    if |path| == 1 then Ok(if path[0] in obj then Some(obj[path[0]]) else None)
    else if path[0] !in obj then Fail(NullDereference)
    else match obj[path[0]]
      case JObject(m) => PathLookup(m, path[1..])
      case _ => Fail(UnsupportedOperation)
  }

  /** The loop of `findJSONSubObject` over the sub-keys from index `i`: each
      step prints the member it finds, and while `i < count - 2` re-parses that
      text and descends into it. */
  function WalkSubKeys(obj: map<string, Json>, keys: seq<string>, i: nat, count: int,
                       retval: Option<string>, lib: Lib): Result<Option<string>>
    requires i <= |keys|
    decreases |keys| - i
  {
    if i == |keys| then Ok(retval)
    else
      var text := if keys[i] in obj then Some(lib.show(obj[keys[i]])) else None;
      if i < count - 2 then
        if text.None? then Fail(NullDereference)
        else match lib.parse(text.value)
          case JObject(m) => WalkSubKeys(m, keys, i + 1, count, text, lib)
          case _ => Fail(UnsupportedOperation)
      else WalkSubKeys(obj, keys, i + 1, count, text, lib)
  }

  function ShowFound(r: Result<Option<Json>>, lib: Lib): Result<Option<string>> {
    match r
    case Fail(e) => Fail(e)
    case Ok(None) => Ok(None)
    case Ok(Some(j)) => Ok(Some(lib.show(j)))
  }

  /** When Gson reads back what it prints and the slash count matches the
      number of sub-keys, the walk is exactly the reference path lookup. */
  lemma {:induction false} WalkIsPathLookup(obj: map<string, Json>, keys: seq<string>, i: nat,
                                            retval: Option<string>, lib: Lib)
    requires ReadsBack(lib)
    requires i < |keys|
    ensures WalkSubKeys(obj, keys, i, |keys| + 1, retval, lib) == ShowFound(PathLookup(obj, keys[i..]), lib)
    decreases |keys| - i
  {
    var count := |keys| + 1;
    var k := keys[i];
    if i == |keys| - 1 {
      assert keys[i..] == [k];
    } else {
      assert keys[i..][1..] == keys[i + 1..];
      if k in obj {
        assert lib.parse(lib.show(obj[k])) == obj[k];
        match obj[k]
        case JObject(m) => WalkIsPathLookup(m, keys, i + 1, Some(lib.show(obj[k])), lib);
        case _ =>
      }
    }
  }

  /** `findJSONSubObject(dataSource, subKey, count)`: no value when the path is
      absent; for a stored non-object, its own text (arrays print, primitives
      give their string); for an object, the walk over `subKey` split on `/`. */
  function FindJsonSubObject(store: Store, dataSource: string, subKey: string, count: int, lib: Lib)
    : (r: Result<Option<string>>)
    ensures dataSource !in store ==> r == Ok(None)
    ensures dataSource in store && store[dataSource].JArray? ==> r == Ok(Some(lib.show(store[dataSource])))
    ensures dataSource in store && store[dataSource].JString? ==> r == Ok(Some(store[dataSource].s))
    ensures dataSource in store && store[dataSource].JInt? ==> r == Ok(Some(IntToString(store[dataSource].n)))
    ensures dataSource in store && store[dataSource].JBool? ==>
      r == Ok(Some(if store[dataSource].b then "true" else "false"))
    ensures dataSource in store && store[dataSource].JDouble? ==> r == Ok(Some(lib.show(store[dataSource])))
    ensures dataSource in store && store[dataSource].JNull? ==> r == Fail(UnsupportedOperation)
  {
    if dataSource !in store then Ok(None)
    else
      var elem := store[dataSource];
      match elem
      case JObject(m) => WalkSubKeys(m, JavaSplit(subKey, '/'), 0, count, None, lib)
      case JArray(_) => Ok(Some(lib.show(elem)))
      case _ =>
        (match AsString(elem, lib)
         case Ok(s) => Ok(Some(s))
         case Fail(e) => Fail(e))
  }

  /** For a stored object, a well-formed sub-key path whose `/` count matches
      the call's yields the printed member at the end of the path, or no value
      when the last key is missing. */
  lemma FindJsonSubObjectLooksUp(store: Store, dataSource: string, subKey: string, lib: Lib)
    requires ReadsBack(lib)
    requires dataSource in store && store[dataSource].JObject?
    requires |JavaSplit(subKey, '/')| > 0
    ensures var keys := JavaSplit(subKey, '/');
      FindJsonSubObject(store, dataSource, subKey, |keys| + 1, lib)
        == ShowFound(PathLookup(store[dataSource].fields, keys), lib)
  {
    var keys := JavaSplit(subKey, '/');
    WalkIsPathLookup(store[dataSource].fields, keys, 0, None, lib);
    assert keys[0..] == keys;
  }
}

=== FILE: text.dfy ===
/** The handful of `java.lang.String` operations the engine relies on,
    written as pure functions over `seq<char>`. */
module Text {

  /** The characters matched by the regular-expression class `\s`. */
  predicate IsWhitespace(c: char) {
    c == ' ' || '\t' <= c <= '\r'
  }

  /** The characters `String.trim` strips: every code point up to U+0020. */
  predicate IsTrimmable(c: char) {
    c <= ' '
  }

  predicate StartsWith(s: string, prefix: string) {
    prefix <= s
  }

  predicate EndsWith(s: string, suffix: string) {
    |suffix| <= |s| && s[|s| - |suffix|..] == suffix
  }

  /** `s.contains(pattern)`. */
  predicate Contains(s: string, pattern: string)
    decreases |s|
  {
    pattern <= s || (|s| > 0 && Contains(s[1..], pattern))
  }

  /** A text lacking one of the pattern's characters does not contain it. */
  lemma {:induction false} MissingCharNotContained(s: string, pattern: string, c: char)
    requires c in pattern && c !in s
    ensures !Contains(s, pattern)
    decreases |s|
  {
    if |s| > 0 {
      MissingCharNotContained(s[1..], pattern, c);
    }
  }

  /** Number of occurrences of `c` in `s`. */
  function Count(s: string, c: char): (n: nat)
    ensures n <= |s|
    ensures n == 0 <==> c !in s
  {
    if s == [] then 0 else (if s[0] == c then 1 else 0) + Count(s[1..], c)
  }

  lemma CountConcat(a: string, b: string, c: char)
    ensures Count(a + b, c) == Count(a, c) + Count(b, c)
  {
    if a != [] {
      assert (a + b)[1..] == a[1..] + b;
    } else {
      assert a + b == b;
    }
  }

  /** The characters of `s` that satisfy `keep`, in order. */
  function Filter(s: string, keep: char -> bool): (r: string)
    ensures |r| <= |s|
    ensures forall i :: 0 <= i < |r| ==> keep(r[i])
    ensures forall i :: 0 <= i < |s| && keep(s[i]) ==> s[i] in r
  {
    if s == [] then []
    else
      var rest := Filter(s[1..], keep);
      assert forall i :: 1 <= i < |s| ==> s[i] == s[1..][i - 1];
      (if keep(s[0]) then [s[0]] else []) + rest
  }

  lemma {:induction false} FilterConcat(a: string, b: string, keep: char -> bool)
    ensures Filter(a + b, keep) == Filter(a, keep) + Filter(b, keep)
  {
    if a == [] {
      assert a + b == b;
    } else {
      assert (a + b)[1..] == a[1..] + b;
      FilterConcat(a[1..], b, keep);
    }
  }

  lemma {:induction false} FilterKeepsAll(s: string, keep: char -> bool)
    requires forall i :: 0 <= i < |s| ==> keep(s[i])
    ensures Filter(s, keep) == s
  {
    if s != [] {
      FilterKeepsAll(s[1..], keep);
    }
  }

  lemma {:induction false} FilterNone(s: string, keep: char -> bool)
    requires forall i :: 0 <= i < |s| ==> !keep(s[i])
    ensures Filter(s, keep) == []
  {
    if s != [] {
      FilterNone(s[1..], keep);
    }
  }

  /** `s` with every character of `cs` deleted, as a chain of
      `replace`/`replaceAll` calls that each delete one character class does. */
  function Remove(s: string, cs: set<char>): (r: string)
    ensures |r| <= |s|
    ensures forall i :: 0 <= i < |r| ==> r[i] !in cs
  {
    if s == [] then []
    else
      var rest := Remove(s[1..], cs);
      assert forall i :: 1 <= i < |s| ==> s[i] == s[1..][i - 1];
      (if s[0] in cs then [] else [s[0]]) + rest
  }

  lemma {:induction false} RemoveConcat(a: string, b: string, cs: set<char>)
    ensures Remove(a + b, cs) == Remove(a, cs) + Remove(b, cs)
  {
    if a == [] {
      assert a + b == b;
    } else {
      assert (a + b)[1..] == a[1..] + b;
      RemoveConcat(a[1..], b, cs);
    }
  }

  lemma {:induction false} RemoveNothing(s: string, cs: set<char>)
    requires forall i :: 0 <= i < |s| ==> s[i] !in cs
    ensures Remove(s, cs) == s
  {
    if s != [] {
      RemoveNothing(s[1..], cs);
    }
  }

  /** The characters `replaceAll("\"", "").replaceAll("\\\\", "")` deletes. */
  const QuoteOrBackslash: set<char> := {'"', '\\'}

  /** What `replaceAll("\\s+", "")`, `replaceAll("\\[", "")` and
      `replaceAll("\\]", "")` delete from a data-source string. */
  const SourceNoise: set<char> := {' ', '\t', '\n', '\U{B}', '\U{C}', '\r', '[', ']'}

  lemma SourceNoiseIsWhitespaceOrBracket(c: char)
    ensures c in SourceNoise <==> IsWhitespace(c) || c == '[' || c == ']'
  {
  }

  /** `s.toLowerCase(Locale.ROOT)` restricted to ASCII letters. */
  function ToLower(s: string): (r: string)
    ensures |r| == |s|
  {
    if s == [] then []
    else [if 'A' <= s[0] <= 'Z' then (s[0] as int + 32) as char else s[0]] + ToLower(s[1..])
  }

  /** `s` without its leading trimmable characters. */
  function TrimStart(s: string): (r: string)
    ensures |r| <= |s| && r == s[|s| - |r|..]
    ensures r == [] || !IsTrimmable(r[0])
    ensures forall i :: 0 <= i < |s| - |r| ==> IsTrimmable(s[i])
  {
    if s != [] && IsTrimmable(s[0]) then TrimStart(s[1..]) else s
  }

  /** `s` without its trailing trimmable characters. */
  function TrimEnd(s: string): (r: string)
    ensures |r| <= |s| && r == s[..|r|]
    ensures r == [] || !IsTrimmable(r[|r| - 1])
    ensures forall i :: |r| <= i < |s| ==> IsTrimmable(s[i])
  {
    if s != [] && IsTrimmable(s[|s| - 1]) then TrimEnd(s[..|s| - 1]) else s
  }

  /** `s.trim()`. */
  function Trim(s: string): string {
    TrimEnd(TrimStart(s))
  }

  /** `Trim` cuts a contiguous slice out of `s`, starting at `TrimOffset(s)`,
      and removes only trimmable characters. */
  lemma {:induction false} TrimSlice(s: string)
    ensures var a, r := TrimOffset(s), Trim(s);
      a + |r| <= |s| && r == s[a..a + |r|]
      && (forall i :: 0 <= i < a ==> IsTrimmable(s[i]))
      && (forall i :: a + |r| <= i < |s| ==> IsTrimmable(s[i]))
  {
    var t := TrimStart(s);
    var r := TrimEnd(t);
    var a := |s| - |t|;
    SliceOfSlice(s, a, |r|);
    forall i | a + |r| <= i < |s|
      ensures IsTrimmable(s[i])
    {
      assert s[i] == t[i - a];
    }
  }

  lemma SliceOfSlice(s: string, a: nat, n: nat)
    requires a + n <= |s|
    ensures s[a..][..n] == s[a..a + n]
  {
  }

  /** `Trim` leaves no trimmable character at either end. */
  lemma {:induction false} TrimEnds(s: string)
    ensures var r := Trim(s); r == [] || (!IsTrimmable(r[0]) && !IsTrimmable(r[|r| - 1]))
  {
    var t := TrimStart(s);
    var r := TrimEnd(t);
    if r != [] {
      assert r[0] == t[0];
    }
  }

  /** Where `Trim(s)` starts inside `s`. */
  function TrimOffset(s: string): nat {
    |s| - |TrimStart(s)|
  }

  /** A string with no trimmable character at either end is its own trim. */
  lemma TrimIdentity(s: string)
    requires s == [] || (!IsTrimmable(s[0]) && !IsTrimmable(s[|s| - 1]))
    ensures Trim(s) == s
  {
  }

  /** `s.split(sep, -1)`: every field between separators, empty ones kept. */
  function SplitKeep(s: string, sep: char): (fields: seq<string>)
    ensures |fields| == Count(s, sep) + 1
    ensures forall i :: 0 <= i < |fields| ==> sep !in fields[i]
  {
    if s == [] then [[]]
    else
      var rest := SplitKeep(s[1..], sep);
      if s[0] == sep then [[]] + rest else [[s[0]] + rest[0]] + rest[1..]
  }

  /** Every character of a field comes from the split string. */
  lemma {:induction false} SplitKeepChars(s: string, sep: char)
    ensures forall i, k :: 0 <= i < |SplitKeep(s, sep)| && 0 <= k < |SplitKeep(s, sep)[i]| ==>
      SplitKeep(s, sep)[i][k] in s
  {
    if s != [] {
      SplitKeepChars(s[1..], sep);
      var rest := SplitKeep(s[1..], sep);
      var fs := SplitKeep(s, sep);
      forall i, k | 0 <= i < |fs| && 0 <= k < |fs[i]|
        ensures fs[i][k] in s
      {
        if s[0] != sep && i == 0 {
          if k > 0 {
            assert fs[0][k] == rest[0][k - 1];
          }
        } else {
          var j := if s[0] != sep then i else i - 1;
          assert fs[i] == rest[j];
          assert rest[j][k] in s[1..];
          assert s == [s[0]] + s[1..];
        }
      }
    }
  }

  /** The inverse of `SplitKeep`: the fields with `sep` between them. */
  function Join(fields: seq<string>, sep: char): string
    requires |fields| > 0
  {
    if |fields| == 1 then fields[0] else fields[0] + [sep] + Join(fields[1..], sep)
  }

  /** Joining the fields of a split gives back the split string. */
  lemma {:induction false} JoinSplitKeep(s: string, sep: char)
    ensures Join(SplitKeep(s, sep), sep) == s
  {
    if s != [] {
      var rest := SplitKeep(s[1..], sep);
      JoinSplitKeep(s[1..], sep);
      if s[0] == sep {
        assert SplitKeep(s, sep)[1..] == rest;
      } else if |rest| == 1 {
        assert SplitKeep(s, sep) == [[s[0]] + rest[0]];
      } else {
        var fs := SplitKeep(s, sep);
        assert fs[1..] == rest[1..];
        assert Join(rest, sep) == rest[0] + [sep] + Join(rest[1..], sep);
      }
    }
  }

  lemma {:induction false} SplitKeepField(f: string, sep: char)
    requires sep !in f
    ensures SplitKeep(f, sep) == [f]
  {
    if f != [] {
      SplitKeepField(f[1..], sep);
      assert [f[0]] + f[1..] == f;
    }
  }

  lemma {:induction false} SplitKeepAfterField(f: string, x: string, sep: char)
    requires sep !in f
    ensures SplitKeep(f + [sep] + x, sep) == [f] + SplitKeep(x, sep)
  {
    if f == [] {
      assert f + [sep] + x == [sep] + x;
      assert ([sep] + x)[1..] == x;
    } else {
      assert (f + [sep] + x)[1..] == f[1..] + [sep] + x;
      SplitKeepAfterField(f[1..], x, sep);
      assert [f[0]] + f[1..] == f;
    }
  }

  /** Splitting a join gives back the fields, provided none holds `sep`. */
  lemma {:induction false} SplitKeepJoin(fields: seq<string>, sep: char)
    requires |fields| > 0
    requires forall i :: 0 <= i < |fields| ==> sep !in fields[i]
    ensures SplitKeep(Join(fields, sep), sep) == fields
  {
    if |fields| == 1 {
      SplitKeepField(fields[0], sep);
    } else {
      SplitKeepJoin(fields[1..], sep);
      SplitKeepAfterField(fields[0], Join(fields[1..], sep), sep);
      assert [fields[0]] + fields[1..] == fields;
    }
  }

  /** Extends the fields of a split by one more leading character. */
  function Prepend(c: char, fields: seq<string>, sep: char): seq<string>
    requires |fields| > 0
  {
    if c == sep then [[]] + fields else [[c] + fields[0]] + fields[1..]
  }

  lemma PrependLast(c: char, fields: seq<string>, d: string, sep: char)
    requires |fields| > 0
    ensures var n, p := |fields|, Prepend(c, fields, sep);
      Prepend(c, fields[..n - 1] + [fields[n - 1] + d], sep) == p[..|p| - 1] + [p[|p| - 1] + d]
  {
    var n := |fields|;
    var g := fields[..n - 1] + [fields[n - 1] + d];
    var p := Prepend(c, fields, sep);
    if c == sep {
      assert p[..|p| - 1] == [[]] + fields[..n - 1];
    } else if n == 1 {
      assert g == [fields[0] + d];
      assert p == [[c] + fields[0]];
      assert Prepend(c, g, sep) == [[c] + (fields[0] + d)];
      assert [c] + (fields[0] + d) == ([c] + fields[0]) + d;
    } else {
      assert g[0] == fields[0];
      assert g[1..] == fields[1..n - 1] + [fields[n - 1] + d];
      assert p[..|p| - 1] == [[c] + fields[0]] + fields[1..n - 1];
    }
  }

  /** Appending text free of `sep` only lengthens the last field. */
  lemma {:induction false} SplitKeepAppend(x: string, d: string, sep: char)
    requires sep !in d
    ensures var fs := SplitKeep(x, sep);
      SplitKeep(x + d, sep) == fs[..|fs| - 1] + [fs[|fs| - 1] + d]
  {
    if x == [] {
      SplitKeepField(d, sep);
      assert x + d == d;
    } else {
      assert (x + d)[1..] == x[1..] + d;
      assert (x + d)[0] == x[0];
      SplitKeepAppend(x[1..], d, sep);
      assert SplitKeep(x, sep) == Prepend(x[0], SplitKeep(x[1..], sep), sep);
      assert SplitKeep(x + d, sep) == Prepend(x[0], SplitKeep(x[1..] + d, sep), sep);
      PrependLast(x[0], SplitKeep(x[1..], sep), d, sep);
    }
  }

  /** The longest prefix of `fields` whose last field is non-empty. */
  function DropTrailingEmpty(fields: seq<string>): (r: seq<string>)
    ensures r <= fields
    ensures r == [] || r[|r| - 1] != []
    ensures forall i :: |r| <= i < |fields| ==> fields[i] == []
  {
    if fields == [] then []
    else if fields[|fields| - 1] == [] then DropTrailingEmpty(fields[..|fields| - 1])
    else fields
  }

  /** `s.split(sep)`: as `SplitKeep` but trailing empty fields are dropped,
      except that a string without `sep` is its own single field. */
  function JavaSplit(s: string, sep: char): (fields: seq<string>)
    ensures forall i :: 0 <= i < |fields| ==> sep !in fields[i]
    ensures fields <= SplitKeep(s, sep)
    ensures forall i :: |fields| <= i < |SplitKeep(s, sep)| ==> SplitKeep(s, sep)[i] == []
  {
    if sep !in s then
      SplitKeepField(s, sep);
      [s]
    else DropTrailingEmpty(SplitKeep(s, sep))
  }

  /** `s.replace(pattern, "")`: deletes the non-overlapping occurrences of
      `pattern`, scanning left to right. */
  function DeleteAll(s: string, pattern: string): (r: string)
    requires |pattern| > 0
    ensures |r| <= |s|
    decreases |s|
  {
    if |s| < |pattern| then s
    else if pattern <= s then DeleteAll(s[|pattern|..], pattern)
    else [s[0]] + DeleteAll(s[1..], pattern)
  }

  /** Deleting a pattern that does not occur changes nothing. */
  lemma {:induction false} DeleteAbsent(s: string, pattern: string)
    requires |pattern| > 0
    requires !Contains(s, pattern)
    ensures DeleteAll(s, pattern) == s
    decreases |s|
  {
    if |s| >= |pattern| {
      DeleteAbsent(s[1..], pattern);
    }
  }

  /** Index of the second `/` in a path holding at least two. */
  function SecondSlash(s: string): (k: nat)
    requires Count(s, '/') >= 2
    ensures k < |s| && s[k] == '/' && Count(s[..k], '/') == 1
  {
    var first := FirstIndex(s, '/');
    FirstSplitCount(s, first, '/');
    var rest := s[first + 1..];
    var second := FirstIndex(rest, '/');
    PrefixThroughSecond(s, first, second, '/');
    first + 1 + second
  }

  /** Cutting `s` just after its first `c` leaves one `c` before the cut. */
  lemma FirstSplitCount(s: string, first: nat, c: char)
    requires first < |s| && s[first] == c && c !in s[..first]
    ensures Count(s[..first + 1], c) == 1
    ensures Count(s[first + 1..], c) == Count(s, c) - 1
  {
    CountConcat(s[..first + 1], s[first + 1..], c);
    CountConcat(s[..first], [s[first]], c);
    assert s[..first + 1] + s[first + 1..] == s;
    assert s[..first] + [s[first]] == s[..first + 1];
  }

  lemma PrefixThroughSecond(s: string, first: nat, second: nat, c: char)
    requires first < |s| && Count(s[..first + 1], c) == 1
    requires second < |s[first + 1..]| && c !in s[first + 1..][..second]
    ensures Count(s[..first + 1 + second], c) == 1
  {
    var rest := s[first + 1..];
    assert s[..first + 1 + second] == s[..first + 1] + rest[..second];
    CountConcat(s[..first + 1], rest[..second], c);
  }

  /** Index of the first `c` in `s`. */
  function FirstIndex(s: string, c: char): (k: nat)
    requires c in s
    ensures k < |s| && s[k] == c && c !in s[..k]
  {
    if s[0] == c then 0
    else
      assert c in s[1..];
      var k := FirstIndex(s[1..], c);
      assert s[..k + 1] == [s[0]] + s[1..][..k];
      k + 1
  }
}

=== FILE: workflow.dfy ===
/** The workflow-description objects the control nodes are configured with
    (the AFCL `DataIns`, `DataOutsAtomic`, `PropertyConstraint` and
    `LoopCounter` records). */
module Workflow {
  import opened Failures

  /** A `PropertyConstraint`: a name and its textual value. */
  datatype Constraint = Constraint(name: string, value: string)

  /** A `DataIns` port: where its value comes from, what it is called, its
      declared type tag, its constraints (`None` when absent) and its
      `passing` flag. */
  datatype Port = Port(
    name: string,
    source: string,
    typeTag: string,
    constraints: Option<seq<Constraint>>,
    passing: bool)

  /** A `DataOutsAtomic`: a declared function output and its type tag. */
  datatype Output = Output(name: string, typeTag: string)

  /** A `LoopCounter`: the three textual loop bounds. */
  datatype LoopCounter = LoopCounter(from: string, to: string, step: string)
}
